=== FILE: README.md ===
# The GAP workforce portal — a Dafny model

The GAP portal is a single-page web client for a construction company's
workforce office. HR administrators manage employees and projects. Project
managers follow per-project dashboards and approve or reject their crews'
weekly timesheets. This project models the portal's core as pure Dafny
functions over immutable values and proves properties about them:

- the data layer's mode switch between an in-page mock backend and REST
  requests to the real one;
- the mock store with its seed data, counters, shallow-merge updates and
  JSON clones;
- the session kept in browser storage, the request interceptor that adds
  the bearer token, and the route guards;
- the route table and its redirects, the sidebar and the top bar;
- the logic of the four working pages: the employee and project
  administration pages (filters, forms, payloads, list updates), the
  project manager dashboard's redirects, and the timesheet approvals page.

JavaScript objects are `Json.Record = map<string, Value>`. Object spread is
`Json.Spread`, property access on a missing key gives `Undefined`, and `clone`
(the JSON round trip) is `Json.CloneRecord`. The mock store is a value. Every
store operation returns a `Reply` carrying its result (or the error it throws)
and the store afterwards. Browser storage is a `map<string, string>`. The clock
and the `Number` conversion are parameters.

Modules, in dependency order:

| module | models |
|---|---|
| `Wrappers`, `Seqs`, `Text`, `Json`, `JsonText`, `Uri` | `Option`/`Result`, `Array.prototype.filter`, string helpers (`toLowerCase`, `includes`, `split("/")`, `padStart`), JSON values, `JSON.stringify`/`JSON.parse` of the stored user, `encodeURIComponent` |
| `Users` | the signed-in user and its stored JSON text |
| `MockData` | `src/api/mockData.js` |
| `AuthStore`, `Client` | `src/auth/authStore.js`, `src/api/client.js` |
| `Service` | `src/api/service.js` |
| `Gates`, `AppRoutes` | `src/auth/RequireAuth.jsx`, `src/auth/RequireRole.jsx`, `src/App.jsx` |
| `Sidebar`, `Topbar` | `src/layout/Sidebar.jsx`, `src/layout/Topbar.jsx` |
| `PageLists`, `EmployeesPage`, `ProjectsPage` | `src/app/admin/EmployeesPage.jsx`, `src/app/admin/ProjectsPage.jsx` |
| `PmDashboard`, `TimesheetApprovals` | `src/app/pm/PMDashboard.jsx`, `src/app/pm/TimesheetApprovals.jsx` |

Some behaviour of the code that is easy to get wrong:

- `RequireRole` sends a user without the allowed role to `/app`. The index
  route then redirects by role, so the role's home is reached in a second
  step.
- `RequireRole` reads only the stored user, never the token.
- The mock store lets a decided timesheet be decided again. Only the page's
  button rule keeps a row from leaving APPROVED or REJECTED
  (`MockData.TimesheetRestamped`).
- New ids come from two counters that start one past the seed sizes. They
  are never computed from the ids already stored.
- The two session getters read their keys independently. A half-cleared
  session is seen as a token without a user, or the reverse
  (`AuthStore.GettersIndependent`).
- Routes match whole paths. A path selects a route only when it is the
  route's segments, each after one slash, with any number of trailing
  slashes. A doubled slash at the front or inside selects nothing, so such a
  path goes to login (`AppRoutes.DoubledSlashUnmatched`). The top bar's
  heading, in contrast, splits the path and drops empty segments.

## Model

| member | source | states |
|---|---|---|
| Json.Spread | src/api/mockData.js:331-334 | object spread: every key of the later object wins, every other key of the earlier one is kept, and no other key appears |
| Json.CloneIsSafe | src/api/mockData.js:301 | a JSON round trip of a defined value leaves no `undefined` anywhere inside it |
| Json.CloneOfSafe | src/api/mockData.js:301 | a value JSON can carry exactly comes back from the round trip unchanged |
| Json.CloneRecordShape | src/api/mockData.js:301 | cloning an object drops exactly its `undefined`-valued members, and the result is JSON-safe |
| Json.CloneRecordOfSafe | src/api/mockData.js:301 | cloning a JSON-safe object is the identity |
| Json.CloneRecordGet | src/api/mockData.js:301 | a member holding a JSON-safe value reads the same after the clone |
| Json.CloneRecordIdempotent | src/api/mockData.js:301 | cloning twice is cloning once |
| Json.FindFirst | src/api/mockData.js:327 | `findIndex`: the first position whose field equals the value, none before it; -1 exactly when no element matches |
| Json.ReplaceWhere | src/app/admin/EmployeesPage.jsx:136 | `map` that swaps in the saved record: same length, matching entries replaced, all others unchanged |
| Seqs.Filter | src/app/admin/EmployeesPage.jsx:74 | `filter`: every kept element passes and comes from the input, and every passing input element is kept |
| Seqs.FilterAppend | src/app/admin/EmployeesPage.jsx:74 | filtering distributes over concatenation, so relative order is kept |
| Seqs.FilterKeepsAll | src/app/admin/EmployeesPage.jsx:74 | a filter every element passes returns the list unchanged |
| Seqs.FilterDropsAll | src/app/admin/EmployeesPage.jsx:74 | a filter no element passes returns nothing |
| Seqs.FilterConjunction | src/app/admin/EmployeesPage.jsx:81 | filtering by a conjunction is filtering by one part, then the other |
| Seqs.FilterCongruent | src/app/admin/EmployeesPage.jsx:74 | filters that agree on every element give the same list |
| Seqs.FilterPartitionCounts | src/app/pm/TimesheetApprovals.jsx:43 | when every element passes exactly one of three filters, their results add up to the whole list |
| Text.Lower | src/app/admin/EmployeesPage.jsx:75 | `toLowerCase` keeps the length and lowers each ASCII letter in place |
| Text.Upper | src/layout/Topbar.jsx:64 | `toUpperCase` keeps the length and raises each ASCII letter in place |
| Text.UpperHasNoLowerCase | src/layout/Topbar.jsx:64 | upper-cased text holds no lower-case letter |
| Text.LowerForgetsCase | src/app/admin/EmployeesPage.jsx:75 | lower-casing an upper-cased or lower-cased text gives the same result as lower-casing the original |
| Text.IncludesIffOccurs | src/app/admin/EmployeesPage.jsx:75 | `includes` holds exactly when the needle occurs at some position of the text |
| Text.EmptyIsIncluded | src/app/admin/EmployeesPage.jsx:75 | the empty search term is found in every text |
| Text.MentionsIgnoresCase | src/app/admin/EmployeesPage.jsx:75-77 | the lower-cased substring test ignores the search term's case, and the empty term matches every field |
| Text.SegmentEnd | src/layout/Topbar.jsx:13 | the first segment's end is the first slash, or the end of the text |
| Text.Segments | src/layout/Topbar.jsx:13 | `split("/").filter(Boolean)` yields only non-empty, slash-free segments |
| Text.SegmentEndIsFirstSlash | src/layout/Topbar.jsx:13 | any position preceded only by non-slashes and followed by a slash or the end is the segment end |
| Text.SegmentsOfJoinPath | src/layout/Topbar.jsx:13 | splitting a canonical path gives back exactly its segments |
| Text.SegmentsIgnoreTrailingSlash | src/layout/Topbar.jsx:13 | a trailing slash changes no segment |
| Text.SegmentsIgnoreLeadingSlash | src/layout/Topbar.jsx:13 | an extra leading slash changes no segment |
| Text.SingleSlashesAfterSegment | src/App.jsx:31-68 | a slash-free segment in front does not change whether a path's slashes are single |
| Text.JoinPathSingleSlashes | src/App.jsx:31-68 | segments joined by slashes start with a slash and never double one |
| Text.SingleSlashesTrailing | src/App.jsx:31-68 | one more trailing slash does not change whether a path's slashes are single |
| Text.DoubledSlashFails | src/App.jsx:31-68 | two slashes followed by a segment are a doubled slash |
| Text.Decimal | src/api/mockData.js:313 | `String(n)` is a non-empty run of digits with no leading zero for positive `n` |
| Text.DecimalValue | src/api/mockData.js:313 | reading back `String(n)` gives `n` |
| Text.DecimalLength | src/api/mockData.js:313 | below 1000, `String(n)` has at most three digits |
| Text.PadStart | src/api/mockData.js:313 | `padStart` keeps the text as its suffix, fills the rest with the pad character, and never truncates |
| Text.LeadingZerosValue | src/api/mockData.js:313 | leading zeros do not change a digit string's value |
| Text.PaddedDecimalValue | src/api/mockData.js:313 | a zero-padded counter still reads back as the counter |
| JsonText.EscapeChar | src/auth/authStore.js:3 | a character is written as at least one character, and never as a bare quote |
| JsonText.SkipWs | src/auth/authStore.js:12 | skipping whitespace drops only a prefix, and stops at a non-blank character or the end |
| JsonText.ReadEscapedChar | src/auth/authStore.js:12 | every character as the serializer escapes it reads back as itself, whatever follows |
| JsonText.ReadQuoted | src/auth/authStore.js:12 | a string body written by the serializer reads back as the string, leaving the text after its closing quote |
| JsonText.ReadQuote | src/auth/authStore.js:12 | a quoted string followed by anything reads back as the string and that remainder |
| JsonText.ReadMember | src/auth/authStore.js:12 | reading one written member leaves the parser just after its value |
| JsonText.ReadMemberThenMore | src/auth/authStore.js:12 | a written member followed by a comma is read, and parsing continues at the next member |
| JsonText.ReadLastMember | src/auth/authStore.js:12 | the last written member followed by the closing brace completes the object |
| Users.EncodeIdentity | src/auth/authStore.js:3 | the stored user text is a JSON object: it opens with `{` and closes with `}` |
| JsonText.ParseFlatObject | src/auth/authStore.js:12 | only text whose first non-blank character is `{` parses to an object; the text `null` parses to none |
| Users.DecodeEncode | src/auth/authStore.js:3 | the stored user text parses back to exactly the user that was saved |
| Uri.EncodeUriComponent | src/api/service.js:151 | the encoding is empty exactly when the text is |
| Uri.Utf8 | src/api/service.js:151 | one to four bytes per character, each below 256; ASCII is its own single byte |
| Uri.PercentBytesAreComponentText | src/api/service.js:151 | escaped bytes are three characters each, all legal in a URI component |
| Uri.EncodedIsComponentText | src/api/service.js:151 | `encodeURIComponent` output holds only unreserved characters and `%` escapes, and is never shorter than its input |
| Uri.UnreservedUnchanged | src/api/service.js:151 | text made only of unreserved characters passes through unchanged |
| Uri.ReservedAsciiEscape | src/api/service.js:151 | a reserved ASCII character becomes `%` and its two upper-case hex digits |
| MockData.ProjectTemplate | src/api/mockData.js:80-98 | the template's defaults with the overrides spread over them: overrides win, the other defaults stay |
| MockData.FormatIdShape | src/api/mockData.js:313 | generated ids are the prefix, a dash and three digits below 1000, and equal ids mean equal counters |
| MockData.FormatIdInjective | src/api/mockData.js:349 | distinct counters give distinct ids |
| MockData.FirstGeneratedIds | src/api/mockData.js:290-291 | the first ids generated after the seed are EMP-005 and PRJ-004 |
| MockData.SeedCountersAligned | src/api/mockData.js:290-291 | at load time each counter is one past its collection's size |
| MockData.CloneAll | src/api/mockData.js:307-309 | a read hands out one clone per stored record |
| MockData.ReadsAreClones | src/api/mockData.js:301-309 | reads carry no `undefined`, and a store already free of it is returned as it is |
| MockData.ProjectsForUserExact | src/api/mockData.js:417-419 | a manager's projects are exactly the stored projects whose `managerId` is theirs: each one returned is the clone of such a stored project, and each such project's clone is returned |
| MockData.CloneAllAppend | src/api/mockData.js:301-309 | cloning a list piece by piece is cloning it whole |
| MockData.ProjectsForUserKeepOrder | src/api/mockData.js:417-419 | store order is kept: a project added last to the store comes last in its manager's list, and in no other manager's list |
| MockData.AdminTilesFromSeed | src/api/mockData.js:159-165 | the admin dashboard has four tiles, and the first two are the counts of ACTIVE employees and ACTIVE projects in the seed |
| MockData.GetPmDashboard | src/api/mockData.js:370-376 | the summary for a project that has one; "PM dashboard data not found" exactly when it has none |
| MockData.Summary | src/api/mockData.js:199-252 | every dashboard summary is an object JSON carries exactly, so a read hands it out unchanged |
| MockData.NoSummaryForThirdProject | src/api/mockData.js:199-252 | the seeded third project has no dashboard summary |
| MockData.GetAuthPayload | src/api/mockData.js:395-403 | the two dev sessions by role; "Unsupported role" for any other role |
| MockData.MergeById | src/api/mockData.js:327-334 | the first record with the id is shallow-merged with the patch and nothing else changes; none when the id is absent |
| MockData.EmployeeDefaults | src/api/mockData.js:312-318 | a new employee starts with exactly id, status, rate, project id, project name and hire date |
| MockData.NewEmployee | src/api/mockData.js:312-320 | a new employee is the defaults (the counter's id, today's date) with the caller's data spread over them, so the counter's id unless the data names one |
| MockData.CreateEmployee | src/api/mockData.js:311-324 | a new record of the defaults (fresh id, ACTIVE, rate 0, hired today) with the data spread over them is appended, the counter moves by one, and a clone is returned; a counter one past its collection's size stays so |
| MockData.CreatedEmployeeDefaults | src/api/mockData.js:312-320 | a new employee not told otherwise gets the counter's id, ACTIVE, rate 0, no project and today's date |
| MockData.UpdateEmployee | src/api/mockData.js:326-336 | a shallow merge into the first employee with the id, returned as a clone; "Employee not found" with the store unchanged otherwise; a counter one past its collection's size stays so |
| MockData.SetEmployeeStatus | src/api/mockData.js:338-340 | only the status of the matched employee changes |
| MockData.StatusIsOneFieldPatch | src/api/mockData.js:338-340 | a status change is exactly the update `{status}` |
| MockData.NewProjectDefaults | src/api/mockData.js:347-351 | a new project starts from the template's keys |
| MockData.CreateProject | src/api/mockData.js:346-356 | template defaults, a fresh id and PLANNING with the data spread over them are appended, the counter moves by one, and a clone is returned; a counter one past its collection's size stays so |
| MockData.CreatedProjectDefaults | src/api/mockData.js:347-351 | a new project not told otherwise gets the counter's id, PLANNING, a 150 m radius, the first manager and no workers |
| MockData.UpdateProject | src/api/mockData.js:358-368 | a shallow merge into the first project with the id; "Project not found" with the store unchanged otherwise; a counter one past its collection's size stays so |
| MockData.UpdateTimesheetStatus | src/api/mockData.js:382-393 | status and processing time are stamped on the first timesheet with the id, whatever its status; "Timesheet not found" otherwise; a counter one past its collection's size stays so |
| MockData.CreatedIdsDiffer | src/api/mockData.js:313-321 | creates made while the counter stood at different values never share a generated id |
| MockData.SuccessiveCreatesDiffer | src/api/mockData.js:313-321 | two creates in a row without caller-chosen ids give two different ids |
| MockData.TimesheetRestamped | src/api/mockData.js:382-393 | an approved timesheet can be decided again, and the second decision's status and time win |
| MockData.UpdateFramesOtherRecords | src/api/mockData.js:331-334 | an update leaves every employee with another id unchanged |
| MockData.FilterLengthStep | src/api/mockData.js:161-162 | a filtered count grows by one exactly when the head passes |
| MockData.AdminEmployeeCountFromSeed | src/api/mockData.js:161 | the admin dashboard counts three active employees in the seed |
| MockData.SeedProject | src/api/mockData.js:100-155 | each seeded project carries the id and status it was written with, whatever the template holds |
| MockData.SeedProjectStatuses | src/api/mockData.js:100-155 | the first two seeded projects are ACTIVE and the third PLANNING |
| MockData.AdminProjectCountFromSeed | src/api/mockData.js:162 | the admin dashboard counts two open projects in the seed |
| AuthStore.SaveAuth | src/auth/authStore.js:1-4 | the token and the user's JSON text are stored under their keys, and every other key is untouched |
| AuthStore.GetAccessToken | src/auth/authStore.js:6-8 | the stored token text, even empty; absent exactly when the key is absent |
| AuthStore.GetUser | src/auth/authStore.js:10-13 | no user when the key is absent or empty; otherwise the parsed user |
| AuthStore.ClearAuth | src/auth/authStore.js:15-18 | both session keys are removed and every other key is kept |
| AuthStore.SaveThenRead | src/auth/authStore.js:1-13 | what was saved is what both getters read back |
| AuthStore.ClearThenRead | src/auth/authStore.js:6-18 | after a clear neither getter finds anything, and clearing again changes nothing |
| AuthStore.GettersIndependent | src/auth/authStore.js:6-13 | each getter depends only on its own key |
| AuthStore.SaveClearKeepsOthers | src/auth/authStore.js:1-18 | saving and then clearing a session leaves the rest of storage as it found it |
| Client.Intercept | src/api/client.js:7-14 | a non-empty stored token adds `Authorization: Bearer <token>`, creating the headers when missing; otherwise the request goes out unchanged |
| Client.SessionDrivesHeader | src/api/client.js:7-14 | right after sign-in requests carry the new token; after sign-out none is added |
| Service.ModeOf | src/api/service.js:21 | mock mode exactly when the flag is the text "true" |
| Service.Endpoint | src/api/service.js:28-153 | every call but trades has an endpoint; reads are GET, the three updates PUT, and a body goes with exactly the PUTs and the two creates |
| Service.MockAnswer | src/api/service.js:28-153 | reads in mock mode never change the store |
| Service.Run | src/api/service.js:28-153 | mock mode answers in the page; real mode sends the call's request, except trades, which answer an empty list and change nothing |
| Service.DefaultPmProjectId | src/api/service.js:140-145 | PRJ-001 in mock mode, null otherwise |
| Service.DevAuthPayload | src/api/service.js:155-160 | refused in real mode whatever the role; otherwise the dev session for the two seeded roles |
| Service.ModesAreSeparate | src/api/service.js:28-153 | real mode never changes the mock store, and mock mode never sends a request |
| Service.StatusUpdateIsOneFieldUpdate | src/api/service.js:60-66 | a status change is the one-field update `{status}` in both modes |
| Service.DecisionCarriesStatus | src/api/service.js:108-122 | a decision on a known timesheet returns it with the decided status |
| Service.MockDecisionsStampStatus | src/api/service.js:108-122 | in mock mode approving returns the timesheet APPROVED and rejecting returns it REJECTED |
| Service.MockDecisionIsDecide | src/api/service.js:108-122 | approve and reject are the store's status update with APPROVED and REJECTED |
| Service.MockUnknownTimesheet | src/api/service.js:108-122 | deciding an unknown timesheet fails with "Timesheet not found" and changes nothing |
| Service.EndpointsIdentifyRecord | src/api/service.js:56-120 | distinct ids reach distinct paths, and approve and reject never share a path |
| Service.ManagerQueryIsOneComponent | src/api/service.js:151 | the manager id cannot add a query parameter or a fragment to the request |
| Service.DevLoginOnlyInMockMode | src/api/service.js:21-160 | dev login works exactly in mock mode and for the two seeded roles |
| Gates.RequireAuth | src/auth/RequireAuth.jsx:6-11 | children render exactly with a non-empty token and a user; otherwise to login, remembering where from |
| Gates.RequireRole | src/auth/RequireRole.jsx:5-14 | no user goes to login remembering where from; a user whose role is not allowed goes to `/app`; an allowed one renders |
| Gates.RoleHome | src/App.jsx:14-26 | HR admins land on the admin dashboard, project managers on `dashboard/current`, anyone else on login |
| AppRoutes.Render | src/App.jsx:28-70 | login always shows; the root and unmatched paths, including those with a doubled slash, go to login without remembering the path; any page under `/app` without a session goes to login, remembering the path |
| AppRoutes.MatchSegmentsShape | src/App.jsx:31-68 | no segment is the root and a lone `login` is login (both exactly); every app route sits under `app`, the admin pages under `app/admin`, the PM pages under `app/pm`, and a dashboard's project id is its fourth segment |
| AppRoutes.MatchShape | src/App.jsx:31-68 | a path that is not its segments joined by single slashes (trailing slashes aside) matches nothing; a project id taken from a path is non-empty and slash-free |
| AppRoutes.MatchJoined | src/App.jsx:31-68 | segments joined by single slashes select the route those segments name |
| AppRoutes.TrailingSlashIgnored | src/App.jsx:31-68 | a trailing slash never changes the route |
| AppRoutes.DoubledSlashUnmatched | src/App.jsx:31-68 | two slashes in a row before the last segment select no route, and the path is sent to login without remembering it |
| AppRoutes.Follow | src/App.jsx:14-68 | following at most `fuel` redirects keeps a page that is already shown, and when the fuel runs out returns the pending redirect unchanged; whatever it returns is the start or a rendered target |
| AppRoutes.Settle | src/App.jsx:14-68 | following redirects ends on one of the pages; a page shown at once is what settles, and with no fuel the path's own render is returned |
| AppRoutes.FollowTargets | src/App.jsx:14-68 | following redirects stays within any set of targets that holds the start's target and the target of every rendered redirect |
| AppRoutes.SettleTargets | src/App.jsx:14-68 | a redirect still pending when the fuel runs out goes to login, `/app` or one of the two homes |
| AppRoutes.FollowMore | src/App.jsx:14-68 | once a chain of redirects reaches a page, more fuel changes nothing |
| AppRoutes.LoginPathMatches | src/App.jsx:32 | `/login` selects the login route |
| AppRoutes.AppPathMatches | src/App.jsx:41 | `/app` selects the index route |
| AppRoutes.AdminHomeMatches | src/App.jsx:51 | the admin home selects the admin dashboard |
| AppRoutes.PmHomeMatches | src/App.jsx:64 | the PM home selects the project dashboard with token `current` |
| AppRoutes.PagesNeedSessionAndRole | src/App.jsx:33-66 | any page shown other than login has a session, and the section's role for admin and PM pages |
| AppRoutes.SectionPageOpens | src/App.jsx:42-66 | the converse: a signed-in user holding a section's role sees that section's non-index pages without redirect |
| AppRoutes.WrongSectionGoesToApp | src/App.jsx:42-66 | a signed-in user outside the section's role goes to `/app`, never to login |
| AppRoutes.HomesPassTheirGuards | src/App.jsx:14-66 | each role's home shows its page for that role |
| AppRoutes.RedirectTargets | src/App.jsx:14-68 | every redirect lands on login, `/app`, or one of the two homes |
| AppRoutes.SettleStep | src/App.jsx:14-68 | following one redirect is settling at its target with one step less |
| AppRoutes.SettleMore | src/App.jsx:14-68 | once a page shows, following more redirects changes nothing |
| AppRoutes.SettleLogin | src/App.jsx:32 | the login path settles on the login page |
| AppRoutes.SettleSignedOut | src/App.jsx:33-40 | any page under `/app` settles on login for a visitor without a session |
| AppRoutes.AppPathRenders | src/App.jsx:14-41 | at `/app` a session goes to its role's home and a visitor to login |
| AppRoutes.SettleApp | src/App.jsx:14-41 | from `/app` one redirect reaches a page |
| AppRoutes.AdminHomeTurnsAway | src/App.jsx:42-51 | a session without the admin role is sent from the admin home to `/app` |
| AppRoutes.PmHomeTurnsAway | src/App.jsx:55-64 | a session without the PM role is sent from the PM home to `/app` |
| AppRoutes.SettleAdminHome | src/App.jsx:14-51 | from the admin home at most two redirects reach a page |
| AppRoutes.SettlePmHome | src/App.jsx:14-64 | from the PM home at most two redirects reach a page |
| AppRoutes.RedirectsSettle | src/App.jsx:14-68 | redirects never loop: from any path, for any session, at most three reach a page |
| AppRoutes.PmAtAdminPageGoesHome | src/App.jsx:14-66 | a project manager at an admin page goes to `/app` and then to their own dashboard |
| Sidebar.NavItems | src/layout/Sidebar.jsx:3-16 | the role's own links exist exactly for HR admins and project managers |
| Sidebar.AdminNavRoutes | src/layout/Sidebar.jsx:3-7 | the three admin links, in order, are "Dashboard", "Employees" and "Projects", and open the admin dashboard, the employees page and the projects page |
| Sidebar.PmNavRoutes | src/layout/Sidebar.jsx:9-12 | the two PM links, in order, are "Dashboard" and "Approvals", and open the `current` project dashboard and the approvals page |
| Sidebar.AdminNavInSection | src/layout/Sidebar.jsx:3-7 | every admin link opens a page in the admin section other than its index |
| Sidebar.PmNavInSection | src/layout/Sidebar.jsx:9-12 | every PM link opens a page in the PM section other than its index |
| Sidebar.NavItemsPerRole | src/layout/Sidebar.jsx:3-16 | an HR admin gets the three admin pages in order, a project manager the `current` dashboard and then approvals, anyone else only the "Overview" link |
| Sidebar.Links | src/layout/Sidebar.jsx:26-40 | the sidebar always lists something, and exactly the "Overview" fallback when the role has no links |
| Sidebar.EmployeesPathMatches | src/layout/Sidebar.jsx:5 | the employees link selects the employees page |
| Sidebar.ProjectsPathMatches | src/layout/Sidebar.jsx:6 | the projects link selects the projects page |
| Sidebar.ApprovalsPathMatches | src/layout/Sidebar.jsx:11 | the approvals link selects the approvals page |
| Sidebar.FirstLinkIsHome | src/layout/Sidebar.jsx:3-12 | each role's first link is its home |
| Sidebar.LinksOpenPages | src/layout/Sidebar.jsx:3-16 | every link offered to a signed-in user opens a page for them, never a redirect |
| Sidebar.OverviewLeadsToLogin | src/layout/Sidebar.jsx:36-40 | the fallback link goes to `/app`, which sends a user without a known role on to login |
| Topbar.ResolveHeading | src/layout/Topbar.jsx:12-57 | the generic "Explore" heading shows exactly when the path has fewer than two segments |
| Topbar.RoleLabel | src/layout/Topbar.jsx:63 | the role label is empty exactly when there is no user or the role is empty |
| Topbar.Badge | src/layout/Topbar.jsx:63-65 | the badge is never empty, and reads "Signed in" exactly when there is no role (or the raw role is that text) |
| Topbar.DisplayName | src/layout/Topbar.jsx:62 | the name, else the email, else "User"; never empty |
| Topbar.CodeUnits | src/layout/Topbar.jsx:64 | the measure `slice(0, 2)` counts in: a character takes one UTF-16 code unit, two above U+FFFF |
| Topbar.Units | src/layout/Topbar.jsx:64 | the UTF-16 length of a text: at least one and at most two units per character |
| Topbar.UnitsAppend | src/layout/Topbar.jsx:64 | UTF-16 length adds up over concatenation, as JavaScript's `length` does |
| Topbar.Initials | src/layout/Topbar.jsx:64 | the longest start of the display name that fits in two UTF-16 code units, upper-cased: a character above U+FFFF fills both units alone |
| Topbar.InitialsCountCodeUnits | src/layout/Topbar.jsx:64 | a name opening with an emoji shows the emoji alone; a plain name shows two upper-cased letters |
| Topbar.SignOut | src/layout/Topbar.jsx:72-75 | sign-out goes to the login page |
| Topbar.HeadingNamesThePage | src/layout/Topbar.jsx:12-57 | the heading agrees with the page the route table shows at the same path |
| Topbar.HeadingReadsSegmentsTwoAndThree | src/layout/Topbar.jsx:12-17 | only the second and third segments decide the heading |
| Topbar.HeadingIgnoresSlashes | src/layout/Topbar.jsx:13 | extra slashes do not change the heading |
| Topbar.BadgeNamesRole | src/layout/Topbar.jsx:5-10 | the four known roles show their labels; any other role shows as written |
| Topbar.SignOutEndsSession | src/layout/Topbar.jsx:72-75 | after sign-out both getters are empty and every page under `/app` goes to login |
| PageLists.MentionedInIgnoresCase | src/app/admin/EmployeesPage.jsx:75-77 | the search ignores the term's case, and an empty term matches every row |
| PageLists.AfterSave | src/app/admin/EmployeesPage.jsx:134-140 | an edit replaces every entry with the edited id; a create puts the new record first, ahead of the unchanged list |
| PageLists.Submit | src/app/admin/EmployeesPage.jsx:120-149 | a failed save keeps the list and the modal open with the message; a successful one closes the modal and updates the list |
| PageLists.SavedRecordIsFound | src/app/admin/EmployeesPage.jsx:134-140 | after a save a lookup by the saved record's id finds it |
| PageLists.SaveKeepsOthers | src/app/admin/EmployeesPage.jsx:134-140 | an edit leaves entries with other ids alone; a create shifts the old entries by one |
| EmployeesPage.FilterEmployees | src/app/admin/EmployeesPage.jsx:73-83 | the rows shown are exactly those matching search, status and role |
| EmployeesPage.UnfilteredShowsAll | src/app/admin/EmployeesPage.jsx:73-83 | an empty search with both selects on ALL shows the whole roster in order |
| EmployeesPage.SearchIgnoresCase | src/app/admin/EmployeesPage.jsx:75-77 | the search term's case does not change the rows shown |
| EmployeesPage.FiltersCompose | src/app/admin/EmployeesPage.jsx:79-81 | the three criteria are independent: status first, then role and search, gives the same rows |
| EmployeesPage.EditForm | src/app/admin/EmployeesPage.jsx:95-104 | the edit form holds the stored fields, with a nullish rate or project shown as empty |
| EmployeesPage.ProjectNameFor | src/app/admin/EmployeesPage.jsx:126-130 | the first project with the id gives its name; none gives empty |
| EmployeesPage.Payload | src/app/admin/EmployeesPage.jsx:126-131 | the form goes out with the rate converted when filled in (null otherwise) and the assigned project's name |
| EmployeesPage.DefaultFormPayload | src/app/admin/EmployeesPage.jsx:11-20 | an untouched new form sends no rate, no project name, WORKER and ACTIVE |
| EmployeesPage.UnchangedEditResends | src/app/admin/EmployeesPage.jsx:92-131 | saving an unchanged edit sends the stored fields back with the project's current name |
| EmployeesPage.RateResent | src/app/admin/EmployeesPage.jsx:102-129 | a stored non-zero rate survives an unchanged edit; a zero rate goes back as null |
| EmployeesPage.SaveEmployee | src/app/admin/EmployeesPage.jsx:133-145 | a failure keeps the list and reports "Unable to save employee…"; success closes the modal and updates the list |
| EmployeesPage.NextStatus | src/app/admin/EmployeesPage.jsx:152 | the toggle deactivates exactly the active employees and activates anyone else |
| EmployeesPage.ToggleTwice | src/app/admin/EmployeesPage.jsx:152 | toggling twice restores an active or inactive employee; any other status ends inactive |
| EmployeesPage.AfterToggle | src/app/admin/EmployeesPage.jsx:151-160 | success swaps in the updated record for that id and keeps the page message; failure only sets "Unable to update employee status. Try again." |
| ProjectsPage.FilterProjects | src/app/admin/ProjectsPage.jsx:76-84 | the rows shown are exactly those matching search and status |
| ProjectsPage.UnfilteredShowsAll | src/app/admin/ProjectsPage.jsx:76-84 | an empty search on ALL shows every project in order |
| ProjectsPage.SearchIgnoresCase | src/app/admin/ProjectsPage.jsx:78-80 | the search term's case does not change the rows shown |
| ProjectsPage.EditForm | src/app/admin/ProjectsPage.jsx:96-110 | the edit form has the form's keys: name, code and status as stored, other nullish fields empty, and no workers for nullish `workerIds` |
| ProjectsPage.NameFor | src/app/admin/ProjectsPage.jsx:147 | the first employee with the id gives its name; none gives `undefined` |
| ProjectsPage.WorkerNames | src/app/admin/ProjectsPage.jsx:146-148 | the team names are all truthy and no more than the ids selected |
| ProjectsPage.WorkerNamesAppend | src/app/admin/ProjectsPage.jsx:146-148 | team names are collected selection by selection, in order |
| ProjectsPage.UnknownWorkerDropped | src/app/admin/ProjectsPage.jsx:146-148 | a selected id with no named employee contributes nothing |
| ProjectsPage.WorkerNamesFollowSelection | src/app/admin/ProjectsPage.jsx:146-148 | when every selected id names an employee with a name, the names follow the selection one for one |
| ProjectsPage.ChosenManagerName | src/app/admin/ProjectsPage.jsx:137-145 | the first manager with the id gives its name; none gives empty |
| ProjectsPage.WithNumbers | src/app/admin/ProjectsPage.jsx:140-144 | the five numeric fields are converted when filled in and null otherwise; all other fields are kept |
| ProjectsPage.Names | src/app/admin/ProjectsPage.jsx:145-148 | the payload adds exactly two fields: the chosen manager's name and the selected workers' names |
| ProjectsPage.Payload | src/app/admin/ProjectsPage.jsx:137-149 | the form goes out with its numbers converted, the chosen manager's name and the selected workers' names |
| ProjectsPage.SaveProject | src/app/admin/ProjectsPage.jsx:151-163 | a failure keeps the list and reports "Unable to save project…"; success closes the modal and updates the list |
| ProjectsPage.ManagerName | src/app/admin/ProjectsPage.jsx:169-175 | the stored manager name when set, else the manager found by id, else "Unassigned" |
| ProjectsPage.SavedManagerShown | src/app/admin/ProjectsPage.jsx:137-175 | a project saved from the form shows the manager chosen in the form, or "Unassigned" |
| ProjectsPage.WorkerOptions | src/app/admin/ProjectsPage.jsx:185 | the team picker offers exactly the workers and foremen, in roster order |
| ProjectsPage.NoManagersInTeamPicker | src/app/admin/ProjectsPage.jsx:185 | managers and administrators are never offered as team members |
| ProjectsPage.TeamChips | src/app/admin/ProjectsPage.jsx:258-265 | at most three chips, the first names in order, and a "+N more" count exactly when there are over three |
| ProjectsPage.ChipsAccountForEveryone | src/app/admin/ProjectsPage.jsx:258-265 | every team member is a chip or counted in "+N more" |
| PmDashboard.Lists | src/app/pm/PMDashboard.jsx:82 | `some` holds exactly when the id is among the project ids |
| PmDashboard.SummaryEffect | src/app/pm/PMDashboard.jsx:45-78 | a concrete id is fetched; the alias jumps, replacing history, to the first project, or waits while there is none |
| PmDashboard.MembershipEffect | src/app/pm/PMDashboard.jsx:80-87 | a concrete id missing from a non-empty list is replaced by the first project's dashboard |
| PmDashboard.SelectorValue | src/app/pm/PMDashboard.jsx:114 | the selector shows the concrete id, else the first project's id, else empty |
| PmDashboard.ProjectChange | src/app/pm/PMDashboard.jsx:100-105 | a non-empty choice pushes its dashboard, keeping history; an empty one does nothing |
| PmDashboard.EffectsNeverBothNavigate | src/app/pm/PMDashboard.jsx:45-87 | at most one of the two effects navigates on any render |
| PmDashboard.Redirect | src/app/pm/PMDashboard.jsx:45-87 | the page navigates exactly when it has projects and its id is the alias or unlisted, always to the first project, replacing history |
| PmDashboard.AliasWithoutProjectsIdles | src/app/pm/PMDashboard.jsx:45-51 | with the alias and no projects nothing is fetched or navigated, the empty card shows and the selector is empty |
| PmDashboard.ConcreteWithoutProjectsFetches | src/app/pm/PMDashboard.jsx:53-87 | a concrete id is fetched before any list arrives and is not redirected away from |
| PmDashboard.ListedIdStays | src/app/pm/PMDashboard.jsx:53-114 | a listed id is fetched, stays put, and shows in the selector |
| PmDashboard.DashboardOfMatches | src/App.jsx:64 | a plain id's dashboard path selects the project dashboard with that id |
| PmDashboard.UnfitIdNotOpened | src/app/pm/PMDashboard.jsx:83 | an empty id, or one holding a slash, put unencoded into the dashboard path never opens that id's dashboard |
| PmDashboard.RedirectConverges | src/app/pm/PMDashboard.jsx:45-87 | after the redirect the page is at the first project, which is fetched and not redirected again |
| PmDashboard.PmHomeOpensFirstProject | src/app/pm/PMDashboard.jsx:45-51 | the PM home carries the alias, which opens the first project |
| PmDashboard.SelectingListedProjectStays | src/app/pm/PMDashboard.jsx:100-105 | choosing a listed project opens a page that stays on it |
| TimesheetApprovals.Load | src/app/pm/TimesheetApprovals.jsx:11-37 | a missing list loads as empty; a failure leaves the list empty with "Unable to load timesheet approvals." |
| TimesheetApprovals.FilterTimesheets | src/app/pm/TimesheetApprovals.jsx:39-44 | ALL shows the list as it is; any other choice shows exactly the rows with that status |
| TimesheetApprovals.ButtonText | src/app/pm/TimesheetApprovals.jsx:127-135 | a button shows its running caption exactly while its own action is in flight |
| TimesheetApprovals.ActionCall | src/app/pm/TimesheetApprovals.jsx:60 | approve calls the approval endpoint for the id and reject the rejection endpoint |
| TimesheetApprovals.Begin | src/app/pm/TimesheetApprovals.jsx:58 | the clicked id becomes busy; the list, the message and other ids' entries are unchanged |
| TimesheetApprovals.Finish | src/app/pm/TimesheetApprovals.jsx:59-67 | the id is freed; success replaces every row with the id, failure keeps the rows and sets "Unable to update timesheet status. Try again." |
| TimesheetApprovals.LoadedPageShowsPending | src/app/pm/TimesheetApprovals.jsx:6 | the page opens on pending rows only |
| TimesheetApprovals.StatusViewsPartition | src/app/pm/TimesheetApprovals.jsx:39-44 | the three status views together show every row of a list that uses only those statuses |
| TimesheetApprovals.DisabledWhileInFlight | src/app/pm/TimesheetApprovals.jsx:124-135 | while its call is out a row's buttons are disabled, and the clicked one shows its running caption |
| TimesheetApprovals.FinishFreesRow | src/app/pm/TimesheetApprovals.jsx:66-124 | whatever the answer, a pending row is enabled again and other rows' busy state is unchanged |
| TimesheetApprovals.DecidedStaysDisabled | src/app/pm/TimesheetApprovals.jsx:124 | an approved or rejected row can never be acted on again from the page |
| TimesheetApprovals.MockApprovalLeavesPendingView | src/app/pm/TimesheetApprovals.jsx:57-68 | approving a known timesheet in mock mode makes its rows APPROVED and disabled, and drops them from the pending view |
| TimesheetApprovals.FailedDecisionKeepsRows | src/app/pm/TimesheetApprovals.jsx:62-64 | a failed decision changes no row and reports the failure |

## Left out

- Rendering: JSX markup, CSS classes, `NavLink` active styling, loading spinners and `isLoading` flags.
- Hook mechanics, `async`/`await` ordering, and the `isMounted` guards. Each page is modelled as functions from the answers it receives to the state it shows.
- The simulated network latency in mock mode. It only delays the answer, so it is the identity here.
- The HTTP transport. Real mode stops at the request the client would send. The axios instance and its fixed base URL are not modelled.
- The `storage` event and other tabs.
- Floating point. Numbers are reals. JavaScript's `Number` is the parameter `toNumber`, and `NaN` does not arise.
- Topbar.Initials: when the display name's second character lies above U+FFFF, `slice(0, 2)` keeps the first character and half of a surrogate pair. Dafny strings hold whole characters, so the model shows the first character alone.
- Unicode case mapping. `Text.Lower` and `Text.Upper` change only ASCII letters. `JSON.stringify` escapes are modelled only for the characters a user's four string members can hold.
- React Router matches paths case-insensitively and decodes parameters. `AppRoutes.Match` is case-sensitive and does not decode.
- AuthStore.GetUser: stored text that parses to something other than a four-string-member object gives an error. The source would hand the parsed value on.
- Prototype-inherited keys are not modelled. An id such as `"toString"` would find an inherited member in `pmDashboardSummaries` and in `roleLabels`.
- Shared references. Creates and updates spread the caller's data shallowly, so nested values such as a `workerIds` array stay shared with the caller, and `getMockAuthPayload` hands out the seed user objects themselves. No code changes a shared value in place: the store only appends to or replaces entries of its own arrays. So records are modelled as plain values and nothing is lost.
- `resetMockState` is empty in the source, so it is not modelled.
- The admin dashboard page, the generic dashboard page, the login page and the app layout. These are display and form wiring only.
- PageLists.TextOf reads a non-string searched field as empty text. The source would throw on `toLowerCase` of such a field.
- ProjectsPage.SelectedIds: a `workerIds` that is not an array selects nobody. The source would throw on `map`.
- ProjectsPage.TeamChips: a `workerNames` that is neither an array nor nullish shows no chips. The source would slice it like a string.
- TimesheetApprovals.RowBusy treats a timesheet whose id is not a string as never busy. The source keys its in-flight object by the id's string form.
- PmDashboard models project ids as strings. A list entry whose id is missing would navigate to `/app/pm/dashboard/undefined`.
- PmDashboard.RedirectConverges: assumes the first project's id is non-empty, holds no slash and is not `current`. Ids go into the path unencoded, so an id with a slash opens some other route or none (`PmDashboard.UnfitIdNotOpened`), and a project named `current` keeps the page on the alias.
- PmDashboard.SelectingListedProjectStays: assumes the chosen id is non-empty, holds no slash and is not `current`, for the same reasons.
- PMDashboard's repeated project loading (src/app/pm/PMDashboard.jsx:12-43, 45-78). Each answer is modelled once, as `Service.Run` with `FetchProjectsForUser`. In the source the loading effect depends only on `user`, and `getUser()` parses a new object on every render. So the effect runs again after every render. Each answer is stored with `setProjects(data ?? [])` as a new array, which renders the page again. While a user is stored, the project list is therefore requested again and again. The summary effect depends on `projects`, so each round also fetches the summary again. React renders, effect scheduling and object identity are not modelled, so this loop is outside the model. The performance-score list is display only.
- The admin dashboard's timestamps are computed from the load time. They are a parameter, `stampBefore`.

=== FILE: app_routes.dfy ===
/**
 * The route table: which page a path selects, which guards stand in front
 * of it, and where each redirect leads. As in React Router, a path selects
 * a route only when it is the route's segments each after one slash, up to
 * trailing slashes: a doubled slash at the front or inside selects nothing.
 */
module AppRoutes {
  import opened Wrappers
  import opened Text
  import opened Users
  import opened Gates

  datatype Route =
    | Root
    | Login
    | AppIndex
    | AdminIndex
    | AdminDashboard
    | Employees
    | Projects
    | PmIndex
    | PmDashboard(projectId: string)
    | Approvals
    | NoMatch
  {
    predicate UnderApp() {
      !(Root? || Login? || NoMatch?)
    }

    predicate UnderAdmin() {
      AdminIndex? || AdminDashboard? || Employees? || Projects?
    }

    predicate UnderPm() {
      PmIndex? || PmDashboard? || Approvals?
    }

    /** A route with a page of its own, rather than a redirect. */
    predicate IsPage() {
      Login? || AdminDashboard? || Employees? || Projects? || PmDashboard? || Approvals?
    }
  }

  /** The route a list of path segments selects. */
  function MatchSegments(segs: seq<string>): Route {
    if segs == [] then Root
    else if segs == ["login"] then Login
    else if segs[0] != "app" then NoMatch
    else if |segs| == 1 then AppIndex
    else if segs[1] == "admin" then
      if |segs| == 2 then AdminIndex
      else if |segs| > 3 then NoMatch
      else if segs[2] == "dashboard" then AdminDashboard
      else if segs[2] == "employees" then Employees
      else if segs[2] == "projects" then Projects
      else NoMatch
    else if segs[1] == "pm" then
      if |segs| == 2 then PmIndex
      else if |segs| == 4 && segs[2] == "dashboard" then PmDashboard(segs[3])
      else if |segs| == 4 && segs[2] == "approvals" && segs[3] == "timesheets" then Approvals
      else NoMatch
    else NoMatch
  }

  /**
   * The path is its segments, each after a single slash, and then possibly
   * more slashes: the only paths React Router's patterns can match.
   */
  predicate Canonical(path: string) {
    path == [] || (path[0] == '/' && SingleSlashes(path))
  }

  /** The route React Router selects for `path`; only the catch-all for a non-canonical path. */
  function Match(path: string): Route {
    if Canonical(path) then MatchSegments(Segments(path)) else NoMatch
  }

  /** One render of the route table: a page, or a navigation (always replacing history). */
  datatype Screen = Show(route: Route) | Go(to: string, from: Option<string>)

  const AdminRoles: seq<string> := [HrAdmin]
  const PmRoles: seq<string> := [Pm]

  function FromDecision(d: Decision, page: Screen): Screen {
    match d
    case Allow => page
    case Redirect(to, from) => Go(to, from)
  }

  /** What the route element renders at `path` once the route is known. */
  function RenderRoute(route: Route, path: string, token: Option<string>, user: Option<Identity>): (r: Screen)
    ensures r.Show? ==> r.route == route && route.IsPage()
  {
    if route == Login then Show(Login)
    else if !route.UnderApp() then Go(LoginPath, None)
    else
      var page :=
        if route == AppIndex then Go(RoleHome(user), None)
        else if route.UnderAdmin() then
          FromDecision(RequireRole(user, AdminRoles, path), if route == AdminIndex then Go(AdminHome, None) else Show(route))
        else
          FromDecision(RequireRole(user, PmRoles, path), if route == PmIndex then Go(PmHome, None) else Show(route));
      FromDecision(RequireAuth(token, user, path), page)
  }

  /**
   * What the app renders at `path` for the given session: `/` and unknown
   * paths go to login; everything under `/app` passes `RequireAuth`, then
   * the section's `RequireRole`; index routes redirect to their dashboards.
   */
  function Render(path: string, token: Option<string>, user: Option<Identity>): (r: Screen)
    ensures Match(path) == Login ==> r == Show(Login)
    ensures Match(path) == Root || Match(path) == NoMatch ==> r == Go(LoginPath, None)
    ensures Match(path).UnderApp() && !(HasToken(token) && user.Some?) ==> r == Go(LoginPath, Some(path))
  {
    RenderRoute(Match(path), path, token, user)
  }

  /** The screen each redirect target renders, for a fixed session. */
  function Step(token: Option<string>, user: Option<Identity>): string -> Screen {
    p => Render(p, token, user)
  }

  /**
   * Follows redirects from `screen`, at most `fuel` of them, rendering each target with `step`.
   * When the fuel is spent the pending redirect is returned as it stands.
   */
  function Follow(step: string -> Screen, screen: Screen, fuel: nat): (r: Screen)
    ensures screen.Show? || fuel == 0 ==> r == screen
    ensures r == screen || exists p :: r == step(p)
    decreases fuel
  {
    match screen
    case Show(_) => screen
    case Go(to, _) => if fuel == 0 then screen else Follow(step, step(to), fuel - 1)
  }

  /** What the app ends up showing at `path`, following at most `fuel` redirects. */
  function Settle(path: string, token: Option<string>, user: Option<Identity>, fuel: nat): (r: Screen)
    ensures r.Show? ==> r.route.IsPage()
    ensures Render(path, token, user).Show? || fuel == 0 ==> r == Render(path, token, user)
  {
    Follow(Step(token, user), Render(path, token, user), fuel)
  }

  // ---------------------------------------------------------------------
  // properties

  predicate RoleIs(user: Option<Identity>, role: string) {
    user.Some? && user.value.role == role
  }

  lemma LoginPathSegments()
    ensures Segments(LoginPath) == ["login"]
  {
    LoginPathJoins();
    SegmentsOfJoinPath(["login"]);
  }

  lemma LoginPathJoins()
    ensures JoinPath(["login"]) == LoginPath
  {
  }

  lemma AppPathSegments()
    ensures Segments(AppPath) == ["app"]
  {
    AppPathJoins();
    SegmentsOfJoinPath(["app"]);
  }

  lemma AppPathJoins()
    ensures JoinPath(["app"]) == AppPath
  {
  }

  lemma AdminHomeSegments()
    ensures Segments(AdminHome) == ["app", "admin", "dashboard"]
  {
    AdminHomeJoins();
    SegmentsOfJoinPath(["app", "admin", "dashboard"]);
  }

  lemma AdminHomeJoins()
    ensures JoinPath(["app", "admin", "dashboard"]) == AdminHome
  {
  }

  lemma PmHomeSegments()
    ensures Segments(PmHome) == ["app", "pm", "dashboard", "current"]
  {
    PmHomeJoins();
    SegmentsOfJoinPath(["app", "pm", "dashboard", "current"]);
  }

  lemma PmHomeJoins()
    ensures JoinPath(["app", "pm", "dashboard", "current"]) == PmHome
  {
  }

  /**
   * Which segments select which kind of route: none is the root, a lone
   * `login` is login, every app route sits under `app`, the admin section
   * under `app/admin` and the project manager section under `app/pm`, and a
   * dashboard's project id is the fourth segment.
   */
  lemma MatchSegmentsShape(segs: seq<string>)
    ensures var r := MatchSegments(segs);
      && (r == Root <==> segs == [])
      && (r == Login <==> segs == ["login"])
      && (r.UnderApp() ==> segs[0] == "app")
      && (r.UnderAdmin() ==> 2 <= |segs| <= 3 && segs[1] == "admin")
      && (r.UnderPm() ==> (|segs| == 2 || |segs| == 4) && segs[1] == "pm")
      && (r.PmDashboard? ==> |segs| == 4 && segs[2] == "dashboard" && r.projectId == segs[3])
  {
  }

  /**
   * A path that is not canonical selects no route, and a dashboard's project
   * id taken from a path is never empty and never holds a slash.
   */
  lemma MatchShape(path: string)
    ensures !Canonical(path) ==> Match(path) == NoMatch
    ensures Match(path).PmDashboard? ==> Match(path).projectId != "" && SlashFree(Match(path).projectId)
  {
    MatchSegmentsShape(Segments(path));
  }

  // The fixed paths the app redirects to select the routes they name.

  /** A canonical path selects the route of its segments. */
  lemma MatchJoined(segs: seq<string>)
    requires WellFormedSegments(segs)
    ensures Match(JoinPath(segs)) == MatchSegments(segs)
  {
    SegmentsOfJoinPath(segs);
    JoinPathSingleSlashes(segs);
  }


  lemma LoginPathMatches()
    ensures Match(LoginPath) == Login
  {
    LoginPathSegments();
    LoginPathJoins();
    MatchJoined(["login"]);
    assert MatchSegments(["login"]) == Login;
  }

  lemma AppPathMatches()
    ensures Match(AppPath) == AppIndex
  {
    AppPathSegments();
    AppPathJoins();
    var app := ["app"];
    MatchJoined(app);
    assert app != ["login"];
    assert MatchSegments(app) == AppIndex;
  }

  lemma AdminHomeMatches()
    ensures Match(AdminHome) == AdminDashboard
  {
    AdminHomeSegments();
    AdminHomeJoins();
    var admin := ["app", "admin", "dashboard"];
    MatchJoined(admin);
    assert admin != ["login"] && admin[0] == "app" && admin[1] == "admin" && admin[2] == "dashboard";
    assert MatchSegments(admin) == AdminDashboard;
  }

  lemma PmHomeMatches()
    ensures Match(PmHome) == PmDashboard("current")
  {
    PmHomeSegments();
    PmHomeJoins();
    var pm := ["app", "pm", "dashboard", "current"];
    MatchJoined(pm);
    assert pm != ["login"] && pm[0] == "app" && pm[1] == "pm" && pm[1] != "admin" && |pm| == 4;
    assert pm[2] == "dashboard" && pm[3] == "current";
    assert MatchSegments(pm) == PmDashboard("current");
  }

  /** Trailing slashes never change the route. */
  lemma TrailingSlashIgnored(path: string)
    ensures Match(path + "/") == Match(path)
  {
    SingleSlashesTrailing(path);
    SegmentsIgnoreTrailingSlash(path);
    if path != [] {
      assert (path + "/")[0] == path[0];
    }
  }

  /**
   * Two slashes in a row, anywhere but at the end, select no route, so every
   * such path is sent to login without remembering where it came from.
   */
  lemma DoubledSlashUnmatched(a: string, b: string, token: Option<string>, user: Option<Identity>)
    requires b != [] && b[|b| - 1] != '/'
    ensures Match(a + "//" + b) == NoMatch
    ensures Render(a + "//" + b, token, user) == Go(LoginPath, None)
  {
    DoubledSlashFails(a, b);
  }

  /**
   * Every page other than login is shown only to a signed-in user (token
   * and user) whose role owns the page's section.
   */
  lemma PagesNeedSessionAndRole(path: string, token: Option<string>, user: Option<Identity>)
    ensures Render(path, token, user).Show? && Render(path, token, user).route != Login ==>
      && HasToken(token) && user.Some?
      && (Render(path, token, user).route.UnderAdmin() ==> RoleIs(user, HrAdmin))
      && (Render(path, token, user).route.UnderPm() ==> RoleIs(user, Pm))
  {
  }

  /** A signed-in user without the section's role is sent to the app root, never to login. */
  lemma WrongSectionGoesToApp(path: string, token: Option<string>, user: Option<Identity>)
    requires HasToken(token) && user.Some?
    ensures Match(path).UnderAdmin() && !RoleIs(user, HrAdmin) ==> Render(path, token, user) == Go(AppPath, None)
    ensures Match(path).UnderPm() && !RoleIs(user, Pm) ==> Render(path, token, user) == Go(AppPath, None)
  {
  }

  /**
   * The converse of `PagesNeedSessionAndRole`: a page under one of the two
   * sections opens, without redirect, for a session holding that section's role.
   */
  lemma SectionPageOpens(path: string, token: Option<string>, user: Option<Identity>)
    requires HasToken(token)
    requires || (Match(path).UnderAdmin() && Match(path) != AdminIndex && RoleIs(user, HrAdmin))
             || (Match(path).UnderPm() && Match(path) != PmIndex && RoleIs(user, Pm))
    ensures Render(path, token, user) == Show(Match(path))
  {
  }

  /** Each role's home passes that role's own guards. */
  lemma HomesPassTheirGuards(token: Option<string>, user: Option<Identity>)
    requires HasToken(token)
    ensures RoleIs(user, HrAdmin) ==> Render(RoleHome(user), token, user) == Show(AdminDashboard)
    ensures RoleIs(user, Pm) ==> Render(RoleHome(user), token, user) == Show(PmDashboard("current"))
  {
    if RoleIs(user, HrAdmin) {
      AdminHomeMatches();
      SectionPageOpens(AdminHome, token, user);
    }
    if RoleIs(user, Pm) {
      PmHomeMatches();
      SectionPageOpens(PmHome, token, user);
    }
  }

  /** Every redirect lands on one of four fixed paths. */
  lemma RedirectTargets(path: string, token: Option<string>, user: Option<Identity>)
    ensures Render(path, token, user).Go? ==>
      Render(path, token, user).to in {LoginPath, AppPath, AdminHome, PmHome}
  {
  }

  /** One redirect followed: settling a path that redirects is settling its target with one step less. */
  lemma SettleStep(path: string, token: Option<string>, user: Option<Identity>, fuel: nat, to: string, from: Option<string>)
    requires fuel >= 1 && Render(path, token, user) == Go(to, from)
    ensures Settle(path, token, user, fuel) == Settle(to, token, user, fuel - 1)
  {
  }

  /** Following redirects never leaves a set of targets that the start and every rendered screen stay within. */
  lemma FollowTargets(step: string -> Screen, screen: Screen, fuel: nat, targets: set<string>)
    requires screen.Go? ==> screen.to in targets
    requires forall p :: step(p).Go? ==> step(p).to in targets
    ensures Follow(step, screen, fuel).Go? ==> Follow(step, screen, fuel).to in targets
  {
  }

  /** A redirect still pending when the fuel runs out goes to one of the four fixed targets. */
  lemma SettleTargets(path: string, token: Option<string>, user: Option<Identity>, fuel: nat)
    ensures Settle(path, token, user, fuel).Go? ==>
      Settle(path, token, user, fuel).to in {LoginPath, AppPath, AdminHome, PmHome}
  {
    StepTargets(token, user);
    RedirectTargets(path, token, user);
    FollowTargets(Step(token, user), Render(path, token, user), fuel, {LoginPath, AppPath, AdminHome, PmHome});
  }

  /** Every screen a redirect renders that is itself a redirect goes to one of the four fixed targets. */
  lemma StepTargets(token: Option<string>, user: Option<Identity>)
    ensures forall p :: Step(token, user)(p).Go? ==> Step(token, user)(p).to in {LoginPath, AppPath, AdminHome, PmHome}
  {
    forall p
      ensures Step(token, user)(p).Go? ==> Step(token, user)(p).to in {LoginPath, AppPath, AdminHome, PmHome}
    {
      RedirectTargets(p, token, user);
    }
  }

  /** Once settled, following more redirects changes nothing. */
  lemma {:induction false} FollowMore(step: string -> Screen, screen: Screen, fuel: nat)
    requires Follow(step, screen, fuel).Show?
    ensures Follow(step, screen, fuel + 1) == Follow(step, screen, fuel)
    decreases fuel
  {
    if screen.Go? {
      FollowMore(step, step(screen.to), fuel - 1);
    }
  }

  lemma SettleMore(path: string, token: Option<string>, user: Option<Identity>, fuel: nat)
    requires Settle(path, token, user, fuel).Show?
    ensures Settle(path, token, user, fuel + 1) == Settle(path, token, user, fuel)
  {
    FollowMore(Step(token, user), Render(path, token, user), fuel);
  }

  lemma SettleLogin(token: Option<string>, user: Option<Identity>, fuel: nat)
    ensures Settle(LoginPath, token, user, fuel) == Show(Login)
  {
    LoginPathMatches();
  }

  /** Any page under `/app` settles on login for a visitor without a session. */
  lemma SettleSignedOut(path: string, token: Option<string>, user: Option<Identity>, fuel: nat)
    requires fuel >= 1 && Match(path).UnderApp() && !(HasToken(token) && user.Some?)
    ensures Settle(path, token, user, fuel) == Show(Login)
  {
    SettleViaLogin(path, token, user, fuel, Some(path));
  }

  lemma SettleViaLogin(path: string, token: Option<string>, user: Option<Identity>, fuel: nat, from: Option<string>)
    requires fuel >= 1 && Render(path, token, user) == Go(LoginPath, from)
    ensures Settle(path, token, user, fuel) == Show(Login)
  {
    calc {
      Settle(path, token, user, fuel);
      == { SettleStep(path, token, user, fuel, LoginPath, from); }
      Settle(LoginPath, token, user, fuel - 1);
      == { SettleLogin(token, user, fuel - 1); }
      Show(Login);
    }
  }

  /** At the app root a session lands on the role's home (or login); without one, on login. */
  lemma AppPathRenders(token: Option<string>, user: Option<Identity>)
    ensures HasToken(token) && user.Some? ==> Render(AppPath, token, user) == Go(RoleHome(user), None)
    ensures !(HasToken(token) && user.Some?) ==> Render(AppPath, token, user) == Go(LoginPath, Some(AppPath))
  {
    AppPathMatches();
    assert Render(AppPath, token, user) == RenderRoute(AppIndex, AppPath, token, user);
  }

  /** From the app root one redirect reaches a page. */
  lemma SettleApp(token: Option<string>, user: Option<Identity>)
    ensures Settle(AppPath, token, user, 1).Show?
  {
    AppPathRenders(token, user);
    if HasToken(token) && user.Some? {
      SettleStep(AppPath, token, user, 1, RoleHome(user), None);
      HomesPassTheirGuards(token, user);
      SettleLogin(token, user, 0);
    } else {
      SettleStep(AppPath, token, user, 1, LoginPath, Some(AppPath));
      SettleLogin(token, user, 0);
    }
  }

  /** At a role's home, a session without that role is sent to the app root. */
  lemma AdminHomeTurnsAway(token: Option<string>, user: Option<Identity>)
    requires HasToken(token) && user.Some? && !RoleIs(user, HrAdmin)
    ensures Render(AdminHome, token, user) == Go(AppPath, None)
  {
    AdminHomeMatches();
    WrongSectionGoesToApp(AdminHome, token, user);
  }

  lemma PmHomeTurnsAway(token: Option<string>, user: Option<Identity>)
    requires HasToken(token) && user.Some? && !RoleIs(user, Pm)
    ensures Render(PmHome, token, user) == Go(AppPath, None)
  {
    PmHomeMatches();
    WrongSectionGoesToApp(PmHome, token, user);
  }

  /** From the admin home at most two redirects reach a page. */
  lemma SettleAdminHome(token: Option<string>, user: Option<Identity>)
    ensures Settle(AdminHome, token, user, 2).Show?
  {
    if !(HasToken(token) && user.Some?) {
      AdminHomeMatches();
      SettleSignedOut(AdminHome, token, user, 2);
    } else if RoleIs(user, HrAdmin) {
      HomesPassTheirGuards(token, user);
      assert RoleHome(user) == AdminHome;
    } else {
      AdminHomeTurnsAway(token, user);
      SettleStep(AdminHome, token, user, 2, AppPath, None);
      SettleApp(token, user);
    }
  }

  /** From the project manager home at most two redirects reach a page. */
  lemma SettlePmHome(token: Option<string>, user: Option<Identity>)
    ensures Settle(PmHome, token, user, 2).Show?
  {
    if !(HasToken(token) && user.Some?) {
      PmHomeMatches();
      SettleSignedOut(PmHome, token, user, 2);
    } else if RoleIs(user, Pm) {
      HomesPassTheirGuards(token, user);
      assert RoleHome(user) == PmHome;
    } else {
      PmHomeTurnsAway(token, user);
      SettleStep(PmHome, token, user, 2, AppPath, None);
      SettleApp(token, user);
    }
  }

  /** Redirects never loop: from any path, for any session, at most three of them end on a page. */
  lemma RedirectsSettle(path: string, token: Option<string>, user: Option<Identity>)
    ensures Settle(path, token, user, 3).Show?
  {
    RedirectTargets(path, token, user);
    match Render(path, token, user)
    case Show(_) =>
    case Go(to, from) =>
      SettleStep(path, token, user, 3, to, from);
      if to == LoginPath {
        SettleLogin(token, user, 2);
      } else if to == AppPath {
        SettleApp(token, user);
        SettleMore(AppPath, token, user, 1);
      } else if to == AdminHome {
        SettleAdminHome(token, user);
      } else {
        SettlePmHome(token, user);
      }
  }

  /** A project manager who asks for an admin page goes to the app root and from there to their own dashboard. */
  lemma PmAtAdminPageGoesHome(path: string, token: Option<string>, user: Option<Identity>)
    requires Match(path).UnderAdmin() && HasToken(token) && RoleIs(user, Pm)
    ensures Render(path, token, user) == Go(AppPath, None)
    ensures Render(AppPath, token, user) == Go(PmHome, None)
    ensures Settle(path, token, user, 3) == Show(PmDashboard("current"))
  {
    WrongSectionGoesToApp(path, token, user);
    AppPathRenders(token, user);
    HomesPassTheirGuards(token, user);
    assert Settle(PmHome, token, user, 1) == Show(PmDashboard("current"));
    assert Settle(AppPath, token, user, 2) == Show(PmDashboard("current"));
  }
}

=== FILE: auth_store.dfy ===
/**
 * The browser session: an access token and the signed-in user, kept as
 * text under two keys of the browser's key-value storage. Every other key
 * belongs to someone else and is never touched.
 */
module AuthStore {
  import opened Wrappers
  import opened JsonText
  import opened Users

  /** Browser key-value storage: text under text keys. */
  type Storage = map<string, string>

  const TokenKey := "accessToken"
  const UserKey := "user"

  /** What a sign-in hands to the store. */
  datatype AuthData = AuthData(accessToken: string, user: Identity)

  /** The stored user text is not the JSON of a user. */
  datatype ReadError = Unreadable

  /** `saveAuth(data)`: the token under one key, the user's JSON text under the other. */
  function SaveAuth(st: Storage, d: AuthData): (r: Storage)
    ensures TokenKey in r && r[TokenKey] == d.accessToken
    ensures UserKey in r && r[UserKey] == EncodeIdentity(d.user)
    ensures forall k :: k != TokenKey && k != UserKey ==> (k in r <==> k in st)
    ensures forall k :: k in st && k != TokenKey && k != UserKey ==> r[k] == st[k]
  {
    st[TokenKey := d.accessToken][UserKey := EncodeIdentity(d.user)]
  }

  /** `getAccessToken()`: whatever text the token key holds, even empty; `None` when it is absent. */
  function GetAccessToken(st: Storage): (r: Option<string>)
    ensures r.None? <==> TokenKey !in st
    ensures r.Some? ==> r.value == st[TokenKey]
  {
    if TokenKey in st then Some(st[TokenKey]) else None
  }

  /**
   * `getUser()`: no user when the key is absent, holds the empty text, or
   * holds the JSON `null`; the user when the text is a user's JSON; an error
   * (where `JSON.parse` would throw or give some other value) otherwise.
   */
  function GetUser(st: Storage): (r: Result<Option<Identity>, ReadError>)
    ensures (UserKey !in st || st[UserKey] == "") ==> r == Ok(None)
    ensures UserKey in st && st[UserKey] != "" && DecodeIdentity(st[UserKey]).Some? ==>
      r == Ok(DecodeIdentity(st[UserKey]))
    ensures r.Ok? && r.value.Some? ==> UserKey in st && DecodeIdentity(st[UserKey]) == r.value
  {
    if UserKey !in st || st[UserKey] == "" then Ok(None)
    else
      var text := st[UserKey];
      match DecodeIdentity(text)
      case Some(u) => Ok(Some(u))
      case None => if IsNullLiteral(text) then Ok(None) else Err(Unreadable)
  }

  /** `clearAuth()`: both keys removed. */
  function ClearAuth(st: Storage): (r: Storage)
    ensures TokenKey !in r && UserKey !in r
    ensures forall k :: k != TokenKey && k != UserKey ==> (k in r <==> k in st)
    ensures forall k :: k in r ==> r[k] == st[k]
  {
    st - {TokenKey, UserKey}
  }

  /** What was saved is what is read back, token and user alike. */
  lemma SaveThenRead(st: Storage, d: AuthData)
    ensures GetAccessToken(SaveAuth(st, d)) == Some(d.accessToken)
    ensures GetUser(SaveAuth(st, d)) == Ok(Some(d.user))
  {
    DecodeEncode(d.user);
  }

  /** After a clear neither getter finds anything, and clearing again changes nothing. */
  lemma ClearThenRead(st: Storage)
    ensures GetAccessToken(ClearAuth(st)) == None
    ensures GetUser(ClearAuth(st)) == Ok(None)
    ensures ClearAuth(ClearAuth(st)) == ClearAuth(st)
  {
  }

  /**
   * The two getters are independent: each answers from its own key alone,
   * so a token without a user (or the reverse) is read as it is.
   */
  lemma GettersIndependent(st: Storage, other: Storage)
    ensures (TokenKey in st <==> TokenKey in other) && (TokenKey in st ==> st[TokenKey] == other[TokenKey])
      ==> GetAccessToken(st) == GetAccessToken(other)
    ensures (UserKey in st <==> UserKey in other) && (UserKey in st ==> st[UserKey] == other[UserKey])
      ==> GetUser(st) == GetUser(other)
  {
  }

  /** A session saved and then cleared leaves every other key as it found it. */
  lemma SaveClearKeepsOthers(st: Storage, d: AuthData)
    ensures ClearAuth(SaveAuth(st, d)) == ClearAuth(st)
  {
  }
}

=== FILE: client.dfy ===
/**
 * The HTTP client's request interceptor: every outgoing request is given
 * the stored access token as a bearer credential, when there is one.
 */
module Client {
  import opened Wrappers
  import opened Json
  import opened AuthStore

  datatype Verb = GET | POST | PUT

  /** A REST call as the data layer issues it: verb, path below the base URL, and optional JSON body. */
  datatype Request = Request(verb: Verb, path: string, body: Option<Value>)

  /** The request config the interceptor sees; `headers` is `None` when the config carries no headers object. */
  datatype Config = Config(request: Request, headers: Option<map<string, string>>)

  const AuthorizationHeader := "Authorization"

  /**
   * The interceptor: with a non-empty stored token the config gets
   * `Authorization: Bearer <token>` (a missing headers object is created
   * first); otherwise it passes through unchanged. It never rejects.
   */
  function Intercept(st: Storage, config: Config): (r: Config)
    ensures r.request == config.request
    ensures (GetAccessToken(st).None? || GetAccessToken(st).value == "") ==> r == config
    ensures GetAccessToken(st).Some? && GetAccessToken(st).value != "" ==>
      var token := GetAccessToken(st).value;
      && r.headers.Some?
      && AuthorizationHeader in r.headers.value
      && r.headers.value[AuthorizationHeader] == "Bearer " + token
      && (forall h :: h in config.headers.GetOr(map[]) && h != AuthorizationHeader ==>
            h in r.headers.value && r.headers.value[h] == config.headers.GetOr(map[])[h])
      && r.headers.value.Keys == config.headers.GetOr(map[]).Keys + {AuthorizationHeader}
  {
    match GetAccessToken(st)
    case Some(token) =>
      if token == "" then config
      else
        var headers := config.headers.GetOr(map[]);
        config.(headers := Some(headers[AuthorizationHeader := "Bearer " + token]))
    case None => config
  }

  /** Right after a sign-in, every request carries the new token; after a sign-out, none is added. */
  lemma SessionDrivesHeader(st: Storage, d: AuthData, config: Config)
    ensures d.accessToken != "" ==>
      var r := Intercept(SaveAuth(st, d), config);
      r.headers.Some? && AuthorizationHeader in r.headers.value
      && r.headers.value[AuthorizationHeader] == "Bearer " + d.accessToken
    ensures Intercept(ClearAuth(st), config) == config
  {
  }
}

=== FILE: employees_page.dfy ===
/**
 * The employee administration page: the roster filter, the create/edit form
 * and the payload it sends, the list update after a save, and the
 * activate/deactivate toggle.
 */
module EmployeesPage {
  import opened Wrappers
  import opened Json
  import opened Text
  import opened Seqs
  import opened PageLists

  // ---------------------------------------------------------------------
  // filtering

  const SearchKeys := ["name", "email", "id"]

  /** Name, email or id mentions the search term, ignoring case. */
  predicate MatchesSearch(e: Record, term: string) {
    MentionedIn(e, SearchKeys, term)
  }

  predicate Shown(e: Record, term: string, status: string, role: string) {
    MatchesSearch(e, term) && Admits(e, "status", status) && Admits(e, "role", role)
  }

  /** `filteredEmployees`. */
  function FilterEmployees(employees: seq<Record>, term: string, status: string, role: string): (r: seq<Record>)
    ensures |r| <= |employees|
    ensures forall i :: 0 <= i < |r| ==> r[i] in employees && Shown(r[i], term, status, role)
    ensures forall i :: 0 <= i < |employees| && Shown(employees[i], term, status, role) ==> employees[i] in r
  {
    Filter(employees, e => Shown(e, term, status, role))
  }

  /** With no search term and both selects on `ALL`, the whole roster shows, in order. */
  lemma UnfilteredShowsAll(employees: seq<Record>)
    ensures FilterEmployees(employees, "", All, All) == employees
  {
    forall i | 0 <= i < |employees|
      ensures Shown(employees[i], "", All, All)
    {
      MentionedInIgnoresCase(employees[i], SearchKeys, "");
    }
    FilterKeepsAll(employees, e => Shown(e, "", All, All));
  }

  /** Typing the search term in another case shows the same rows. */
  lemma SearchIgnoresCase(employees: seq<Record>, term: string, status: string, role: string)
    ensures FilterEmployees(employees, Upper(term), status, role) == FilterEmployees(employees, term, status, role)
  {
    forall i | 0 <= i < |employees|
      ensures Shown(employees[i], Upper(term), status, role) == Shown(employees[i], term, status, role)
    {
      MentionedInIgnoresCase(employees[i], SearchKeys, term);
    }
    FilterCongruent(employees, e => Shown(e, Upper(term), status, role), e => Shown(e, term, status, role));
  }

  /** The three criteria are independent: filtering by all of them is narrowing by status, then by role and search. */
  lemma FiltersCompose(employees: seq<Record>, term: string, status: string, role: string)
    ensures FilterEmployees(employees, term, status, role)
         == Filter(FilterEmployees(employees, "", status, All), e => MatchesSearch(e, term) && Admits(e, "role", role))
  {
    var byStatus := e => Shown(e, "", status, All);
    var rest := e => MatchesSearch(e, term) && Admits(e, "role", role);
    var both := e => byStatus(e) && rest(e);
    forall e: Record
      ensures Shown(e, term, status, role) == both(e)
    {
      MentionedInIgnoresCase(e, SearchKeys, "");
    }
    FilterCongruent(employees, e => Shown(e, term, status, role), both);
    FilterConjunction(employees, byStatus, rest, both);
  }

  // ---------------------------------------------------------------------
  // the form

  const FormKeys: set<string> := {"name", "email", "phone", "role", "trade", "status", "hourlyRate", "assignedProjectId"}

  /** The form of "Add Employee". */
  const DefaultForm: Record := map[
    "name" := Str(""), "email" := Str(""), "phone" := Str(""), "role" := Str("WORKER"),
    "trade" := Str(""), "status" := Str("ACTIVE"), "hourlyRate" := Str(""), "assignedProjectId" := Str("")
  ]

  /** The edit form for an employee: the fields as stored, with a nullish rate or project shown as empty. */
  function EditForm(e: Record): (f: Record)
    ensures f.Keys == FormKeys
    ensures forall k :: k in FormKeys && k != "hourlyRate" && k != "assignedProjectId" ==> f[k] == Get(e, k)
    ensures f["hourlyRate"] == (if Get(e, "hourlyRate").Undefined? || Get(e, "hourlyRate").Null? then Str("") else Get(e, "hourlyRate"))
    ensures f["assignedProjectId"] == (if Get(e, "assignedProjectId").Undefined? || Get(e, "assignedProjectId").Null? then Str("") else Get(e, "assignedProjectId"))
  {
    map k | k in FormKeys ::
      if k == "hourlyRate" || k == "assignedProjectId" then Coalesce(Get(e, k), Str("")) else Get(e, k)
  }

  /** The name of the first project with the given id, or empty when none has it. */
  function ProjectNameFor(projects: seq<Record>, id: Value): (v: Value)
    ensures FindFirst(projects, "id", id).None? ==> v == Str("")
    ensures FindFirst(projects, "id", id).Some? ==> v == Get(projects[FindFirst(projects, "id", id).value], "name")
  {
    match Find(projects, "id", id)
    case Some(p) => Get(p, "name")
    case None => Str("")
  }

  /**
   * The payload `handleSubmit` sends: the form, the rate converted to a
   * number when filled in (null otherwise), and the assigned project's name.
   * `toNumber` stands for JavaScript's `Number`.
   */
  function Payload(form: Record, projects: seq<Record>, toNumber: Value -> real): (p: Record)
    ensures p.Keys == form.Keys + {"hourlyRate", "assignedProjectName"}
    ensures forall k :: k in form && k != "hourlyRate" && k != "assignedProjectName" ==> p[k] == form[k]
    ensures p["hourlyRate"] == (if Truthy(Get(form, "hourlyRate")) then Num(toNumber(Get(form, "hourlyRate"))) else Null)
    ensures p["assignedProjectName"] == ProjectNameFor(projects, Get(form, "assignedProjectId"))
  {
    var rate := Get(form, "hourlyRate");
    Spread(form, map[
      "hourlyRate" := if Truthy(rate) then Num(toNumber(rate)) else Null,
      "assignedProjectName" := ProjectNameFor(projects, Get(form, "assignedProjectId"))
    ])
  }

  /** A new employee's payload from the untouched form: no rate, and no project unless one has an empty id. */
  lemma DefaultFormPayload(projects: seq<Record>, toNumber: Value -> real)
    requires forall i :: 0 <= i < |projects| ==> Get(projects[i], "id") != Str("")
    ensures Payload(DefaultForm, projects, toNumber)["hourlyRate"] == Null
    ensures Payload(DefaultForm, projects, toNumber)["assignedProjectName"] == Str("")
    ensures Payload(DefaultForm, projects, toNumber)["role"] == Str("WORKER")
    ensures Payload(DefaultForm, projects, toNumber)["status"] == Str("ACTIVE")
  {
  }

  /** Editing and saving without changes sends the stored fields back, and the assigned project's current name. */
  lemma UnchangedEditResends(e: Record, projects: seq<Record>, toNumber: Value -> real, k: string)
    requires k in FormKeys && k != "hourlyRate"
    requires k == "assignedProjectId" ==> Get(e, k) != Null && Get(e, k) != Undefined
    ensures Payload(EditForm(e), projects, toNumber)[k] == Get(e, k)
    ensures Payload(EditForm(e), projects, toNumber)["assignedProjectName"]
         == ProjectNameFor(projects, Coalesce(Get(e, "assignedProjectId"), Str("")))
  {
  }

  /** A stored rate survives an unchanged edit when it is non-zero; a zero rate is falsy and goes back as null. */
  lemma RateResent(e: Record, projects: seq<Record>, toNumber: Value -> real, x: real)
    requires Get(e, "hourlyRate") == Num(x)
    requires forall y: real :: toNumber(Num(y)) == y
    ensures x != 0.0 ==> Payload(EditForm(e), projects, toNumber)["hourlyRate"] == Num(x)
    ensures x == 0.0 ==> Payload(EditForm(e), projects, toNumber)["hourlyRate"] == Null
  {
  }

  /** The list, modal and message after a save; the record to edit is `editingId`, null for a create. */
  function SaveEmployee<E>(employees: seq<Record>, editingId: Value, result: Result<Record, E>): (v: FormView)
    ensures result.Err? ==> v.items == employees && v.modalOpen && v.formError == "Unable to save employee. Check the details and try again."
    ensures result.Ok? ==> !v.modalOpen && v.items == AfterSave(employees, editingId, result.value)
  {
    Submit(employees, editingId, result, "Unable to save employee. Check the details and try again.")
  }

  // ---------------------------------------------------------------------
  // the status toggle

  /** The status the toggle asks for: active employees are deactivated, anyone else activated. */
  function NextStatus(status: Value): (s: string)
    ensures s == "INACTIVE" <==> status == Str("ACTIVE")
    ensures s == "ACTIVE" || s == "INACTIVE"
  {
    if status == Str("ACTIVE") then "INACTIVE" else "ACTIVE"
  }

  /** Toggling twice restores an active or inactive employee; any other status ends inactive after two toggles. */
  lemma ToggleTwice(status: Value)
    ensures status == Str("ACTIVE") || status == Str("INACTIVE") ==> Str(NextStatus(Str(NextStatus(status)))) == status
    ensures status != Str("ACTIVE") && status != Str("INACTIVE") ==> NextStatus(Str(NextStatus(status))) == "INACTIVE"
  {
  }

  /** The list and page message after a toggle: the updated record replaces the employee's entry on success; a failure only sets the message. */
  function AfterToggle<E>(employees: seq<Record>, pageError: string, e: Record, result: Result<Record, E>): (r: (seq<Record>, string))
    ensures result.Err? ==> r == (employees, "Unable to update employee status. Try again.")
    ensures result.Ok? ==> r.1 == pageError && |r.0| == |employees|
    ensures result.Ok? ==> forall i :: 0 <= i < |employees| ==>
      r.0[i] == if Get(employees[i], "id") == Get(e, "id") then result.value else employees[i]
  {
    match result
    case Ok(updated) => (ReplaceWhere(employees, "id", Get(e, "id"), updated), pageError)
    case Err(_) => (employees, "Unable to update employee status. Try again.")
  }
}

=== FILE: gates.dfy ===
/**
 * The two route guards and the role-to-home mapping, as pure decisions over
 * the session already read from storage: the access token (if any) and the
 * signed-in user (if any).
 */
module Gates {
  import opened Wrappers
  import opened Users

  /** Render the guarded children, or navigate (replacing history) elsewhere, optionally remembering where from. */
  datatype Decision = Allow | Redirect(to: string, from: Option<string>)

  const LoginPath := "/login"
  const AppPath := "/app"
  const AdminHome := "/app/admin/dashboard"
  const PmHome := "/app/pm/dashboard/current"

  /** A token counts only when it is present and non-empty. */
  predicate HasToken(token: Option<string>) {
    token.Some? && token.value != ""
  }

  /**
   * `RequireAuth`: both a token and a user are needed; lacking either, go to
   * the login page carrying the requested location.
   */
  function RequireAuth(token: Option<string>, user: Option<Identity>, location: string): (d: Decision)
    ensures d == Allow <==> HasToken(token) && user.Some?
    ensures d != Allow ==> d == Redirect(LoginPath, Some(location))
  {
    if !HasToken(token) || user.None? then Redirect(LoginPath, Some(location)) else Allow
  }

  /**
   * `RequireRole(allow)`: with no user, go to login carrying the location; a
   * user whose role is not allowed goes to the app root, never to login.
   * The token plays no part.
   */
  function RequireRole(user: Option<Identity>, allow: seq<string>, location: string): (d: Decision)
    ensures user.None? ==> d == Redirect(LoginPath, Some(location))
    ensures user.Some? ==> (d == Allow <==> user.value.role in allow)
    ensures user.Some? && d != Allow ==> d == Redirect(AppPath, None)
    ensures (d.Redirect? && d.to == LoginPath) <==> user.None?
  {
    match user
    case None => Redirect(LoginPath, Some(location))
    case Some(u) => if u.role in allow then Allow else Redirect(AppPath, None)
  }

  /** `RoleRedirect`: each role's landing page; no user, or a role without one, lands on login. */
  function RoleHome(user: Option<Identity>): (p: string)
    ensures user.None? ==> p == LoginPath
    ensures user.Some? && user.value.role == HrAdmin ==> p == AdminHome
    ensures user.Some? && user.value.role == Pm ==> p == PmHome
    ensures p == LoginPath <==> user.None? || (user.value.role != HrAdmin && user.value.role != Pm)
    ensures p == LoginPath || p == AdminHome || p == PmHome
  {
    match user
    case None => LoginPath
    case Some(u) =>
      if u.role == HrAdmin then AdminHome
      else if u.role == Pm then PmHome
      else LoginPath
  }
}

=== FILE: json.dfy ===
/**
 * JavaScript values as the portal's records carry them. A record is an
 * object with string keys; a missing key reads as `undefined`. Object
 * spread `{ ...a, ...b }` is map union with the right operand winning,
 * and the store's `clone` (a `JSON.stringify`/`JSON.parse` round trip)
 * drops `undefined`-valued keys and turns `undefined` array slots into `null`.
 * Numbers are exact reals: floating point is not modelled.
 */
module Json {
  import opened Wrappers

  datatype Value =
    | Undefined
    | Null
    | Bool(b: bool)
    | Num(n: real)
    | Str(s: string)
    | Arr(items: seq<Value>)
    | Obj(fields: map<string, Value>)

  type Record = map<string, Value>

  /** Property access `r[key]`. */
  function Get(r: Record, key: string): Value {
    if key in r then r[key] else Undefined
  }

  /** JavaScript truthiness (`NaN` does not arise: numbers are reals). */
  predicate Truthy(v: Value) {
    match v
    case Undefined => false
    case Null => false
    case Bool(b) => b
    case Num(n) => n != 0.0
    case Str(s) => s != ""
    case _ => true
  }

  /** `v ?? fallback`. */
  function Coalesce(v: Value, fallback: Value): Value {
    if v.Undefined? || v.Null? then fallback else v
  }

  /** `{ ...base, ...over }`: keys of `over` win, keys only in `base` are kept. */
  function Spread(base: Record, over: Record): (r: Record)
    ensures r.Keys == base.Keys + over.Keys
    ensures forall k :: k in over ==> r[k] == over[k]
    ensures forall k :: k in base && k !in over ==> r[k] == base[k]
  {
    base + over
  }

  // ---------------------------------------------------------------------
  // JSON round trip

  /** A value JSON can carry exactly: no `undefined` anywhere inside it. */
  predicate JsonSafe(v: Value) {
    match v
    case Undefined => false
    case Arr(items) => forall i :: 0 <= i < |items| ==> JsonSafe(items[i])
    case Obj(fields) => forall k :: k in fields ==> JsonSafe(fields[k])
    case _ => true
  }

  predicate SafeRecord(r: Record) {
    forall k :: k in r ==> JsonSafe(r[k])
  }

  /** `JSON.parse(JSON.stringify(v))` for a value that is not itself `undefined`. */
  function Clone(v: Value): Value
    decreases v, 0
  {
    match v
    case Arr(items) => Arr(seq(|items|, i requires 0 <= i < |items| => CloneSlot(items[i])))
    case Obj(fields) => Obj(map k | k in fields && !fields[k].Undefined? :: Clone(fields[k]))
    case _ => v
  }

  /** An array slot: `undefined` is written as `null`. */
  function CloneSlot(v: Value): Value
    decreases v, 1
  {
    if v.Undefined? then Null else Clone(v)
  }

  /** The store's `clone` applied to a record; object members whose value is `undefined` are omitted. */
  function CloneRecord(r: Record): Record {
    Clone(Obj(r)).fields
  }

  /** A cloned value carries no `undefined`. */
  lemma {:induction false} CloneIsSafe(v: Value)
    requires !v.Undefined?
    ensures JsonSafe(Clone(v))
    decreases v
  {
    match v
    case Arr(items) =>
      forall i | 0 <= i < |items|
        ensures JsonSafe(CloneSlot(items[i]))
      {
        if !items[i].Undefined? {
          CloneIsSafe(items[i]);
        }
      }
    case Obj(fields) =>
      forall k | k in Clone(v).fields
        ensures JsonSafe(Clone(v).fields[k])
      {
        CloneIsSafe(fields[k]);
      }
    case _ =>
  }

  /** Cloning a JSON-safe value gives back the same value. */
  lemma {:induction false} CloneOfSafe(v: Value)
    requires JsonSafe(v)
    ensures Clone(v) == v
    decreases v
  {
    match v
    case Arr(items) =>
      forall i | 0 <= i < |items|
        ensures CloneSlot(items[i]) == items[i]
      {
        CloneOfSafe(items[i]);
      }
    case Obj(fields) =>
      forall k | k in fields
        ensures Clone(fields[k]) == fields[k]
      {
        CloneOfSafe(fields[k]);
      }
    case _ =>
  }

  /** The record clone: only `undefined`-valued keys are dropped, and the result is JSON-safe. */
  lemma CloneRecordShape(r: Record)
    ensures CloneRecord(r).Keys == set k | k in r && !r[k].Undefined?
    ensures SafeRecord(CloneRecord(r))
  {
    forall k | k in CloneRecord(r)
      ensures JsonSafe(CloneRecord(r)[k])
    {
      CloneIsSafe(r[k]);
    }
  }

  /** Cloning a JSON-safe record is the identity, so cloning twice is cloning once. */
  lemma CloneRecordOfSafe(r: Record)
    requires SafeRecord(r)
    ensures CloneRecord(r) == r
  {
    forall k | k in r
      ensures Clone(r[k]) == r[k]
    {
      CloneOfSafe(r[k]);
    }
  }

  /** A field holding a JSON-safe value reads the same after the clone. */
  lemma CloneRecordGet(r: Record, k: string)
    requires k in r && !r[k].Undefined? && JsonSafe(r[k])
    ensures Get(CloneRecord(r), k) == r[k]
  {
    CloneOfSafe(r[k]);
  }

  /** `clone` is idempotent. */
  lemma CloneRecordIdempotent(r: Record)
    ensures CloneRecord(CloneRecord(r)) == CloneRecord(r)
  {
    CloneRecordShape(r);
    CloneRecordOfSafe(CloneRecord(r));
  }

  // ---------------------------------------------------------------------
  // lookups over lists of records

  /** `rs.findIndex(r => r[key] === v)`, with -1 as `None`. */
  function FindFirst(rs: seq<Record>, key: string, v: Value): (i: Option<nat>)
    ensures i.Some? ==> i.value < |rs| && Get(rs[i.value], key) == v
    ensures i.Some? ==> forall j :: 0 <= j < i.value ==> Get(rs[j], key) != v
    ensures i.None? <==> forall j :: 0 <= j < |rs| ==> Get(rs[j], key) != v
  {
    FindFrom(rs, key, v, 0)
  }

  /** The scan behind `FindFirst`: the first position at or after `start` whose record has `v` under `key`. */
  function FindFrom(rs: seq<Record>, key: string, v: Value, start: nat): (i: Option<nat>)
    requires start <= |rs|
    decreases |rs| - start
    ensures i.Some? ==> start <= i.value < |rs| && Get(rs[i.value], key) == v
    ensures i.Some? ==> forall j :: start <= j < i.value ==> Get(rs[j], key) != v
    ensures i.None? <==> forall j :: start <= j < |rs| ==> Get(rs[j], key) != v
  {
    if start == |rs| then None
    else if Get(rs[start], key) == v then Some(start)
    else FindFrom(rs, key, v, start + 1)
  }

  /** `rs.find(r => r[key] === v)`. */
  function Find(rs: seq<Record>, key: string, v: Value): Option<Record> {
    match FindFirst(rs, key, v)
    case None => None
    case Some(i) => Some(rs[i])
  }

  /** `rs.find(r => r.id === id)?.name`, `undefined` when nothing matches. */
  function NameOf(rs: seq<Record>, id: Value): Value {
    match Find(rs, "id", id)
    case None => Undefined
    case Some(r) => Get(r, "name")
  }

  /** `rs.map(r => r[key] === v ? with : r)`: every matching element is replaced. */
  function ReplaceWhere(rs: seq<Record>, key: string, v: Value, with: Record): (r: seq<Record>)
    ensures |r| == |rs|
    ensures forall i :: 0 <= i < |rs| && Get(rs[i], key) != v ==> r[i] == rs[i]
    ensures forall i :: 0 <= i < |rs| && Get(rs[i], key) == v ==> r[i] == with
  {
    seq(|rs|, i requires 0 <= i < |rs| => if Get(rs[i], key) == v then with else rs[i])
  }
}

=== FILE: json_text.dfy ===
/**
 * The textual side of JSON needed to keep a signed-in user in string
 * storage: `JSON.stringify` of strings (quotation and escaping as in
 * section 25.5.2 of ECMA-262) and a `JSON.parse` reader for objects whose
 * members are all strings. Surrogate-pair `\u` escapes are not read.
 */
module JsonText {
  import opened Wrappers

  // ---------------------------------------------------------------------
  // hexadecimal digits

  function HexDigit(d: nat): (c: char)
    requires d < 16
  {
    if d < 10 then ('0' as int + d) as char else ('a' as int + d - 10) as char
  }

  predicate IsHex(c: char) {
    '0' <= c <= '9' || 'a' <= c <= 'f' || 'A' <= c <= 'F'
  }

  function HexValue(c: char): (d: nat)
    requires IsHex(c)
    ensures d < 16
  {
    if '0' <= c <= '9' then c as int - '0' as int
    else if 'a' <= c <= 'f' then c as int - 'a' as int + 10
    else c as int - 'A' as int + 10
  }

  lemma HexRoundTrip(d: nat)
    requires d < 16
    ensures IsHex(HexDigit(d)) && HexValue(HexDigit(d)) == d
  {
  }

  // ---------------------------------------------------------------------
  // writing

  const Backspace: char := 8 as char
  const FormFeed: char := 12 as char

  /** How `JSON.stringify` writes one character inside a string literal. */
  function EscapeChar(c: char): (r: string)
    ensures |r| >= 1
    ensures r[0] != '"'
  {
    if c == '"' then "\\\""
    else if c == '\\' then "\\\\"
    else if c == Backspace then "\\b"
    else if c == '\t' then "\\t"
    else if c == '\n' then "\\n"
    else if c == FormFeed then "\\f"
    else if c == '\r' then "\\r"
    else if c < ' ' then "\\u00" + [HexDigit(c as int / 16), HexDigit(c as int % 16)]
    else [c]
  }

  function EscapeAll(s: string): string {
    if s == [] then "" else EscapeChar(s[0]) + EscapeAll(s[1..])
  }

  /** `JSON.stringify(s)` for a string `s`. */
  function Quote(s: string): string {
    "\"" + EscapeAll(s) + "\""
  }

  // ---------------------------------------------------------------------
  // reading

  predicate IsWhitespace(c: char) {
    c == ' ' || c == '\t' || c == '\n' || c == '\r'
  }

  /** Drops leading JSON whitespace. */
  function SkipWs(t: string): (r: string)
    ensures |r| <= |t|
    ensures r == t[|t| - |r|..]
    ensures r == [] || !IsWhitespace(r[0])
  {
    if t != [] && IsWhitespace(t[0]) then SkipWs(t[1..]) else t
  }

  /** Text that does not start with whitespace is left as it is. */
  lemma SkipWsStops(t: string)
    requires t == [] || !IsWhitespace(t[0])
    ensures SkipWs(t) == t
  {
  }

  /** Reads one character of a string body that is not its closing quote; returns it and the width read. */
  function ReadUnit(t: string): (r: Option<(char, nat)>)
    requires t != [] && t[0] != '"'
    ensures r.Some? ==> 1 <= r.value.1 <= |t|
  {
    if t[0] == '\\' then
      if |t| < 2 then None
      else if t[1] == '"' then Some(('"', 2))
      else if t[1] == '\\' then Some(('\\', 2))
      else if t[1] == '/' then Some(('/', 2))
      else if t[1] == 'b' then Some((Backspace, 2))
      else if t[1] == 'f' then Some((FormFeed, 2))
      else if t[1] == 'n' then Some(('\n', 2))
      else if t[1] == 'r' then Some(('\r', 2))
      else if t[1] == 't' then Some(('\t', 2))
      else if t[1] == 'u' && |t| >= 6 && IsHex(t[2]) && IsHex(t[3]) && IsHex(t[4]) && IsHex(t[5]) then
        var n := ((HexValue(t[2]) * 16 + HexValue(t[3])) * 16 + HexValue(t[4])) * 16 + HexValue(t[5]);
        if 0xD800 <= n < 0xE000 then None else Some((n as char, 6))
      else None
    else if t[0] < ' ' then None
    else Some((t[0], 1))
  }

  /** Reads a string body up to its closing quote; returns the string and what follows the quote. */
  function ReadString(t: string): (r: Option<(string, string)>)
    ensures r.Some? ==> |r.value.1| < |t|
    decreases |t|
  {
    if t == [] then None
    else if t[0] == '"' then Some(("", t[1..]))
    else match ReadUnit(t)
      case None => None
      case Some((c, k)) =>
        match ReadString(t[k..])
        case None => None
        case Some((s, rest)) => Some(([c] + s, rest))
  }

  /** Every escaped character is read back as itself, whatever follows it. */
  lemma ReadEscapedChar(c: char, rest: string)
    ensures (EscapeChar(c) + rest)[0] != '"'
    ensures ReadUnit(EscapeChar(c) + rest) == Some((c, |EscapeChar(c)|))
  {
    var t := EscapeChar(c) + rest;
    assert t[0] == EscapeChar(c)[0];
    if c < ' ' && c != Backspace && c != '\t' && c != '\n' && c != FormFeed && c != '\r' {
      var hi, lo := c as int / 16, c as int % 16;
      HexRoundTrip(hi);
      HexRoundTrip(lo);
      assert t[..6] == "\\u00" + [HexDigit(hi), HexDigit(lo)];
      assert t[1] == 'u' && t[2] == '0' && t[3] == '0' && t[4] == HexDigit(hi) && t[5] == HexDigit(lo);
      assert ((0 * 16 + 0) * 16 + hi) * 16 + lo == c as int;
    }
  }

  /** Reading a quoted string written by `Quote` gives back the string and the text after it. */
  lemma {:induction false} ReadQuoted(s: string, rest: string)
    ensures ReadString(EscapeAll(s) + "\"" + rest) == Some((s, rest))
  {
    var t := EscapeAll(s) + "\"" + rest;
    if s == [] {
      assert t == "\"" + rest;
      assert t[1..] == rest;
    } else {
      var e := EscapeChar(s[0]);
      var tail := EscapeAll(s[1..]) + "\"" + rest;
      assert t == e + tail;
      ReadEscapedChar(s[0], tail);
      assert t[|e|..] == tail;
      ReadQuoted(s[1..], rest);
      assert [s[0]] + s[1..] == s;
    }
  }

  /** `Quote(s)` followed by anything reads back as `s`. */
  lemma ReadQuote(s: string, rest: string)
    ensures (Quote(s) + rest)[0] == '"'
    ensures ReadString((Quote(s) + rest)[1..]) == Some((s, rest))
  {
    assert (Quote(s) + rest)[1..] == EscapeAll(s) + "\"" + rest;
    ReadQuoted(s, rest);
  }

  // ---------------------------------------------------------------------
  // objects whose members are strings

  /** Reads `"key": "value"` members separated by commas up to the closing brace and the end of the text. */
  function ParseMembers(t: string, acc: map<string, string>): Option<map<string, string>>
    decreases |t|, 2
  {
    if t == [] || t[0] != '"' then None
    else match ReadString(t[1..])
      case None => None
      case Some((k, r1)) => AfterKey(k, r1, acc)
  }

  /** After a member's key: a colon, then the quoted value. */
  function AfterKey(k: string, r1: string, acc: map<string, string>): Option<map<string, string>>
    decreases |r1|, 1
  {
    var r2 := SkipWs(r1);
    if r2 == [] || r2[0] != ':' then None
    else
      var r3 := SkipWs(r2[1..]);
      if r3 == [] || r3[0] != '"' then None
      else match ReadString(r3[1..])
        case None => None
        case Some((v, r4)) => AfterValue(k, v, r4, acc)
  }

  /** After a member's value: a comma and more members, or the closing brace and the end of the text. */
  function AfterValue(k: string, v: string, r4: string, acc: map<string, string>): Option<map<string, string>>
    decreases |r4|, 0
  {
    var r5 := SkipWs(r4);
    var acc' := acc[k := v];
    if r5 == [] then None
    else if r5[0] == ',' then ParseMembers(SkipWs(r5[1..]), acc')
    else if r5[0] == '}' && SkipWs(r5[1..]) == [] then Some(acc')
    else None
  }

  /** `JSON.parse(t)` when `t` is an object all of whose members are strings; a later duplicate key wins. */
  function ParseFlatObject(t: string): (r: Option<map<string, string>>)
    ensures r.Some? ==> SkipWs(t) != [] && SkipWs(t)[0] == '{'
    ensures IsNullLiteral(t) ==> r.None?
  {
    var a := SkipWs(t);
    assert IsNullLiteral(t) ==> a[0] == a[..4][0] == 'n';
    if a == [] || a[0] != '{' then None
    else
      var b := SkipWs(a[1..]);
      if b != [] && b[0] == '}' then (if SkipWs(b[1..]) == [] then Some(map[]) else None)
      else ParseMembers(b, map[])
  }

  /** `JSON.parse(t) === null`. */
  predicate IsNullLiteral(t: string) {
    var a := SkipWs(t);
    |a| >= 4 && a[..4] == "null" && SkipWs(a[4..]) == []
  }

  /** The text `JSON.stringify` writes for one string member. */
  function Member(key: string, value: string): string {
    Quote(key) + ":" + Quote(value)
  }

  lemma ReadKey(key: string, r1: string, acc: map<string, string>)
    ensures ParseMembers(Quote(key) + r1, acc) == AfterKey(key, r1, acc)
  {
    ReadQuote(key, r1);
  }

  lemma ReadValue(key: string, value: string, r4: string, acc: map<string, string>)
    ensures AfterKey(key, ":" + Quote(value) + r4, acc) == AfterValue(key, value, r4, acc)
  {
    var r1 := ":" + Quote(value) + r4;
    var r3 := Quote(value) + r4;
    assert r1[0] == ':' && r1[1..] == r3;
    SkipWsStops(r1);
    ReadQuote(value, r4);
    SkipWsStops(r3);
  }

  lemma ReadComma(key: string, value: string, rest: string, acc: map<string, string>)
    requires rest != [] && rest[0] == '"'
    ensures AfterValue(key, value, "," + rest, acc) == ParseMembers(rest, acc[key := value])
  {
    var r5 := "," + rest;
    assert r5[0] == ',' && r5[1..] == rest;
    SkipWsStops(r5);
    SkipWsStops(rest);
  }

  lemma ReadBrace(key: string, value: string, acc: map<string, string>)
    ensures AfterValue(key, value, "}", acc) == Some(acc[key := value])
  {
    SkipWsStops("}");
    var r5 := SkipWs("}");
    assert r5 == "}" && r5 != [] && r5[0] != ',' && r5[0] == '}';
    assert r5[1..] == [];
    SkipWsStops([]);
  }

  /** A member's text is its quoted key, then the colon and the quoted value. */
  lemma MemberText(key: string, value: string, r4: string)
    ensures Member(key, value) + r4 == Quote(key) + (":" + Quote(value) + r4)
  {
  }

  /** Reading one member leaves the parser just after its value, with the member not yet recorded. */
  lemma ReadMember(key: string, value: string, r4: string, acc: map<string, string>)
    ensures ParseMembers(Member(key, value) + r4, acc) == AfterValue(key, value, r4, acc)
  {
    MemberText(key, value, r4);
    ReadKey(key, ":" + Quote(value) + r4, acc);
    ReadValue(key, value, r4, acc);
  }

  /** A member followed by a comma and another member is read, and reading continues after the comma. */
  lemma ReadMemberThenMore(key: string, value: string, rest: string, acc: map<string, string>)
    requires rest != [] && rest[0] == '"'
    ensures ParseMembers(Member(key, value) + "," + rest, acc) == ParseMembers(rest, acc[key := value])
  {
    var tail := "," + rest;
    assert Member(key, value) + "," + rest == Member(key, value) + tail;
    ReadMember(key, value, tail, acc);
    ReadComma(key, value, rest, acc);
  }

  /** The last member followed by the closing brace completes the object. */
  lemma ReadLastMember(key: string, value: string, acc: map<string, string>)
    ensures ParseMembers(Member(key, value) + "}", acc) == Some(acc[key := value])
  {
    ReadMember(key, value, "}", acc);
    ReadBrace(key, value, acc);
  }

  /** A member text starts with the quote of its key. */
  lemma MemberStartsWithQuote(key: string, value: string, rest: string)
    ensures (Member(key, value) + rest)[0] == '"'
  {
    assert (Member(key, value) + rest)[0] == Quote(key)[0];
  }

  /** An object text whose first member starts right after the brace is read member by member. */
  lemma ReadObjectStart(t: string)
    requires t != [] && t[0] == '"'
    ensures ParseFlatObject("{" + t) == ParseMembers(t, map[])
  {
    var text := "{" + t;
    assert text[0] == '{';
    assert SkipWs(text) == text;
    assert text[1..] == t;
    assert SkipWs(t) == t;
  }
}

=== FILE: mock_data.dfy ===
/**
 * The in-memory backend that stands in for the REST service in mock mode:
 * seeded employees, projects, per-project dashboard summaries and
 * timesheets, per-collection id counters, and the create/update operations
 * over them. The store is a value: every mutating operation returns the
 * store after the call, and a failing one returns the store it was given.
 */
module MockData {
  import opened Wrappers
  import opened Json
  import opened Text
  import opened Users
  import opened Seqs

  /** The exceptions the backend layer throws, one per message. */
  datatype Error =
    | EmployeeNotFound
    | ProjectNotFound
    | DashboardNotFound
    | TimesheetNotFound
    | UnsupportedRole
    | MockModeOnly
  {
    function Message(): string {
      match this
      case EmployeeNotFound => "Employee not found"
      case ProjectNotFound => "Project not found"
      case DashboardNotFound => "PM dashboard data not found"
      case TimesheetNotFound => "Timesheet not found"
      case UnsupportedRole => "Unsupported role"
      case MockModeOnly => "Dev auth payload is only available in mock mode"
    }
  }

  datatype Store = Store(
    employees: seq<Record>,
    projects: seq<Record>,
    timesheets: seq<Record>,
    employeeCounter: nat,
    projectCounter: nat)

  /** What a store operation gives back: its result (or the error it throws) and the store afterwards. */
  datatype Reply<T> = Reply(out: Result<T, Error>, store: Store)

  datatype AuthPayload = AuthPayload(accessToken: string, user: Identity)

  // ---------------------------------------------------------------------
  // seed data

  const HrAdminUser := Identity("user-hr-001", "Tariro Moyo", "tariro.moyo@thegapcompany.co.zw", HrAdmin)
  const PmUser := Identity("user-pm-001", "Kudzai Ndlovu", "kudzai.ndlovu@thegapcompany.co.zw", Pm)

  function Manager(id: string, name: string): Record {
    map["id" := Str(id), "name" := Str(name)]
  }

  const ProjectManagers: seq<Record> := [
    Manager(PmUser.id, PmUser.name),
    Manager("user-pm-002", "Faith Mlambo"),
    Manager("user-pm-003", "Lewis Banda")
  ]

  const Trades: seq<string> := ["Carpenter", "Electrician", "Plumber", "Steel Worker", "Painter"]

  const DefaultPmProjectId := "PRJ-001"

  function SeedEmployee(id: string, name: string, role: string, trade: string, email: string, phone: string,
                        status: string, rate: real, projectId: string, projectName: string, hireDate: string): Record
  {
    map["id" := Str(id), "name" := Str(name), "role" := Str(role), "trade" := Str(trade),
        "email" := Str(email), "phone" := Str(phone), "status" := Str(status), "hourlyRate" := Num(rate),
        "assignedProjectId" := Str(projectId), "assignedProjectName" := Str(projectName),
        "hireDate" := Str(hireDate)]
  }

  const SeedEmployees: seq<Record> := [
    SeedEmployee("EMP-001", "Tadiwa Chikomba", Foreman, "Carpenter", "tadiwa.chikomba@thegapcompany.co.zw",
                 "+263 77 234 8812", "ACTIVE", 42.0, "PRJ-001", "Harare CBD Office Fit-Out", "2023-02-14"),
    SeedEmployee("EMP-002", "Ruvimbo Nyathi", Worker, "Electrician", "ruvimbo.nyathi@thegapcompany.co.zw",
                 "+263 77 365 9921", "ACTIVE", 36.0, "PRJ-002", "Bulawayo Industrial Depot", "2022-10-03"),
    SeedEmployee("EMP-003", "Simba Dube", Worker, "Steel Worker", "simba.dube@thegapcompany.co.zw",
                 "+263 71 442 1184", "INACTIVE", 34.0, "PRJ-001", "Harare CBD Office Fit-Out", "2021-06-28"),
    SeedEmployee("EMP-004", "Tatenda Moyo", Foreman, "Painter", "tatenda.moyo@thegapcompany.co.zw",
                 "+263 77 530 7744", "ACTIVE", 40.0, "PRJ-003", "Mutare Solar Works", "2024-03-19")
  ]

  function Strs(xs: seq<string>): Value {
    Arr(seq(|xs|, i requires 0 <= i < |xs| => Str(xs[i])))
  }

  /** The fields every project starts from. */
  const ProjectDefaults: Record := map[
    "id" := Str("PRJ-NEW"), "name" := Str("New Project"), "code" := Str(""), "status" := Str("PLANNING"),
    "startDate" := Str(""), "endDate" := Str(""), "budgetHours" := Num(0.0), "budgetCost" := Num(0.0),
    "latitude" := Num(0.0), "longitude" := Num(0.0), "radiusMeters" := Num(150.0),
    "managerId" := Get(ProjectManagers[0], "id"), "managerName" := Get(ProjectManagers[0], "name"),
    "workerIds" := Arr([]), "workerNames" := Arr([]), "address" := Str("")]

  /** `projectTemplate(overrides)`: the defaults with the overrides spread over them. */
  function ProjectTemplate(overrides: Record): (r: Record)
    ensures r.Keys == ProjectDefaults.Keys + overrides.Keys
    ensures forall k :: k in overrides ==> r[k] == overrides[k]
    ensures forall k :: k in ProjectDefaults && k !in overrides ==> r[k] == ProjectDefaults[k]
  {
    Spread(ProjectDefaults, overrides)
  }

  function SeedProject(id: string, name: string, code: string, status: string, start: string, end: string,
                       hours: real, cost: real, lat: real, lng: real, radius: real, managerId: string,
                       managerName: string, workerIds: seq<string>, workerNames: seq<string>, address: string): (r: Record)
    ensures Get(r, "id") == Str(id) && Get(r, "status") == Str(status)
  {
    ProjectTemplate(map[
      "id" := Str(id), "name" := Str(name), "code" := Str(code), "status" := Str(status),
      "startDate" := Str(start), "endDate" := Str(end), "budgetHours" := Num(hours), "budgetCost" := Num(cost),
      "latitude" := Num(lat), "longitude" := Num(lng), "radiusMeters" := Num(radius),
      "managerId" := Str(managerId), "managerName" := Str(managerName),
      "workerIds" := Strs(workerIds), "workerNames" := Strs(workerNames), "address" := Str(address)])
  }

  const HarareProject: Record :=
    SeedProject("PRJ-001", "Harare CBD Office Fit-Out", "HCO-25", "ACTIVE", "2024-06-10", "2025-04-30",
                3800.0, 295000.0, -17.8252, 31.0335, 180.0, PmUser.id, PmUser.name,
                ["EMP-001", "EMP-003"], ["Tadiwa Chikomba", "Simba Dube"], "48 Jason Moyo Ave, Harare")

  const BulawayoProject: Record :=
    SeedProject("PRJ-002", "Bulawayo Industrial Depot", "BID-25", "ACTIVE", "2024-02-20", "2025-11-15",
                5100.0, 410000.0, -20.1325, 28.6265, 240.0, "user-pm-002", "Faith Mlambo",
                ["EMP-002"], ["Ruvimbo Nyathi"], "1146 Khami Rd, Bulawayo")

  const MutareProject: Record :=
    SeedProject("PRJ-003", "Mutare Solar Works", "MSW-25", "PLANNING", "2025-03-01", "2026-07-30",
                5900.0, 475000.0, -18.9707, 32.6709, 200.0, "user-pm-003", "Lewis Banda",
                ["EMP-004"], ["Tatenda Moyo"], "32 Aerodrome Rd, Mutare")

  const SeedProjects: seq<Record> := [HarareProject, BulawayoProject, MutareProject]

  /** A summary block of three numeric fields. */
  function Trio(k0: string, k1: string, k2: string, t: (real, real, real)): (v: Value)
    ensures v.Obj? && JsonSafe(v)
  {
    Obj(map[k0 := Num(t.0), k1 := Num(t.1), k2 := Num(t.2)])
  }

  function Summary(projectId: string, projectName: string, hours: (real, real, real), budget: (real, real, real),
                   attendance: (real, real, real), scores: (real, real, real), pending: real): (v: Value)
    ensures v.Obj? && JsonSafe(v)
  {
    Obj(map[
      "projectId" := Str(projectId), "projectName" := Str(projectName), "weekOf" := Str("2025-01-05"),
      "hours" := Trio("planned", "used", "variance", hours),
      "budget" := Trio("planned", "spent", "variance", budget),
      "attendance" := Trio("present", "absent", "tardy", attendance),
      "performance" := Trio("qualityScore", "safetyScore", "productivityScore", scores),
      "pendingApprovals" := Num(pending)])
  }

  /** Dashboard summaries exist for PRJ-001 and PRJ-002 only. */
  const PmDashboardSummaries: map<string, Value> := map[
    "PRJ-001" := Summary("PRJ-001", "Harare CBD Office Fit-Out", (3800.0, 1510.0, -85.0),
                         (295000.0, 118400.0, -16200.0), (36.0, 2.0, 3.0), (92.0, 97.0, 89.0), 5.0),
    "PRJ-002" := Summary("PRJ-002", "Bulawayo Industrial Depot", (5100.0, 2030.0, -40.0),
                         (410000.0, 171300.0, -8700.0), (32.0, 1.0, 4.0), (91.0, 96.0, 90.0), 2.0)
  ]

  function SeedTimesheet(id: string, workerName: string, projectName: string, projectId: string,
                         weekEnding: string, submittedAt: string, total: real, overtime: real): Record
  {
    map["id" := Str(id), "workerName" := Str(workerName), "projectName" := Str(projectName),
        "projectId" := Str(projectId), "weekEnding" := Str(weekEnding), "submittedAt" := Str(submittedAt),
        "totalHours" := Num(total), "overtimeHours" := Num(overtime), "status" := Str("PENDING")]
  }

  const SeedTimesheets: seq<Record> := [
    SeedTimesheet("TS-1001", "Tadiwa Chikomba", "Harare CBD Office Fit-Out", "PRJ-001", "2024-12-27",
                  "2024-12-28T17:30:00Z", 42.0, 4.0),
    SeedTimesheet("TS-1002", "Ruvimbo Nyathi", "Bulawayo Industrial Depot", "PRJ-002", "2024-12-27",
                  "2024-12-28T16:45:00Z", 40.0, 0.0),
    SeedTimesheet("TS-1003", "Tatenda Moyo", "Mutare Solar Works", "PRJ-003", "2024-12-20",
                  "2024-12-21T15:10:00Z", 38.0, 0.0)
  ]

  predicate HasStatus(r: Record, status: string) {
    Get(r, "status") == Str(status)
  }

  function CountWithStatus(rs: seq<Record>, status: string): nat {
    |Filter(rs, r => HasStatus(r, status))|
  }

  /**
   * The admin dashboard. Its first two counts are taken from the seed once,
   * when the module loads, and are never recomputed. `stampBefore(ms)` is the
   * ISO text of the load time minus `ms` milliseconds.
   */
  function AdminDashboard(stampBefore: nat -> string): Value {
    Obj(map["summary" := Arr(AdminTiles()), "alerts" := Arr(AdminAlerts), "recentActivity" := Arr(AdminActivity(stampBefore))])
  }

  /** One summary tile of the admin dashboard. */
  function Tile(caption: string, count: real): Value {
    Obj(map["label" := Str(caption), "value" := Num(count)])
  }

  /**
   * The four summary tiles. The first two hold the counts the module takes
   * from the seed at load time; `AdminTilesFromSeed` proves they are those counts.
   */
  function AdminTiles(): seq<Value> {
    [
      Tile("Active Employees", 3.0),
      Tile("Open Projects", 2.0),
      Tile("Pending Timesheets", 7.0),
      Tile("Safety Incidents (30d)", 1.0)
    ]
  }

  const AdminAlerts: seq<Value> := [
    Obj(map["id" := Str("alert-1"), "title" := Str("Safety refreshers due"),
            "detail" := Str("Three electrical workers need site safety refreshers in 14 days."),
            "type" := Str("warning")]),
    Obj(map["id" := Str("alert-2"), "title" := Str("Overtime trending up"),
            "detail" := Str("Harare CBD Office Fit-Out exceeded its overtime threshold last week."),
            "type" := Str("info")])
  ]

  function AdminActivity(stampBefore: nat -> string): seq<Value> {
    [
      Obj(map["id" := Str("activity-1"), "description" := Str("Timesheet approved for Tadiwa Chikomba (PRJ-001)"),
              "timestamp" := Str(stampBefore(1000 * 60 * 55))]),
      Obj(map["id" := Str("activity-2"), "description" := Str("New worker onboarded: Precious Chuma"),
              "timestamp" := Str(stampBefore(1000 * 60 * 60 * 5))]),
      Obj(map["id" := Str("activity-3"), "description" := Str("Project status updated: Mutare Solar Works"),
              "timestamp" := Str(stampBefore(1000 * 60 * 60 * 26))])
    ]
  }

  /** The store as the module leaves it at load time: counters one past the seed sizes. */
  function Seed(): Store {
    Store(SeedEmployees, SeedProjects, SeedTimesheets, |SeedEmployees| + 1, |SeedProjects| + 1)
  }

  // ---------------------------------------------------------------------
  // identifiers

  /** `${prefix}-${String(n).padStart(3, "0")}`. */
  function FormatId(prefix: string, n: nat): string {
    prefix + "-" + PadStart(Decimal(n), 3, '0')
  }

  /** Generated identifiers are `prefix-` and three digits below 1000, and distinct counters give distinct identifiers. */
  lemma FormatIdShape(prefix: string, n: nat, m: nat)
    ensures 1 <= n < 1000 ==> |FormatId(prefix, n)| == |prefix| + 4 && AllDigits(FormatId(prefix, n)[|prefix| + 1..])
    ensures FormatId(prefix, n) == FormatId(prefix, m) ==> n == m
  {
    var dn, dm := PadStart(Decimal(n), 3, '0'), PadStart(Decimal(m), 3, '0');
    assert FormatId(prefix, n)[|prefix| + 1..] == dn;
    assert FormatId(prefix, m)[|prefix| + 1..] == dm;
    PaddedDecimalValue(n, 3);
    PaddedDecimalValue(m, 3);
    if n < 1000 {
      DecimalLength(n);
    }
  }

  lemma FormatIdInjective(prefix: string, n: nat, m: nat)
    requires n != m
    ensures FormatId(prefix, n) != FormatId(prefix, m)
  {
    FormatIdShape(prefix, n, m);
  }

  /** The first generated identifiers after the seed are EMP-005 and PRJ-004. */
  lemma FirstGeneratedIds()
    ensures FormatId("EMP", Seed().employeeCounter) == "EMP-005"
    ensures FormatId("PRJ", Seed().projectCounter) == "PRJ-004"
  {
    SeedCounters();
    IdsAtFiveAndFour();
  }

  lemma IdsAtFiveAndFour()
    ensures FormatId("EMP", 5) == "EMP-005" && FormatId("PRJ", 4) == "PRJ-004"
  {
    SingleDigitId("EMP", 5);
    SingleDigitId("PRJ", 4);
  }

  /** The seed holds four employees and three projects, so the counters start at five and four. */
  lemma SeedCounters()
    ensures Seed().employeeCounter == 5 && Seed().projectCounter == 4
  {
  }

  /** A counter below ten is padded with two zeros. */
  lemma SingleDigitId(prefix: string, n: nat)
    requires n < 10
    ensures FormatId(prefix, n) == prefix + "-00" + [DigitChar(n)]
  {
    assert Decimal(n) == [DigitChar(n)];
    assert Repeat('0', 2) == "00" by {
      assert Repeat('0', 1) == "0";
    }
  }

  // ---------------------------------------------------------------------
  // store invariant

  /** Each counter is one past the size of its collection, as at load time. */
  predicate CountersAligned(s: Store) {
    s.employeeCounter == |s.employees| + 1 && s.projectCounter == |s.projects| + 1
  }

  lemma SeedCountersAligned()
    ensures CountersAligned(Seed())
  {
  }

  // ---------------------------------------------------------------------
  // reads

  function CloneAll(rs: seq<Record>): (r: seq<Record>)
    ensures |r| == |rs|
  {
    seq(|rs|, i requires 0 <= i < |rs| => CloneRecord(rs[i]))
  }

  lemma CloneAllAppend(a: seq<Record>, b: seq<Record>)
    ensures CloneAll(a + b) == CloneAll(a) + CloneAll(b)
  {
    var l, r := CloneAll(a + b), CloneAll(a) + CloneAll(b);
    forall i | 0 <= i < |l|
      ensures l[i] == r[i]
    {
      if i < |a| {
        assert (a + b)[i] == a[i];
      } else {
        assert (a + b)[i] == b[i - |a|];
      }
    }
  }

  function GetEmployees(s: Store): seq<Record> {
    CloneAll(s.employees)
  }

  function GetProjects(s: Store): seq<Record> {
    CloneAll(s.projects)
  }

  function GetTimesheetApprovals(s: Store): seq<Record> {
    CloneAll(s.timesheets)
  }

  function GetProjectManagers(): seq<Record> {
    CloneAll(ProjectManagers)
  }

  function GetTrades(): seq<string> {
    Trades
  }

  function GetDefaultPmProjectId(): string {
    DefaultPmProjectId
  }

  predicate ManagedBy(p: Record, userId: string) {
    Get(p, "managerId") == Str(userId)
  }

  /** `getMockProjectsForUser`: the projects whose manager is `userId`, in store order. */
  function GetProjectsForUser(s: Store, userId: string): seq<Record> {
    CloneAll(Filter(s.projects, p => ManagedBy(p, userId)))
  }

  /** Reads hand out clones: no `undefined` survives, and a store already free of it is returned as it is. */
  lemma ReadsAreClones(rs: seq<Record>)
    ensures forall i :: 0 <= i < |rs| ==> SafeRecord(CloneAll(rs)[i])
    ensures (forall i :: 0 <= i < |rs| ==> SafeRecord(rs[i])) ==> CloneAll(rs) == rs
  {
    forall i | 0 <= i < |rs|
      ensures SafeRecord(CloneAll(rs)[i])
    {
      CloneRecordShape(rs[i]);
    }
    if forall i :: 0 <= i < |rs| ==> SafeRecord(rs[i]) {
      forall i | 0 <= i < |rs|
        ensures CloneAll(rs)[i] == rs[i]
      {
        CloneRecordOfSafe(rs[i]);
      }
    }
  }

  /**
   * A manager's projects are exactly the store's projects whose `managerId`
   * is theirs: every one returned is theirs, and each of theirs is returned.
   */
  lemma ProjectsForUserExact(s: Store, userId: string)
    ensures var r := GetProjectsForUser(s, userId);
      && |r| <= |s.projects|
      && (forall i :: 0 <= i < |r| ==> Get(r[i], "managerId") == Str(userId))
      && (forall j :: 0 <= j < |s.projects| && ManagedBy(s.projects[j], userId) ==> CloneRecord(s.projects[j]) in r)
      && (forall i :: 0 <= i < |r| ==>
            exists j :: 0 <= j < |s.projects| && ManagedBy(s.projects[j], userId) && r[i] == CloneRecord(s.projects[j]))
  {
    var f := Filter(s.projects, p => ManagedBy(p, userId));
    var r := GetProjectsForUser(s, userId);
    forall i | 0 <= i < |r|
      ensures Get(r[i], "managerId") == Str(userId)
    {
      assert ManagedBy(f[i], userId);
      CloneRecordGet(f[i], "managerId");
    }
    forall i | 0 <= i < |r|
      ensures exists j :: 0 <= j < |s.projects| && ManagedBy(s.projects[j], userId) && r[i] == CloneRecord(s.projects[j])
    {
      assert f[i] in s.projects;
      var j :| 0 <= j < |s.projects| && s.projects[j] == f[i];
      assert ManagedBy(s.projects[j], userId) && r[i] == CloneRecord(s.projects[j]);
    }
    forall j | 0 <= j < |s.projects| && ManagedBy(s.projects[j], userId)
      ensures CloneRecord(s.projects[j]) in r
    {
      assert s.projects[j] in f;
      var k :| 0 <= k < |f| && f[k] == s.projects[j];
      assert r[k] == CloneRecord(s.projects[j]);
    }
  }

  /**
   * Store order is kept: a project added at the end of the store comes last
   * in its manager's list, as a clone, and in no one else's.
   */
  lemma ProjectsForUserKeepOrder(s: Store, earlier: seq<Record>, project: Record, userId: string)
    ensures GetProjectsForUser(s.(projects := earlier + [project]), userId)
         == GetProjectsForUser(s.(projects := earlier), userId) + (if ManagedBy(project, userId) then [CloneRecord(project)] else [])
  {
    var managed := p => ManagedBy(p, userId);
    FilterAppend(earlier, [project], managed);
    assert Filter([project], managed) == (if managed(project) then [project] else []) by {
      assert [project][1..] == [];
    }
    CloneAllAppend(Filter(earlier, managed), Filter([project], managed));
  }

  /** `getMockPmDashboard`: the project's summary, or a not-found error when it has none. */
  function GetPmDashboard(projectId: string): (r: Result<Value, Error>)
    ensures r.Err? <==> projectId !in PmDashboardSummaries
    ensures r.Err? ==> r.error == DashboardNotFound
    ensures r.Ok? ==> r.value == PmDashboardSummaries[projectId]
  {
    if projectId in PmDashboardSummaries then
      var v := PmDashboardSummaries[projectId];
      SummariesSafe(projectId);
      CloneOfSafe(v);
      Ok(Clone(v))
    else Err(DashboardNotFound)
  }

  lemma SummariesSafe(projectId: string)
    requires projectId in PmDashboardSummaries
    ensures JsonSafe(PmDashboardSummaries[projectId])
  {
  }

  lemma NoSummaryForThirdProject()
    ensures GetPmDashboard("PRJ-003") == Err(DashboardNotFound)
  {
    assert "PRJ-003" != "PRJ-001" && "PRJ-003" != "PRJ-002";
  }

  /** `getMockAuthPayload`: the two dev sessions, keyed by role. */
  function GetAuthPayload(role: string): (r: Result<AuthPayload, Error>)
    ensures r.Ok? <==> role == HrAdmin || role == Pm
    ensures r.Err? ==> r.error == UnsupportedRole
    ensures r.Ok? ==> r.value.user.role == role
    ensures role == HrAdmin ==> r == Ok(AuthPayload("mock-token-admin", HrAdminUser))
    ensures role == Pm ==> r == Ok(AuthPayload("mock-token-pm", PmUser))
  {
    if role == HrAdmin then Ok(AuthPayload("mock-token-admin", HrAdminUser))
    else if role == Pm then Ok(AuthPayload("mock-token-pm", PmUser))
    else Err(UnsupportedRole)
  }

  // ---------------------------------------------------------------------
  // writes

  predicate HasId(r: Record, id: string) {
    Get(r, "id") == Str(id)
  }

  /** `after` is `before` with the record at `i` shallow-merged with `patch`: patch fields win, the rest are kept. */
  ghost predicate ShallowMergedAt(before: seq<Record>, after: seq<Record>, i: nat, patch: Record) {
    && |after| == |before|
    && i < |before|
    && (forall j :: 0 <= j < |before| && j != i ==> after[j] == before[j])
    && after[i].Keys == before[i].Keys + patch.Keys
    && (forall k :: k in patch ==> after[i][k] == patch[k])
    && (forall k :: k in before[i] && k !in patch ==> after[i][k] == before[i][k])
  }

  /** Finds the first record with `id` and merges `patch` into it; `None` when there is none. */
  function MergeById(rs: seq<Record>, id: string, patch: Record): (r: Option<(nat, seq<Record>)>)
    ensures r.None? <==> FindFirst(rs, "id", Str(id)).None?
    ensures r.Some? ==> r.value.0 == FindFirst(rs, "id", Str(id)).value
    ensures r.Some? ==> ShallowMergedAt(rs, r.value.1, r.value.0, patch)
  {
    match FindFirst(rs, "id", Str(id))
    case None => None
    case Some(i) => Some((i, rs[i := Spread(rs[i], patch)]))
  }

  /** The date part of an ISO timestamp: `toISOString().slice(0, 10)`. */
  function DatePart(now: string): string {
    if |now| <= 10 then now else now[..10]
  }

  /** The fields a new employee starts from, before the caller's data. */
  function EmployeeDefaults(id: string, hireDate: string): (r: Record)
    ensures r.Keys == {"id", "status", "hourlyRate", "assignedProjectId", "assignedProjectName", "hireDate"}
  {
    map["id" := Str(id), "status" := Str("ACTIVE"), "hourlyRate" := Num(0.0),
        "assignedProjectId" := Str(""), "assignedProjectName" := Str(""), "hireDate" := Str(hireDate)]
  }

  /** The collection has grown by exactly one record, at the end. */
  ghost predicate AppendedOne(before: seq<Record>, after: seq<Record>) {
    |after| == |before| + 1 && after[..|before|] == before
  }

  /** `record` is `defaults` with `data` spread over it: every field of `data` wins, every other default is kept. */
  ghost predicate DefaultedBy(record: Record, defaults: Record, data: Record) {
    && record.Keys == defaults.Keys + data.Keys
    && (forall k :: k in data ==> record[k] == data[k])
    && (forall k :: k in defaults && k !in data ==> record[k] == defaults[k])
  }

  /**
   * `createMockEmployee(data)` at time `now`: a new record from the defaults
   * (a fresh id, ACTIVE, rate 0, no project, hired today) with `data` spread
   * over them, appended; the counter moves on by one.
   */
  function CreateEmployee(s: Store, data: Record, now: string): (r: (Record, Store))
    ensures AppendedOne(s.employees, r.1.employees)
    ensures r.1.employeeCounter == s.employeeCounter + 1
    ensures r.1.projects == s.projects && r.1.timesheets == s.timesheets && r.1.projectCounter == s.projectCounter
    ensures r.1.employees[|s.employees|] == NewEmployee(s.employeeCounter, data, now)
    ensures r.0 == CloneRecord(r.1.employees[|s.employees|])
    ensures CountersAligned(s) ==> CountersAligned(r.1)
  {
    var e := NewEmployee(s.employeeCounter, data, now);
    (CloneRecord(e), s.(employees := s.employees + [e], employeeCounter := s.employeeCounter + 1))
  }

  /** The record stored for counter value `counter`: the defaults with that id and today's date, `data` spread over them. */
  function NewEmployee(counter: nat, data: Record, now: string): (e: Record)
    ensures DefaultedBy(e, EmployeeDefaults(FormatId("EMP", counter), DatePart(now)), data)
    ensures "id" !in data ==> Get(e, "id") == Str(FormatId("EMP", counter))
  {
    Spread(EmployeeDefaults(FormatId("EMP", counter), DatePart(now)), data)
  }

  /** Without a caller-chosen id, the new employee's id is the counter's, and the other defaults apply likewise. */
  lemma CreatedEmployeeDefaults(s: Store, data: Record, now: string)
    ensures var e := CreateEmployee(s, data, now).1.employees[|s.employees|];
      && ("id" !in data ==> Get(e, "id") == Str(FormatId("EMP", s.employeeCounter)))
      && ("status" !in data ==> Get(e, "status") == Str("ACTIVE"))
      && ("hourlyRate" !in data ==> Get(e, "hourlyRate") == Num(0.0))
      && ("assignedProjectId" !in data ==> Get(e, "assignedProjectId") == Str(""))
      && ("hireDate" !in data ==> Get(e, "hireDate") == Str(DatePart(now)))
  {
    var e := CreateEmployee(s, data, now).1.employees[|s.employees|];
    assert DefaultedBy(e, EmployeeDefaults(FormatId("EMP", s.employeeCounter), DatePart(now)), data);
  }

  /** `updateMockEmployee(id, data)`: shallow merge into the first employee with `id`, or not found. */
  function UpdateEmployee(s: Store, id: string, data: Record): (r: Reply<Record>)
    ensures r.out.Err? <==> forall j :: 0 <= j < |s.employees| ==> !HasId(s.employees[j], id)
    ensures r.out.Err? ==> r.out.error == EmployeeNotFound && r.store == s
    ensures r.out.Ok? ==> FindFirst(s.employees, "id", Str(id)).Some?
    ensures r.out.Ok? ==>
      var i := FindFirst(s.employees, "id", Str(id)).value;
      && ShallowMergedAt(s.employees, r.store.employees, i, data)
      && r.out.value == CloneRecord(r.store.employees[i])
      && r.store == s.(employees := r.store.employees)
    ensures CountersAligned(s) ==> CountersAligned(r.store)
  {
    match MergeById(s.employees, id, data)
    case None => Reply(Err(EmployeeNotFound), s)
    case Some((i, es)) => Reply(Ok(CloneRecord(es[i])), s.(employees := es))
  }

  /** `setMockEmployeeStatus(id, status)`: only the status field of the matched employee changes. */
  function SetEmployeeStatus(s: Store, id: string, status: string): (r: Reply<Record>)
    ensures r.out.Err? <==> forall j :: 0 <= j < |s.employees| ==> !HasId(s.employees[j], id)
    ensures r.out.Err? ==> r.out.error == EmployeeNotFound && r.store == s
    ensures r.out.Ok? ==>
      var i := FindFirst(s.employees, "id", Str(id)).value;
      && r.store == s.(employees := s.employees[i := s.employees[i]["status" := Str(status)]])
      && HasStatus(r.out.value, status)
  {
    var r := UpdateEmployee(s, id, map["status" := Str(status)]);
    if r.out.Ok? then
      var i := FindFirst(s.employees, "id", Str(id)).value;
      assert r.store.employees[i] == s.employees[i]["status" := Str(status)];
      assert r.store.employees == s.employees[i := s.employees[i]["status" := Str(status)]];
      CloneRecordGet(r.store.employees[i], "status");
      r
    else r
  }

  /** The template defaults with a fresh id and PLANNING. */
  function NewProjectDefaults(id: string): (r: Record)
    ensures r.Keys == ProjectDefaults.Keys
    ensures r["id"] == Str(id) && r["status"] == Str("PLANNING")
    ensures forall k :: k in r && k != "id" && k != "status" ==> r[k] == ProjectDefaults[k]
  {
    ProjectTemplate(map[])["id" := Str(id)]["status" := Str("PLANNING")]
  }

  /** A status change is exactly the one-field update `{status}`. */
  lemma StatusIsOneFieldPatch(s: Store, id: string, status: string)
    ensures SetEmployeeStatus(s, id, status) == UpdateEmployee(s, id, map["status" := Str(status)])
  {
  }

  /** `createMockProject(data)`: template defaults, a fresh id and PLANNING, with `data` spread over them, appended. */
  function CreateProject(s: Store, data: Record): (r: (Record, Store))
    ensures AppendedOne(s.projects, r.1.projects)
    ensures r.1.projectCounter == s.projectCounter + 1
    ensures r.1.employees == s.employees && r.1.timesheets == s.timesheets && r.1.employeeCounter == s.employeeCounter
    ensures DefaultedBy(r.1.projects[|s.projects|], NewProjectDefaults(FormatId("PRJ", s.projectCounter)), data)
    ensures r.0 == CloneRecord(r.1.projects[|s.projects|])
    ensures CountersAligned(s) ==> CountersAligned(r.1)
  {
    var p := Spread(NewProjectDefaults(FormatId("PRJ", s.projectCounter)), data);
    (CloneRecord(p), s.(projects := s.projects + [p], projectCounter := s.projectCounter + 1))
  }

  /** A new project not told otherwise gets the counter's id, PLANNING, a 150 m radius, the first manager and no workers. */
  lemma CreatedProjectDefaults(s: Store, data: Record)
    ensures var p := CreateProject(s, data).1.projects[|s.projects|];
      && ("id" !in data ==> Get(p, "id") == Str(FormatId("PRJ", s.projectCounter)))
      && ("status" !in data ==> Get(p, "status") == Str("PLANNING"))
      && ("radiusMeters" !in data ==> Get(p, "radiusMeters") == Num(150.0))
      && ("managerId" !in data ==> Get(p, "managerId") == Str(PmUser.id))
      && ("managerName" !in data ==> Get(p, "managerName") == Str(PmUser.name))
      && ("workerIds" !in data ==> Get(p, "workerIds") == Arr([]))
  {
    var d := NewProjectDefaults(FormatId("PRJ", s.projectCounter));
    var p := CreateProject(s, data).1.projects[|s.projects|];
    assert DefaultedBy(p, d, data);
    ProjectDefaultValues();
  }

  /** The template's radius, manager and team. */
  lemma ProjectDefaultValues()
    ensures ProjectDefaults["radiusMeters"] == Num(150.0) && ProjectDefaults["workerIds"] == Arr([])
    ensures ProjectDefaults["managerId"] == Str(PmUser.id) && ProjectDefaults["managerName"] == Str(PmUser.name)
  {
    assert Get(ProjectManagers[0], "id") == Str(PmUser.id);
    assert Get(ProjectManagers[0], "name") == Str(PmUser.name);
  }

  /** `updateMockProject(id, data)`: shallow merge into the first project with `id`, or not found. */
  function UpdateProject(s: Store, id: string, data: Record): (r: Reply<Record>)
    ensures r.out.Err? <==> forall j :: 0 <= j < |s.projects| ==> !HasId(s.projects[j], id)
    ensures r.out.Err? ==> r.out.error == ProjectNotFound && r.store == s
    ensures r.out.Ok? ==> FindFirst(s.projects, "id", Str(id)).Some?
    ensures r.out.Ok? ==>
      var i := FindFirst(s.projects, "id", Str(id)).value;
      && ShallowMergedAt(s.projects, r.store.projects, i, data)
      && r.out.value == CloneRecord(r.store.projects[i])
      && r.store == s.(projects := r.store.projects)
    ensures CountersAligned(s) ==> CountersAligned(r.store)
  {
    match MergeById(s.projects, id, data)
    case None => Reply(Err(ProjectNotFound), s)
    case Some((i, ps)) => Reply(Ok(CloneRecord(ps[i])), s.(projects := ps))
  }

  /**
   * `updateMockTimesheetStatus(id, status)` at time `now`: stamps `status`
   * and `processedAt` on the first timesheet with `id`, whatever its current
   * status, or not found.
   */
  function UpdateTimesheetStatus(s: Store, id: string, status: string, now: string): (r: Reply<Record>)
    ensures r.out.Err? <==> forall j :: 0 <= j < |s.timesheets| ==> !HasId(s.timesheets[j], id)
    ensures r.out.Err? ==> r.out.error == TimesheetNotFound && r.store == s
    ensures r.out.Ok? ==> FindFirst(s.timesheets, "id", Str(id)).Some?
    ensures r.out.Ok? ==> |r.store.timesheets| == |s.timesheets|
    ensures r.out.Ok? ==>
      var i := FindFirst(s.timesheets, "id", Str(id)).value;
      var t := r.store.timesheets[i];
      && ShallowMergedAt(s.timesheets, r.store.timesheets, i, map["status" := Str(status), "processedAt" := Str(now)])
      && HasStatus(t, status) && t["processedAt"] == Str(now)
      && t.Keys == s.timesheets[i].Keys + {"status", "processedAt"}
      && r.out.value == CloneRecord(t)
      && r.store == s.(timesheets := r.store.timesheets)
    ensures CountersAligned(s) ==> CountersAligned(r.store)
  {
    match MergeById(s.timesheets, id, map["status" := Str(status), "processedAt" := Str(now)])
    case None => Reply(Err(TimesheetNotFound), s)
    case Some((i, ts)) => Reply(Ok(CloneRecord(ts[i])), s.(timesheets := ts))
  }

  // ---------------------------------------------------------------------
  // properties across calls

  /**
   * Creates made while the counter stood at different values never share a
   * generated id; as each create moves the counter on by one, creates without
   * caller-chosen ids never repeat one.
   */
  lemma CreatedIdsDiffer(s: Store, t: Store, d1: Record, d2: Record, now1: string, now2: string)
    requires "id" !in d1 && "id" !in d2
    requires s.employeeCounter != t.employeeCounter
    ensures Get(CreateEmployee(s, d1, now1).1.employees[|s.employees|], "id")
         != Get(CreateEmployee(t, d2, now2).1.employees[|t.employees|], "id")
  {
    FormatIdInjective("EMP", s.employeeCounter, t.employeeCounter);
  }

  /** Two creates in a row without caller-chosen ids give two different ids. */
  lemma SuccessiveCreatesDiffer(s: Store, d1: Record, d2: Record, now1: string, now2: string)
    requires "id" !in d1 && "id" !in d2
    ensures var s1 := CreateEmployee(s, d1, now1).1;
      Get(s1.employees[|s.employees|], "id") != Get(CreateEmployee(s1, d2, now2).1.employees[|s1.employees|], "id")
  {
    CreatedIdsDiffer(s, CreateEmployee(s, d1, now1).1, d1, d2, now1, now2);
  }

  /**
   * The store does not enforce the one-way PENDING transition: an approved
   * timesheet can be rejected afterwards, and a second call re-stamps it.
   */
  lemma TimesheetRestamped(s: Store, id: string, first: string, second: string, now1: string, now2: string)
    requires exists j :: 0 <= j < |s.timesheets| && HasId(s.timesheets[j], id)
    ensures var r1 := UpdateTimesheetStatus(s, id, first, now1);
      var r2 := UpdateTimesheetStatus(r1.store, id, second, now2);
      && r1.out.Ok? && r2.out.Ok?
      && HasStatus(r2.out.value, second)
      && Get(r2.out.value, "processedAt") == Str(now2)
  {
    var r1 := UpdateTimesheetStatus(s, id, first, now1);
    var i := FindFirst(s.timesheets, "id", Str(id)).value;
    assert r1.store.timesheets[i]["id"] == s.timesheets[i]["id"];
    assert HasId(r1.store.timesheets[i], id);
    var r2 := UpdateTimesheetStatus(r1.store, id, second, now2);
    var t := r2.store.timesheets[FindFirst(r1.store.timesheets, "id", Str(id)).value];
    CloneRecordGet(t, "status");
    CloneRecordGet(t, "processedAt");
  }

  /** A successful update leaves every record the caller did not name unchanged, in every collection. */
  lemma UpdateFramesOtherRecords(s: Store, id: string, data: Record, j: nat)
    requires j < |s.employees| && !HasId(s.employees[j], id)
    ensures UpdateEmployee(s, id, data).store.employees[j] == s.employees[j]
  {
  }

  /** One step of a filtered count: the head counts when it passes. */
  lemma FilterLengthStep(rs: seq<Record>, p: Record -> bool)
    requires rs != []
    ensures |Filter(rs, p)| == (if p(rs[0]) then 1 else 0) + |Filter(rs[1..], p)|
  {
  }

  /** The seed's admin counts: three of the four employees and two of the three projects are ACTIVE. */
  lemma AdminEmployeeCountFromSeed()
    ensures CountWithStatus(SeedEmployees, "ACTIVE") == 3
  {
    var active := (r: Record) => HasStatus(r, "ACTIVE");
    var e := SeedEmployees;
    assert active(e[0]) && active(e[1]) && !active(e[2]) && active(e[3]);
    FilterLengthStep(e, active);
    FilterLengthStep(e[1..], active);
    FilterLengthStep(e[2..], active);
    FilterLengthStep(e[3..], active);
    assert e[1..][1..] == e[2..] && e[2..][1..] == e[3..] && e[3..][1..] == [];
  }

  /** The admin dashboard's first two tiles count the seed's ACTIVE employees and ACTIVE projects. */
  lemma AdminTilesFromSeed()
    ensures |AdminTiles()| == 4
    ensures AdminTiles()[0] == Tile("Active Employees", CountWithStatus(SeedEmployees, "ACTIVE") as real)
    ensures AdminTiles()[1] == Tile("Open Projects", CountWithStatus(SeedProjects, "ACTIVE") as real)
  {
    EmployeeTileFromSeed();
    ProjectTileFromSeed();
  }

  lemma EmployeeTileFromSeed()
    ensures AdminTiles()[0] == Tile("Active Employees", CountWithStatus(SeedEmployees, "ACTIVE") as real)
  {
    AdminEmployeeCountFromSeed();
  }

  lemma ProjectTileFromSeed()
    ensures AdminTiles()[1] == Tile("Open Projects", CountWithStatus(SeedProjects, "ACTIVE") as real)
  {
    AdminProjectCountFromSeed();
  }

  lemma SeedProjectStatuses()
    ensures HasStatus(HarareProject, "ACTIVE") && HasStatus(BulawayoProject, "ACTIVE")
    ensures HasStatus(MutareProject, "PLANNING")
  {
  }

  lemma AdminProjectCountFromSeed()
    ensures CountWithStatus(SeedProjects, "ACTIVE") == 2
  {
    var active := (r: Record) => HasStatus(r, "ACTIVE");
    var ps := SeedProjects;
    SeedProjectStatuses();
    assert active(ps[0]) && active(ps[1]) && !active(ps[2]);
    FilterLengthStep(ps, active);
    FilterLengthStep(ps[1..], active);
    FilterLengthStep(ps[2..], active);
    assert ps[1..][1..] == ps[2..] && ps[2..][1..] == [];
  }
}

=== FILE: page_lists.dfy ===
/**
 * How the admin pages keep their loaded list in step with a save: an edit
 * replaces the entries carrying the edited id, a create puts the new record
 * first, and a failed save leaves the list alone and keeps the form open
 * with a message.
 */
module PageLists {
  import opened Wrappers
  import opened Json
  import opened Text

  /** The value of a filter select that admits every row. */
  const All := "ALL"

  /** A field read as text; a missing or non-string value reads as empty. */
  function TextOf(r: Record, key: string): string {
    match Get(r, key)
    case Str(s) => s
    case _ => ""
  }

  /** The search box: the term occurs, ignoring case, in one of the listed text fields (tried in order). */
  predicate MentionedIn(r: Record, keys: seq<string>, term: string) {
    keys != [] && (Mentions(TextOf(r, keys[0]), term) || MentionedIn(r, keys[1..], term))
  }

  /** A filter select: `ALL` admits every row, any other choice only rows whose field equals it. */
  predicate Admits(r: Record, key: string, choice: string) {
    choice == All || Get(r, key) == Str(choice)
  }

  /** The search term's case does not matter, and an empty term is found in any row with a field to search. */
  lemma {:induction false} MentionedInIgnoresCase(r: Record, keys: seq<string>, term: string)
    ensures MentionedIn(r, keys, Upper(term)) == MentionedIn(r, keys, term)
    ensures keys != [] ==> MentionedIn(r, keys, "")
  {
    if keys != [] {
      MentionsIgnoresCase(TextOf(r, keys[0]), term);
      MentionedInIgnoresCase(r, keys[1..], term);
    }
  }

  /** The list after a successful save; `editingId` is falsy for a create. */
  function AfterSave(items: seq<Record>, editingId: Value, updated: Record): (r: seq<Record>)
    ensures Truthy(editingId) ==> |r| == |items|
    ensures Truthy(editingId) ==> forall i :: 0 <= i < |items| ==>
      r[i] == if Get(items[i], "id") == editingId then updated else items[i]
    ensures !Truthy(editingId) ==> |r| == |items| + 1 && r[0] == updated && r[1..] == items
  {
    if Truthy(editingId) then ReplaceWhere(items, "id", editingId, updated) else [updated] + items
  }

  /** The list, the modal and the form message after a save attempt. */
  datatype FormView = FormView(items: seq<Record>, modalOpen: bool, formError: string)

  function Submit<E>(items: seq<Record>, editingId: Value, result: Result<Record, E>, failure: string): (v: FormView)
    ensures result.Err? ==> v == FormView(items, true, failure)
    ensures result.Ok? ==> !v.modalOpen && v.formError == "" && v.items == AfterSave(items, editingId, result.value)
  {
    match result
    case Ok(updated) => FormView(AfterSave(items, editingId, updated), false, "")
    case Err(_) => FormView(items, true, failure)
  }

  // ---------------------------------------------------------------------
  // properties

  /** After a save the saved record is what a lookup by its id finds, provided an edit targeted a listed id. */
  lemma SavedRecordIsFound(items: seq<Record>, editingId: Value, updated: Record)
    requires Truthy(editingId) ==> Get(updated, "id") == editingId && FindFirst(items, "id", editingId).Some?
    ensures Find(AfterSave(items, editingId, updated), "id", Get(updated, "id")) == Some(updated)
  {
    var r := AfterSave(items, editingId, updated);
    var id := Get(updated, "id");
    if Truthy(editingId) {
      var i := FindFirst(items, "id", editingId).value;
      assert Get(r[i], "id") == id;
      assert FindFirst(r, "id", id) == Some(i);
    } else {
      assert r[0] == updated;
    }
  }

  /** An edit leaves every entry with another id as it was, and a create shifts the old entries by one. */
  lemma SaveKeepsOthers(items: seq<Record>, editingId: Value, updated: Record, i: nat)
    requires i < |items|
    ensures Truthy(editingId) && Get(items[i], "id") != editingId ==> AfterSave(items, editingId, updated)[i] == items[i]
    ensures !Truthy(editingId) ==> AfterSave(items, editingId, updated)[i + 1] == items[i]
  {
  }
}

=== FILE: pm_dashboard.dfy ===
/**
 * The project manager's dashboard resolves the `:projectId` route token
 * against the manager's project list. The token may be absent, empty or the
 * alias `current` (all three mean "no project chosen yet"), or a concrete
 * project id. The page's effects are modelled as pure decisions over the
 * token and the ids of the fetched projects, in list order.
 */
module PmDashboard {
  import opened Wrappers
  import opened Text
  import opened Users
  import opened Gates
  import AppRoutes

  const CurrentAlias := "current"
  const DashboardPrefix := "/app/pm/dashboard/"

  /** A navigation request; `replace` keeps the redirected-from entry out of history. */
  datatype Navigation = Navigation(to: string, replace: bool)

  /** The token names no project: absent, empty (falsy) or the `current` alias. */
  predicate IsAlias(projectId: Option<string>) {
    projectId.None? || projectId.value == "" || projectId.value == CurrentAlias
  }

  function DashboardOf(id: string): string {
    DashboardPrefix + id
  }

  /** `projects.some(project => project.id === id)`, scanning the list from the front. */
  function Lists(ids: seq<string>, id: string): (b: bool)
    ensures b <==> id in ids
  {
    ids != [] && (ids[0] == id || Lists(ids[1..], id))
  }

  /** The summary effect: the alias jumps to the first project (or waits for one); a concrete id is fetched. */
  datatype SummaryStep = JumpToFirst(nav: Navigation) | Wait | Fetch(projectId: string)

  function SummaryEffect(projectId: Option<string>, ids: seq<string>): (r: SummaryStep)
    ensures r.Fetch? <==> !IsAlias(projectId)
    ensures r.Fetch? ==> r.projectId == projectId.value
    ensures r.JumpToFirst? <==> IsAlias(projectId) && ids != []
    ensures r.JumpToFirst? ==> r.nav == Navigation(DashboardOf(ids[0]), true)
  {
    if projectId.None? || projectId.value == "" || projectId.value == CurrentAlias then
      if |ids| > 0 then JumpToFirst(Navigation(DashboardOf(ids[0]), true)) else Wait
    else Fetch(projectId.value)
  }

  /** The membership effect: a concrete id the loaded list lacks is replaced by the first project. */
  function MembershipEffect(projectId: Option<string>, ids: seq<string>): (r: Option<Navigation>)
    ensures r.Some? <==> !IsAlias(projectId) && ids != [] && projectId.value !in ids
    ensures r.Some? ==> r.value == Navigation(DashboardOf(ids[0]), true)
  {
    if projectId.Some? && projectId.value != "" && projectId.value != CurrentAlias && |ids| > 0 then
      if !Lists(ids, projectId.value) then Some(Navigation(DashboardOf(ids[0]), true)) else None
    else None
  }

  /**
   * The navigation one render of the page asks for, whichever effect issues
   * it: there is one exactly when there is a first project and the token does
   * not already name a listed one, and it always goes to that first project,
   * replacing history.
   */
  function Redirect(projectId: Option<string>, ids: seq<string>): (r: Option<Navigation>)
    ensures r.Some? <==> ids != [] && (IsAlias(projectId) || projectId.value !in ids)
    ensures r.Some? ==> r.value == Navigation(DashboardOf(ids[0]), true)
  {
    match SummaryEffect(projectId, ids)
    case JumpToFirst(nav) => Some(nav)
    case _ => MembershipEffect(projectId, ids)
  }

  /** The project selector's value: the concrete id, else the first project's id, else empty. */
  function SelectorValue(projectId: Option<string>, ids: seq<string>): (v: string)
    ensures !IsAlias(projectId) ==> v == projectId.value
    ensures IsAlias(projectId) ==> v == (if ids == [] then "" else ids[0])
  {
    if projectId.Some? && projectId.value != "" && projectId.value != CurrentAlias then projectId.value
    else if |ids| > 0 then ids[0]
    else ""
  }

  /** Choosing a project in the selector pushes its dashboard; an empty choice does nothing. */
  function ProjectChange(nextId: string): (r: Option<Navigation>)
    ensures r.Some? <==> nextId != ""
    ensures r.Some? ==> r.value == Navigation(DashboardOf(nextId), false)
  {
    if nextId != "" then Some(Navigation(DashboardOf(nextId), false)) else None
  }

  /** The "no projects assigned yet" card. */
  predicate ShowsEmptyState(ids: seq<string>) {
    |ids| == 0
  }

  // ---------------------------------------------------------------------
  // properties

  /** At most one of the two effects navigates on any render. */
  lemma EffectsNeverBothNavigate(projectId: Option<string>, ids: seq<string>)
    ensures !(SummaryEffect(projectId, ids).JumpToFirst? && MembershipEffect(projectId, ids).Some?)
  {
  }

  /** With no project chosen and none assigned, nothing is fetched, nothing navigates, and the empty card shows. */
  lemma AliasWithoutProjectsIdles(projectId: Option<string>)
    requires IsAlias(projectId)
    ensures SummaryEffect(projectId, []) == Wait
    ensures Redirect(projectId, []) == None
    ensures ShowsEmptyState([])
    ensures SelectorValue(projectId, []) == ""
  {
  }

  /** A concrete id is fetched even before (or without) any project list, and is not redirected away from. */
  lemma ConcreteWithoutProjectsFetches(id: string)
    requires !IsAlias(Some(id))
    ensures SummaryEffect(Some(id), []) == Fetch(id)
    ensures Redirect(Some(id), []) == None
  {
  }

  /** A listed id stays put: its summary is fetched and the selector shows it. */
  lemma ListedIdStays(id: string, ids: seq<string>)
    requires !IsAlias(Some(id)) && id in ids
    ensures Redirect(Some(id), ids) == None
    ensures SummaryEffect(Some(id), ids) == Fetch(id)
    ensures SelectorValue(Some(id), ids) == id
  {
  }

  /** The dashboard path of a plain id selects the project manager's dashboard with that id as its token. */
  lemma DashboardOfMatches(id: string)
    requires id != "" && SlashFree(id)
    ensures AppRoutes.Match(DashboardOf(id)) == AppRoutes.PmDashboard(id)
  {
    var segs := ["app", "pm", "dashboard", id];
    JoinFour("app", "pm", "dashboard", id);
    assert DashboardOf(id) == JoinPath(segs);
    AppRoutes.MatchJoined(segs);
    assert segs != ["login"] && segs[0] == "app" && segs[1] == "pm" && segs[1] != "admin" && |segs| == 4;
  }

  /**
   * Ids go into the path unencoded, so an empty id or one holding a slash
   * never reaches the dashboard as itself: whatever route its path selects,
   * it is not that project's dashboard.
   */
  lemma UnfitIdNotOpened(id: string)
    requires id == "" || !SlashFree(id)
    ensures AppRoutes.Match(DashboardOf(id)) != AppRoutes.PmDashboard(id)
  {
    AppRoutes.MatchShape(DashboardOf(id));
  }

  /**
   * Redirects converge in one step: the page the redirect opens names a
   * listed project, so it fetches that project's summary, redirects no
   * further, and keeps the selector on the project it already showed.
   */
  lemma RedirectConverges(projectId: Option<string>, ids: seq<string>)
    requires Redirect(projectId, ids).Some?
    requires ids[0] != "" && SlashFree(ids[0]) && ids[0] != CurrentAlias
    ensures AppRoutes.Match(Redirect(projectId, ids).value.to) == AppRoutes.PmDashboard(ids[0])
    ensures Redirect(Some(ids[0]), ids) == None
    ensures SummaryEffect(Some(ids[0]), ids) == Fetch(ids[0])
    ensures IsAlias(projectId) ==> SelectorValue(Some(ids[0]), ids) == SelectorValue(projectId, ids)
  {
    DashboardOfMatches(ids[0]);
  }

  /** A project manager sent to their home lands, with a project list, on the first project's dashboard. */
  lemma PmHomeOpensFirstProject(ids: seq<string>)
    requires ids != []
    ensures AppRoutes.Match(PmHome) == AppRoutes.PmDashboard(CurrentAlias)
    ensures Redirect(Some(CurrentAlias), ids) == Some(Navigation(DashboardOf(ids[0]), true))
  {
    AppRoutes.PmHomeMatches();
  }

  /** Choosing a listed project from the selector opens a page that stays on it. */
  lemma SelectingListedProjectStays(nextId: string, ids: seq<string>)
    requires nextId in ids && nextId != "" && SlashFree(nextId) && nextId != CurrentAlias
    ensures ProjectChange(nextId).Some?
    ensures AppRoutes.Match(ProjectChange(nextId).value.to) == AppRoutes.PmDashboard(nextId)
    ensures Redirect(Some(nextId), ids) == None
  {
    DashboardOfMatches(nextId);
  }
}

=== FILE: projects_page.dfy ===
/**
 * The project administration page: the project filter, the form and the
 * payload it sends (numbers, the manager's name, the team's names), the
 * manager column, the worker picker and the team chips.
 */
module ProjectsPage {
  import opened Wrappers
  import opened Json
  import opened Text
  import opened Seqs
  import opened Users
  import opened PageLists

  // ---------------------------------------------------------------------
  // filtering

  const SearchKeys := ["name", "code", "id"]

  predicate Shown(p: Record, term: string, status: string) {
    MentionedIn(p, SearchKeys, term) && Admits(p, "status", status)
  }

  /** `filteredProjects`: name, code or id mentions the term, and the status select admits the row. */
  function FilterProjects(projects: seq<Record>, term: string, status: string): (r: seq<Record>)
    ensures |r| <= |projects|
    ensures forall i :: 0 <= i < |r| ==> r[i] in projects && Shown(r[i], term, status)
    ensures forall i :: 0 <= i < |projects| && Shown(projects[i], term, status) ==> projects[i] in r
  {
    Filter(projects, p => Shown(p, term, status))
  }

  /** With no term and the select on `ALL`, every project shows, in order. */
  lemma UnfilteredShowsAll(projects: seq<Record>)
    ensures FilterProjects(projects, "", All) == projects
  {
    forall i | 0 <= i < |projects|
      ensures Shown(projects[i], "", All)
    {
      MentionedInIgnoresCase(projects[i], SearchKeys, "");
    }
    FilterKeepsAll(projects, p => Shown(p, "", All));
  }

  /** Typing the search term in another case shows the same rows. */
  lemma SearchIgnoresCase(projects: seq<Record>, term: string, status: string)
    ensures FilterProjects(projects, Upper(term), status) == FilterProjects(projects, term, status)
  {
    forall i | 0 <= i < |projects|
      ensures Shown(projects[i], Upper(term), status) == Shown(projects[i], term, status)
    {
      MentionedInIgnoresCase(projects[i], SearchKeys, term);
    }
    FilterCongruent(projects, p => Shown(p, Upper(term), status), p => Shown(p, term, status));
  }

  // ---------------------------------------------------------------------
  // the form

  /** The form's fields, the five numeric ones among them. */
  const FormKeys: set<string> := {
    "name", "code", "status", "startDate", "endDate", "budgetHours", "budgetCost",
    "latitude", "longitude", "radiusMeters", "managerId", "workerIds", "address"
  }
  const NumericKeys: set<string> := {"budgetHours", "budgetCost", "latitude", "longitude", "radiusMeters"}

  /** The manager fields are not numeric, and the payload's two added names are not form fields it converts. */
  lemma ManagerKeysApart()
    ensures "managerId" !in NumericKeys && "managerName" !in NumericKeys && "workerNames" !in NumericKeys
    ensures "managerId" != "managerName" && "managerId" != "workerNames"
  {
  }

  /** The form of "Add Project": every field empty, status PLANNING, no workers. */
  const DefaultForm: Record :=
    map k | k in FormKeys :: if k == "status" then Str("PLANNING") else if k == "workerIds" then Arr([]) else Str("")

  /** The edit form for a project: name, code and status as stored; other nullish fields become empty. */
  function EditForm(p: Record): (f: Record)
    ensures f.Keys == FormKeys
    ensures forall k :: k in {"name", "code", "status"} ==> f[k] == Get(p, k)
    ensures forall k :: k in f && k !in {"name", "code", "status", "workerIds"} ==> f[k] == Coalesce(Get(p, k), Str(""))
    ensures f["workerIds"] == Coalesce(Get(p, "workerIds"), Arr([]))
  {
    map k | k in FormKeys ::
      if k in {"name", "code", "status"} then Get(p, k)
      else if k == "workerIds" then Coalesce(Get(p, k), Arr([]))
      else Coalesce(Get(p, k), Str(""))
  }

  /** A numeric form field: converted when filled in, null when falsy. `toNumber` stands for `Number`. */
  function NumberOrNull(v: Value, toNumber: Value -> real): Value {
    if Truthy(v) then Num(toNumber(v)) else Null
  }

  /** The name of the first employee with the given id; `undefined` when none has it. */
  function NameFor(rs: seq<Record>, id: Value): (v: Value)
    ensures FindFirst(rs, "id", id).None? ==> v == Undefined
    ensures FindFirst(rs, "id", id).Some? ==> v == Get(rs[FindFirst(rs, "id", id).value], "name")
  {
    NameOf(rs, id)
  }

  /** `workerIds.map(id => employees.find(w => w.id === id)?.name).filter(Boolean)`. */
  function WorkerNames(ids: seq<Value>, employees: seq<Record>): (names: seq<Value>)
    ensures |names| <= |ids|
    ensures forall i :: 0 <= i < |names| ==> Truthy(names[i])
  {
    if ids == [] then []
    else
      var n := NameFor(employees, ids[0]);
      (if Truthy(n) then [n] else []) + WorkerNames(ids[1..], employees)
  }

  /** The selected ids, when the select produced a list. */
  function SelectedIds(v: Value): seq<Value> {
    if v.Arr? then v.items else []
  }

  /** The name of the first manager with the given id, or empty when none has it. */
  function ChosenManagerName(managers: seq<Record>, id: Value): (v: Value)
    ensures FindFirst(managers, "id", id).None? ==> v == Str("")
    ensures FindFirst(managers, "id", id).Some? ==> v == Get(managers[FindFirst(managers, "id", id).value], "name")
  {
    match Find(managers, "id", id)
    case Some(m) => Get(m, "name")
    case None => Str("")
  }

  /** The form with its five numeric fields converted: a filled-in field to a number, an empty one to null. */
  function WithNumbers(form: Record, toNumber: Value -> real): (p: Record)
    ensures p.Keys == form.Keys + NumericKeys
    ensures forall k :: k in form && k !in NumericKeys ==> p[k] == form[k]
    ensures forall k :: k in NumericKeys ==> p[k] == NumberOrNull(Get(form, k), toNumber)
  {
    Spread(form, map k | k in NumericKeys :: NumberOrNull(Get(form, k), toNumber))
  }

  /** The two fields the payload adds: the chosen manager's name and the selected workers' names. */
  function Names(form: Record, managers: seq<Record>, employees: seq<Record>): (r: Record)
    ensures r.Keys == {"managerName", "workerNames"}
    ensures r["managerName"] == ChosenManagerName(managers, Get(form, "managerId"))
    ensures r["workerNames"] == Arr(WorkerNames(SelectedIds(Get(form, "workerIds")), employees))
  {
    map[
      "managerName" := ChosenManagerName(managers, Get(form, "managerId")),
      "workerNames" := Arr(WorkerNames(SelectedIds(Get(form, "workerIds")), employees))
    ]
  }

  /**
   * The payload `handleSubmit` sends: the form with its numbers converted,
   * the chosen manager's name (empty when none matches), and the names of
   * the selected workers.
   */
  function Payload(form: Record, managers: seq<Record>, employees: seq<Record>, toNumber: Value -> real): (p: Record)
    ensures p.Keys == form.Keys + NumericKeys + {"managerName", "workerNames"}
    ensures forall k :: k in form && k !in NumericKeys && k != "managerName" && k != "workerNames" ==> p[k] == form[k]
    ensures forall k :: k in NumericKeys ==> p[k] == NumberOrNull(Get(form, k), toNumber)
    ensures p["managerName"] == ChosenManagerName(managers, Get(form, "managerId"))
    ensures p["workerNames"] == Arr(WorkerNames(SelectedIds(Get(form, "workerIds")), employees))
  {
    ManagerKeysApart();
    Spread(WithNumbers(form, toNumber), Names(form, managers, employees))
  }

  /** Team names are collected selection by selection. */
  lemma {:induction false} WorkerNamesAppend(a: seq<Value>, b: seq<Value>, employees: seq<Record>)
    ensures WorkerNames(a + b, employees) == WorkerNames(a, employees) + WorkerNames(b, employees)
  {
    if a == [] {
      assert a + b == b;
    } else {
      assert (a + b)[0] == a[0];
      assert (a + b)[1..] == a[1..] + b;
      WorkerNamesAppend(a[1..], b, employees);
    }
  }

  /** A selected id no employee has, or whose employee has no name, contributes nothing. */
  lemma UnknownWorkerDropped(a: seq<Value>, id: Value, b: seq<Value>, employees: seq<Record>)
    requires !Truthy(NameFor(employees, id))
    ensures WorkerNames(a + [id] + b, employees) == WorkerNames(a, employees) + WorkerNames(b, employees)
  {
    assert WorkerNames([id], employees) == [] by {
      assert [id][0] == id && [id][1..] == [];
    }
    WorkerNamesAppend(a, [id], employees);
    WorkerNamesAppend(a + [id], b, employees);
  }

  /** When every selected id names an employee with a name, the team names follow the selection one for one. */
  lemma {:induction false} WorkerNamesFollowSelection(ids: seq<Value>, employees: seq<Record>)
    requires forall i :: 0 <= i < |ids| ==> Truthy(NameFor(employees, ids[i]))
    ensures |WorkerNames(ids, employees)| == |ids|
    ensures forall i :: 0 <= i < |ids| ==> WorkerNames(ids, employees)[i] == NameFor(employees, ids[i])
  {
    if ids != [] {
      WorkerNamesFollowSelection(ids[1..], employees);
      var rest := WorkerNames(ids[1..], employees);
      assert WorkerNames(ids, employees) == [NameFor(employees, ids[0])] + rest;
      forall i | 1 <= i < |ids|
        ensures WorkerNames(ids, employees)[i] == NameFor(employees, ids[i])
      {
        assert ids[1..][i - 1] == ids[i];
      }
    }
  }

  /** The list, modal and message after a save; `editingId` is null for a create. */
  function SaveProject<E>(projects: seq<Record>, editingId: Value, result: Result<Record, E>): (v: FormView)
    ensures result.Err? ==> v.items == projects && v.modalOpen && v.formError == "Unable to save project. Check the details and try again."
    ensures result.Ok? ==> !v.modalOpen && v.items == AfterSave(projects, editingId, result.value)
  {
    Submit(projects, editingId, result, "Unable to save project. Check the details and try again.")
  }

  // ---------------------------------------------------------------------
  // the table

  /** The manager column: the stored name when set, else the manager found by id, else "Unassigned". */
  function ManagerName(p: Record, managers: seq<Record>): (v: Value)
    ensures Truthy(Get(p, "managerName")) ==> v == Get(p, "managerName")
    ensures !Truthy(Get(p, "managerName")) && FindFirst(managers, "id", Get(p, "managerId")).None? ==> v == Str("Unassigned")
    ensures !Truthy(Get(p, "managerName")) && FindFirst(managers, "id", Get(p, "managerId")).Some? ==>
      v == Get(managers[FindFirst(managers, "id", Get(p, "managerId")).value], "name")
  {
    var stored := Get(p, "managerName");
    if Truthy(stored) then stored
    else match Find(managers, "id", Get(p, "managerId"))
      case Some(m) => Get(m, "name")
      case None => Str("Unassigned")
  }

  /** A project saved from the form shows, against the same manager list, the manager chosen in the form, or "Unassigned". */
  lemma SavedManagerShown(form: Record, managers: seq<Record>, employees: seq<Record>, toNumber: Value -> real)
    ensures var p := Payload(form, managers, employees, toNumber);
      ManagerName(p, managers) == match Find(managers, "id", Get(form, "managerId")) case Some(m) => Get(m, "name") case None => Str("Unassigned")
  {
    ManagerKeysApart();
    var p := Payload(form, managers, employees, toNumber);
    if "managerId" in form {
      assert Get(p, "managerId") == Get(form, "managerId");
    } else {
      assert Get(p, "managerId") == Undefined;
    }
    ChosenNameShown(p, managers, Get(form, "managerId"));
  }

  /** A record carrying the name chosen for its manager id shows that manager, or "Unassigned" when none matches. */
  lemma ChosenNameShown(p: Record, managers: seq<Record>, id: Value)
    requires Get(p, "managerId") == id && Get(p, "managerName") == ChosenManagerName(managers, id)
    ensures ManagerName(p, managers) == match Find(managers, "id", id) case Some(m) => Get(m, "name") case None => Str("Unassigned")
  {
  }

  /** The worker picker: employees whose role is WORKER or FOREMAN, in roster order. */
  function WorkerOptions(employees: seq<Record>): (r: seq<Record>)
    ensures forall i :: 0 <= i < |r| ==> r[i] in employees && (Get(r[i], "role") == Str(Worker) || Get(r[i], "role") == Str(Foreman))
    ensures forall i :: 0 <= i < |employees| && (Get(employees[i], "role") == Str(Worker) || Get(employees[i], "role") == Str(Foreman)) ==> employees[i] in r
  {
    Filter(employees, e => Get(e, "role") == Str(Worker) || Get(e, "role") == Str(Foreman))
  }

  /** Managers and administrators are never offered as team members. */
  lemma NoManagersInTeamPicker(employees: seq<Record>, i: nat)
    requires i < |WorkerOptions(employees)|
    ensures Get(WorkerOptions(employees)[i], "role") != Str(Pm) && Get(WorkerOptions(employees)[i], "role") != Str(HrAdmin)
  {
  }

  /** The team cell: the first three names as chips, and how many more there are when over three. */
  function TeamChips(workerNames: Value): (r: (seq<Value>, Option<nat>))
    ensures var names := if workerNames.Arr? then workerNames.items else [];
      && |r.0| == (if |names| < 3 then |names| else 3)
      && r.0 == names[..|r.0|]
      && (r.1.Some? <==> workerNames.Arr? && |names| > 3)
      && (r.1.Some? ==> r.1.value > 0)
  {
    var names := if workerNames.Arr? then workerNames.items else [];
    (names[..if |names| < 3 then |names| else 3],
     if workerNames.Arr? && |names| > 3 then Some(|names| - 3) else None)
  }

  /** Every team member is either a chip or counted in "+N more". */
  lemma ChipsAccountForEveryone(names: seq<Value>)
    ensures |TeamChips(Arr(names)).0| + TeamChips(Arr(names)).1.GetOr(0) == |names|
  {
  }
}

=== FILE: seqs.dfy ===
/**
 * Order-preserving filtering of sequences, the model of
 * `Array.prototype.filter` used by every list view of the portal.
 */
module Seqs {

  /** Keeps, in order, exactly the elements that satisfy `p`. */
  function Filter<T>(s: seq<T>, p: T -> bool): (r: seq<T>)
    ensures |r| <= |s|
    ensures forall i :: 0 <= i < |r| ==> p(r[i]) && r[i] in s
    ensures forall i :: 0 <= i < |s| && p(s[i]) ==> s[i] in r
  {
    if s == [] then []
    else (if p(s[0]) then [s[0]] else []) + Filter(s[1..], p)
  }

  /** Filtering distributes over concatenation: the relative order of kept elements is unchanged. */
  lemma {:induction false} FilterAppend<T>(a: seq<T>, b: seq<T>, p: T -> bool)
    ensures Filter(a + b, p) == Filter(a, p) + Filter(b, p)
  {
    if a == [] {
      assert a + b == b;
    } else {
      assert (a + b)[0] == a[0];
      assert (a + b)[1..] == a[1..] + b;
      FilterAppend(a[1..], b, p);
    }
  }

  /** A filter that every element passes returns its input unchanged. */
  lemma {:induction false} FilterKeepsAll<T>(s: seq<T>, p: T -> bool)
    requires forall i :: 0 <= i < |s| ==> p(s[i])
    ensures Filter(s, p) == s
  {
    if s != [] {
      FilterKeepsAll(s[1..], p);
    }
  }

  /** A filter that no element passes returns the empty sequence. */
  lemma {:induction false} FilterDropsAll<T>(s: seq<T>, p: T -> bool)
    requires forall i :: 0 <= i < |s| ==> !p(s[i])
    ensures Filter(s, p) == []
  {
    if s != [] {
      FilterDropsAll(s[1..], p);
    }
  }

  /** Filtering by a conjunction is filtering twice. */
  lemma {:induction false} FilterConjunction<T>(s: seq<T>, p: T -> bool, q: T -> bool, pq: T -> bool)
    requires forall x :: pq(x) == (p(x) && q(x))
    ensures Filter(s, pq) == Filter(Filter(s, p), q)
  {
    if s != [] {
      FilterConjunction(s[1..], p, q, pq);
      if p(s[0]) {
        assert Filter(s, p) == [s[0]] + Filter(s[1..], p);
        assert Filter(s, p)[0] == s[0];
        assert Filter(s, p)[1..] == Filter(s[1..], p);
      } else {
        assert Filter(s, p) == Filter(s[1..], p);
      }
    }
  }

  /** Filters that agree on every element of the sequence give the same result. */
  lemma {:induction false} FilterCongruent<T>(s: seq<T>, p: T -> bool, q: T -> bool)
    requires forall i :: 0 <= i < |s| ==> p(s[i]) == q(s[i])
    ensures Filter(s, p) == Filter(s, q)
  {
    if s != [] {
      FilterCongruent(s[1..], p, q);
    }
  }

  /** When every element passes exactly one of three filters, the three results together are as long as the input. */
  lemma {:induction false} FilterPartitionCounts<T>(s: seq<T>, p: T -> bool, q: T -> bool, r: T -> bool)
    requires forall i :: 0 <= i < |s| ==> (p(s[i]) || q(s[i]) || r(s[i]))
    requires forall i :: 0 <= i < |s| ==> !(p(s[i]) && q(s[i])) && !(p(s[i]) && r(s[i])) && !(q(s[i]) && r(s[i]))
    ensures |Filter(s, p)| + |Filter(s, q)| + |Filter(s, r)| == |s|
  {
    if s != [] {
      FilterPartitionCounts(s[1..], p, q, r);
    }
  }
}

=== FILE: service.dfy ===
/**
 * The data-access layer. One flag, fixed when the module loads, decides
 * whether each call is answered by the in-memory mock store or becomes a
 * REST request to the backend. A mock answer is the mock function's result
 * (the simulated latency does not change it); a real call is modelled by the
 * request it sends.
 */
module Service {
  import opened Wrappers
  import opened Json
  import opened Uri
  import opened Users
  import opened MockData
  import opened Client

  datatype Mode = Mock | Real

  /** `import.meta.env.VITE_USE_MOCK === "true"`: any other text, or none, is real mode. */
  function ModeOf(env: Option<string>): (m: Mode)
    ensures m == Mock <==> env == Some("true")
  {
    if env == Some("true") then Mock else Real
  }

  /** The data-layer calls that go through the mode switch, with their arguments. */
  datatype Call =
    | FetchAdminDashboard
    | FetchEmployees
    | CreateEmployee(payload: Record)
    | UpdateEmployee(id: string, payload: Record)
    | UpdateEmployeeStatus(id: string, status: string)
    | FetchProjects
    | CreateProject(payload: Record)
    | UpdateProject(id: string, payload: Record)
    | FetchPmDashboard(projectId: string)
    | FetchTimesheetApprovals
    | ApproveTimesheet(id: string)
    | RejectTimesheet(id: string)
    | FetchProjectManagers
    | FetchTrades
    | FetchProjectsForUser(userId: string)
  {
    predicate IsWrite() {
      CreateEmployee? || UpdateEmployee? || UpdateEmployeeStatus? || CreateProject? || UpdateProject?
      || ApproveTimesheet? || RejectTimesheet?
    }
  }

  /** What a call does: answered in the page with a value (or error) and the mock store after it, or sent to the backend. */
  datatype Outcome =
    | Served(out: Result<Value, Error>, store: Store)
    | Sent(request: Request)

  function Records(rs: seq<Record>): Value {
    Arr(seq(|rs|, i requires 0 <= i < |rs| => Obj(rs[i])))
  }

  function AsValue(r: Reply<Record>): Reply<Value> {
    match r.out
    case Ok(v) => Reply(Ok(Obj(v)), r.store)
    case Err(e) => Reply(Err(e), r.store)
  }

  function Created(r: (Record, Store)): Reply<Value> {
    Reply(Ok(Obj(r.0)), r.1)
  }

  function DashboardCopy(stampBefore: nat -> string): Value {
    Clone(AdminDashboard(stampBefore))
  }

  function TradeNames(): Value {
    Arr(seq(|Trades|, i requires 0 <= i < |Trades| => Str(Trades[i])))
  }

  /** The mock store's answer to a timesheet decision. */
  function Decide(s: Store, id: string, status: string, now: string): Reply<Value> {
    AsValue(UpdateTimesheetStatus(s, id, status, now))
  }

  /** A real-mode call: its endpoint; `None` for the one call with no backend endpoint (trades). */
  function Endpoint(call: Call): (r: Option<Request>)
    ensures r.None? <==> call.FetchTrades?
    ensures r.Some? ==> (r.value.verb == GET <==> !call.IsWrite())
    ensures r.Some? ==> (r.value.verb == PUT <==> call.UpdateEmployee? || call.UpdateEmployeeStatus? || call.UpdateProject?)
    ensures r.Some? ==> (r.value.body.Some? <==> r.value.verb == PUT || call.CreateEmployee? || call.CreateProject?)
  {
    match call
    case FetchAdminDashboard => Some(Request(GET, "/api/dashboard/admin", None))
    case FetchEmployees => Some(Request(GET, "/api/employees", None))
    case CreateEmployee(payload) => Some(Request(POST, "/api/employees", Some(Obj(payload))))
    case UpdateEmployee(id, payload) => Some(Request(PUT, "/api/employees/" + id, Some(Obj(payload))))
    case UpdateEmployeeStatus(id, status) =>
      Some(Request(PUT, "/api/employees/" + id, Some(Obj(map["status" := Str(status)]))))
    case FetchProjects => Some(Request(GET, "/api/projects", None))
    case CreateProject(payload) => Some(Request(POST, "/api/projects", Some(Obj(payload))))
    case UpdateProject(id, payload) => Some(Request(PUT, "/api/projects/" + id, Some(Obj(payload))))
    case FetchPmDashboard(projectId) => Some(Request(GET, "/api/dashboard/pm/" + projectId, None))
    case FetchTimesheetApprovals => Some(Request(GET, "/api/timesheet/pending-approvals", None))
    case ApproveTimesheet(id) => Some(Request(POST, "/api/timesheet/" + id + "/approve", None))
    case RejectTimesheet(id) => Some(Request(POST, "/api/timesheet/" + id + "/reject", None))
    case FetchProjectManagers => Some(Request(GET, "/api/users?role=PM", None))
    case FetchTrades => None
    case FetchProjectsForUser(userId) =>
      Some(Request(GET, "/api/projects?managerId=" + EncodeUriComponent(userId), None))
  }

  /**
   * A mock-mode call at time `now`: the mock store's answer. Reads leave the
   * store as it is; `stampBefore` dates the admin dashboard's activity feed.
   */
  function MockAnswer(s: Store, call: Call, now: string, stampBefore: nat -> string): (r: Reply<Value>)
    ensures !call.IsWrite() ==> r.store == s
  {
    match call
    case FetchAdminDashboard => Reply(Ok(DashboardCopy(stampBefore)), s)
    case FetchEmployees => Reply(Ok(Records(GetEmployees(s))), s)
    case CreateEmployee(payload) => Created(MockData.CreateEmployee(s, payload, now))
    case UpdateEmployee(id, payload) => AsValue(MockData.UpdateEmployee(s, id, payload))
    case UpdateEmployeeStatus(id, status) => AsValue(SetEmployeeStatus(s, id, status))
    case FetchProjects => Reply(Ok(Records(GetProjects(s))), s)
    case CreateProject(payload) => Created(MockData.CreateProject(s, payload))
    case UpdateProject(id, payload) => AsValue(MockData.UpdateProject(s, id, payload))
    case FetchPmDashboard(projectId) => Reply(GetPmDashboard(projectId), s)
    case FetchTimesheetApprovals => Reply(Ok(Records(GetTimesheetApprovals(s))), s)
    case ApproveTimesheet(id) => Decide(s, id, "APPROVED", now)
    case RejectTimesheet(id) => Decide(s, id, "REJECTED", now)
    case FetchProjectManagers => Reply(Ok(Records(GetProjectManagers())), s)
    case FetchTrades => Reply(Ok(TradeNames()), s)
    case FetchProjectsForUser(userId) => Reply(Ok(Records(GetProjectsForUser(s, userId))), s)
  }

  /**
   * One call through the switch. Mock mode always answers from the store;
   * real mode sends the call's request, except trades, answered with an
   * empty list and no request.
   */
  function Run(mode: Mode, s: Store, call: Call, now: string, stampBefore: nat -> string): (r: Outcome)
    ensures mode == Mock ==> r.Served? && Reply(r.out, r.store) == MockAnswer(s, call, now, stampBefore)
    ensures mode == Real ==> (r.Served? <==> call.FetchTrades?)
    ensures mode == Real && r.Served? ==> r == Served(Ok(Arr([])), s)
    ensures mode == Real && r.Sent? ==> Endpoint(call) == Some(r.request)
  {
    match mode
    case Mock =>
      var reply := MockAnswer(s, call, now, stampBefore);
      Served(reply.out, reply.store)
    case Real =>
      match Endpoint(call)
      case Some(request) => Sent(request)
      case None => Served(Ok(Arr([])), s)
  }

  /** `getDefaultPmProjectId()`: PRJ-001 in mock mode, null otherwise. */
  function DefaultPmProjectId(mode: Mode): (r: Option<string>)
    ensures r.Some? <==> mode == Mock
    ensures r.Some? ==> r.value == "PRJ-001"
  {
    if mode == Mock then Some(GetDefaultPmProjectId()) else None
  }

  /** `getDevAuthPayload(role)`: refused outright in real mode, whatever the role; the mock payload otherwise. */
  function DevAuthPayload(mode: Mode, role: string): (r: Result<AuthPayload, Error>)
    ensures mode == Real ==> r == Err(MockModeOnly)
    ensures mode == Mock ==> (r.Ok? <==> role == HrAdmin || role == Pm)
    ensures r.Ok? ==> r.value.user.role == role
  {
    if mode != Mock then Err(MockModeOnly) else GetAuthPayload(role)
  }

  // ---------------------------------------------------------------------
  // properties across calls

  /** Real mode never changes the mock store, and mock mode never sends a request. */
  lemma ModesAreSeparate(s: Store, call: Call, now: string, stampBefore: nat -> string)
    ensures Run(Real, s, call, now, stampBefore).Served? ==> Run(Real, s, call, now, stampBefore).store == s
    ensures !Run(Mock, s, call, now, stampBefore).Sent?
  {
  }

  /** A status change is the one-field update `{status}`, in either mode. */
  lemma StatusUpdateIsOneFieldUpdate(mode: Mode, s: Store, id: string, status: string, now: string, stampBefore: nat -> string)
    ensures Run(mode, s, UpdateEmployeeStatus(id, status), now, stampBefore)
         == Run(mode, s, UpdateEmployee(id, map["status" := Str(status)]), now, stampBefore)
  {
    if mode == Mock {
      StatusIsOneFieldPatch(s, id, status);
      assert MockAnswer(s, UpdateEmployeeStatus(id, status), now, stampBefore)
          == MockAnswer(s, UpdateEmployee(id, map["status" := Str(status)]), now, stampBefore);
    } else {
      assert Endpoint(UpdateEmployeeStatus(id, status)) == Endpoint(UpdateEmployee(id, map["status" := Str(status)]));
    }
  }

  /** The record a decision returns carries the decided status. */
  lemma DecisionCarriesStatus(s: Store, id: string, status: string, now: string)
    requires exists j :: 0 <= j < |s.timesheets| && HasId(s.timesheets[j], id)
    ensures var r := Decide(s, id, status, now);
      r.out.Ok? && r.out.value.Obj? && HasStatus(r.out.value.fields, status)
  {
    var u := UpdateTimesheetStatus(s, id, status, now);
    var i := FindFirst(s.timesheets, "id", Str(id)).value;
    CloneRecordGet(u.store.timesheets[i], "status");
  }

  /** In mock mode, approving a known timesheet returns it APPROVED, and rejecting returns it REJECTED. */
  lemma MockDecisionsStampStatus(s: Store, id: string, now: string, stampBefore: nat -> string)
    requires exists j :: 0 <= j < |s.timesheets| && HasId(s.timesheets[j], id)
    ensures var r := Run(Mock, s, ApproveTimesheet(id), now, stampBefore);
      r.out.Ok? && r.out.value.Obj? && HasStatus(r.out.value.fields, "APPROVED")
    ensures var r := Run(Mock, s, RejectTimesheet(id), now, stampBefore);
      r.out.Ok? && r.out.value.Obj? && HasStatus(r.out.value.fields, "REJECTED")
  {
    DecisionCarriesStatus(s, id, "APPROVED", now);
    DecisionCarriesStatus(s, id, "REJECTED", now);
    MockDecisionIsDecide(s, id, now, stampBefore);
  }

  lemma MockDecisionIsDecide(s: Store, id: string, now: string, stampBefore: nat -> string)
    ensures MockAnswer(s, ApproveTimesheet(id), now, stampBefore) == Decide(s, id, "APPROVED", now)
    ensures MockAnswer(s, RejectTimesheet(id), now, stampBefore) == Decide(s, id, "REJECTED", now)
  {
  }

  lemma MockUnknownTimesheet(s: Store, id: string, now: string, stampBefore: nat -> string)
    requires forall j :: 0 <= j < |s.timesheets| ==> !HasId(s.timesheets[j], id)
    ensures Run(Mock, s, ApproveTimesheet(id), now, stampBefore) == Served(Err(TimesheetNotFound), s)
    ensures Run(Mock, s, RejectTimesheet(id), now, stampBefore) == Served(Err(TimesheetNotFound), s)
  {
    MockDecisionIsDecide(s, id, now, stampBefore);
    var approved := UpdateTimesheetStatus(s, id, "APPROVED", now);
    var rejected := UpdateTimesheetStatus(s, id, "REJECTED", now);
    assert approved.out == Err(TimesheetNotFound) && approved.store == s;
    assert rejected.out == Err(TimesheetNotFound) && rejected.store == s;
  }

  /** Id-bearing endpoints are a fixed prefix (and suffix) around the id, so distinct ids reach distinct paths. */
  lemma EndpointsIdentifyRecord(a: string, b: string)
    ensures Endpoint(UpdateEmployee(a, map[])).value.path == Endpoint(UpdateEmployee(b, map[])).value.path ==> a == b
    ensures Endpoint(UpdateProject(a, map[])).value.path == Endpoint(UpdateProject(b, map[])).value.path ==> a == b
    ensures Endpoint(FetchPmDashboard(a)).value.path == Endpoint(FetchPmDashboard(b)).value.path ==> a == b
    ensures Endpoint(ApproveTimesheet(a)).value.path == Endpoint(ApproveTimesheet(b)).value.path ==> a == b
    ensures Endpoint(ApproveTimesheet(a)).value.path != Endpoint(RejectTimesheet(b)).value.path
  {
    var pe, pp, pd, pt := "/api/employees/", "/api/projects/", "/api/dashboard/pm/", "/api/timesheet/";
    if pe + a == pe + b {
      assert a == (pe + a)[|pe|..];
    }
    if pp + a == pp + b {
      assert a == (pp + a)[|pp|..];
    }
    if pd + a == pd + b {
      assert a == (pd + a)[|pd|..];
    }
    var x, y := pt + a + "/approve", pt + b + "/approve";
    if x == y {
      assert a == x[|pt|..|x| - 8];
      assert b == y[|pt|..|y| - 8];
    }
    var z := pt + b + "/reject";
    assert x[|x| - 1] == 'e' && z[|z| - 1] == 't';
  }

  /** The manager filter goes out as one URI component: the id cannot add query parameters or a fragment. */
  lemma ManagerQueryIsOneComponent(userId: string)
    ensures var path := Endpoint(FetchProjectsForUser(userId)).value.path;
      var prefix := "/api/projects?managerId=";
      && path[..|prefix|] == prefix
      && ComponentText(path[|prefix|..])
      && (forall i :: |prefix| <= i < |path| ==> path[i] != '&' && path[i] != '#' && path[i] != '=')
  {
    var prefix := "/api/projects?managerId=";
    var path := Endpoint(FetchProjectsForUser(userId)).value.path;
    assert path[|prefix|..] == EncodeUriComponent(userId);
    EncodedIsComponentText(userId);
    forall i | |prefix| <= i < |path|
      ensures path[i] != '&' && path[i] != '#' && path[i] != '='
    {
      assert path[i] == path[|prefix|..][i - |prefix|];
    }
  }

  /** Dev login works only in mock mode, and only for the two seeded roles. */
  lemma DevLoginOnlyInMockMode(env: Option<string>, role: string)
    ensures DevAuthPayload(ModeOf(env), role).Ok? <==> env == Some("true") && (role == HrAdmin || role == Pm)
  {
  }
}

=== FILE: sidebar.dfy ===
/**
 * The sidebar's navigation links: a fixed list per role, and an "Overview"
 * link to the app root when the signed-in user's role has none.
 */
module Sidebar {
  import opened Wrappers
  import opened Text
  import opened Users
  import opened Gates
  import opened AppRoutes

  datatype NavItem = NavItem(path: string, text: string)

  const EmployeesPath := "/app/admin/employees"
  const ProjectsPath := "/app/admin/projects"
  const ApprovalsPath := "/app/pm/approvals/timesheets"

  const AdminNav: seq<NavItem> := [
    NavItem(AdminHome, "Dashboard"),
    NavItem(EmployeesPath, "Employees"),
    NavItem(ProjectsPath, "Projects")
  ]

  const PmNav: seq<NavItem> := [
    NavItem(PmHome, "Dashboard"),
    NavItem(ApprovalsPath, "Approvals")
  ]

  const Overview := NavItem(AppPath, "Overview")

  /** The role's own links; any other role, or no user, gets none. */
  function NavItems(user: Option<Identity>): (items: seq<NavItem>)
    ensures items != [] <==> RoleIs(user, HrAdmin) || RoleIs(user, Pm)
  {
    match user
    case None => []
    case Some(u) => if u.role == HrAdmin then AdminNav else if u.role == Pm then PmNav else []
  }

  /** What the sidebar lists: the role's links, or the single fallback link when there are none. */
  function Links(user: Option<Identity>): (links: seq<NavItem>)
    ensures links != []
    ensures links == [Overview] <==> NavItems(user) == []
  {
    var items := NavItems(user);
    if |items| == 0 then [Overview] else items
  }

  // ---------------------------------------------------------------------
  // properties

  lemma EmployeesPathSegments()
    ensures Segments(EmployeesPath) == ["app", "admin", "employees"]
  {
    EmployeesPathJoins();
    SegmentsOfJoinPath(["app", "admin", "employees"]);
  }

  lemma EmployeesPathJoins()
    ensures JoinPath(["app", "admin", "employees"]) == EmployeesPath
  {
  }

  lemma EmployeesPathMatches()
    ensures Match(EmployeesPath) == Employees
  {
    EmployeesPathSegments();
    EmployeesPathJoins();
    var segs := ["app", "admin", "employees"];
    MatchJoined(segs);
    assert segs != ["login"] && segs[0] == "app" && segs[1] == "admin" && segs[2] != "dashboard";
    assert MatchSegments(segs) == Employees;
  }

  lemma ProjectsPathSegments()
    ensures Segments(ProjectsPath) == ["app", "admin", "projects"]
  {
    ProjectsPathJoins();
    SegmentsOfJoinPath(["app", "admin", "projects"]);
  }

  lemma ProjectsPathJoins()
    ensures JoinPath(["app", "admin", "projects"]) == ProjectsPath
  {
  }

  lemma ProjectsPathMatches()
    ensures Match(ProjectsPath) == Projects
  {
    ProjectsPathSegments();
    ProjectsPathJoins();
    var segs := ["app", "admin", "projects"];
    MatchJoined(segs);
    assert segs != ["login"] && segs[0] == "app" && segs[1] == "admin" && segs[2] != "dashboard" && segs[2] != "employees";
    assert MatchSegments(segs) == Projects;
  }

  lemma ApprovalsPathSegments()
    ensures Segments(ApprovalsPath) == ["app", "pm", "approvals", "timesheets"]
  {
    ApprovalsPathJoins();
    SegmentsOfJoinPath(["app", "pm", "approvals", "timesheets"]);
  }

  lemma ApprovalsPathJoins()
    ensures JoinPath(["app", "pm", "approvals", "timesheets"]) == ApprovalsPath
  {
    JoinFour("app", "pm", "approvals", "timesheets");
  }

  lemma ApprovalsPathMatches()
    ensures Match(ApprovalsPath) == Approvals
  {
    ApprovalsPathSegments();
    ApprovalsPathJoins();
    var segs := ["app", "pm", "approvals", "timesheets"];
    MatchJoined(segs);
    assert segs != ["login"] && segs[0] == "app" && segs[1] == "pm" && segs[1] != "admin" && |segs| == 4;
    assert segs[2] == "approvals" && segs[3] == "timesheets" && segs[2] != "dashboard";
    assert MatchSegments(segs) == Approvals;
  }

  /** The first link of each role is the role's home. */
  lemma FirstLinkIsHome(user: Option<Identity>)
    requires NavItems(user) != []
    ensures NavItems(user)[0].path == RoleHome(user)
  {
  }

  /** The admin links, in order: the admin dashboard, employees, projects. */
  lemma AdminNavRoutes()
    ensures |AdminNav| == 3
    ensures Match(AdminNav[0].path) == AdminDashboard && AdminNav[0].text == "Dashboard"
    ensures Match(AdminNav[1].path) == Employees && AdminNav[1].text == "Employees"
    ensures Match(AdminNav[2].path) == Projects && AdminNav[2].text == "Projects"
  {
    AdminHomeMatches();
    EmployeesPathMatches();
    ProjectsPathMatches();
  }

  /** The project manager links, in order: the dashboard of the current project, timesheet approvals. */
  lemma PmNavRoutes()
    ensures |PmNav| == 2
    ensures Match(PmNav[0].path) == PmDashboard("current") && PmNav[0].text == "Dashboard"
    ensures Match(PmNav[1].path) == Approvals && PmNav[1].text == "Approvals"
  {
    PmHomeMatches();
    ApprovalsPathMatches();
  }

  /** Every admin link selects an admin page other than the section's index. */
  lemma AdminNavInSection()
    ensures forall k :: 0 <= k < |AdminNav| ==> Match(AdminNav[k].path).UnderAdmin() && Match(AdminNav[k].path) != AdminIndex
  {
    AdminNavRoutes();
    forall k | 0 <= k < |AdminNav|
      ensures Match(AdminNav[k].path).UnderAdmin() && Match(AdminNav[k].path) != AdminIndex
    {
      assert k == 0 || k == 1 || k == 2;
    }
  }

  /** Every project manager link selects a project manager page other than the section's index. */
  lemma PmNavInSection()
    ensures forall k :: 0 <= k < |PmNav| ==> Match(PmNav[k].path).UnderPm() && Match(PmNav[k].path) != PmIndex
  {
    PmNavRoutes();
    forall k | 0 <= k < |PmNav|
      ensures Match(PmNav[k].path).UnderPm() && Match(PmNav[k].path) != PmIndex
    {
      assert k == 0 || k == 1;
    }
  }

  /** Which pages each role's links select, in the order the sidebar lists them. */
  lemma NavItemsPerRole(user: Option<Identity>)
    ensures RoleIs(user, HrAdmin) ==> var items := NavItems(user);
      && |items| == 3
      && Match(items[0].path) == AdminDashboard
      && Match(items[1].path) == Employees
      && Match(items[2].path) == Projects
    ensures RoleIs(user, Pm) ==> var items := NavItems(user);
      && |items| == 2
      && Match(items[0].path) == PmDashboard("current")
      && Match(items[1].path) == Approvals
    ensures !RoleIs(user, HrAdmin) && !RoleIs(user, Pm) ==> Links(user) == [Overview]
  {
    AdminNavRoutes();
    PmNavRoutes();
  }

  /** Every link the sidebar offers a signed-in user opens a page for them, never a redirect. */
  lemma LinksOpenPages(token: Option<string>, user: Option<Identity>, i: nat)
    requires HasToken(token) && i < |NavItems(user)|
    ensures Render(NavItems(user)[i].path, token, user).Show?
  {
    if RoleIs(user, HrAdmin) {
      AdminLinksOpen(token, user, i);
    } else {
      PmLinksOpen(token, user, i);
    }
  }

  lemma AdminLinksOpen(token: Option<string>, user: Option<Identity>, i: nat)
    requires HasToken(token) && RoleIs(user, HrAdmin) && i < |AdminNav|
    ensures Render(AdminNav[i].path, token, user).Show?
  {
    AdminNavInSection();
    SectionPageOpens(AdminNav[i].path, token, user);
  }

  lemma PmLinksOpen(token: Option<string>, user: Option<Identity>, i: nat)
    requires HasToken(token) && RoleIs(user, Pm) && i < |PmNav|
    ensures Render(PmNav[i].path, token, user).Show?
  {
    PmNavInSection();
    SectionPageOpens(PmNav[i].path, token, user);
  }

  /** The fallback link leads to the app root, which sends such a user on to login. */
  lemma OverviewLeadsToLogin(token: Option<string>, user: Option<Identity>)
    requires HasToken(token) && user.Some? && NavItems(user) == []
    ensures Links(user) == [Overview]
    ensures Render(Overview.path, token, user) == Go(LoginPath, None)
  {
    AppPathRenders(token, user);
  }
}

=== FILE: text.dfy ===
/**
 * String helpers with JavaScript meaning: ASCII case folding for
 * `toLowerCase`/`toUpperCase`, `String.prototype.includes`, the path split
 * `pathname.split("/").filter(Boolean)`, `String(n)` for naturals and
 * `padStart`.
 */
module Text {

  function LowerChar(c: char): char {
    if 'A' <= c <= 'Z' then (c as int + 32) as char else c
  }

  function UpperChar(c: char): char {
    if 'a' <= c <= 'z' then (c as int - 32) as char else c
  }

  /** `toLowerCase`, restricted to ASCII letters. */
  function Lower(s: string): (r: string)
    ensures |r| == |s|
    ensures forall i :: 0 <= i < |s| ==> r[i] == LowerChar(s[i])
  {
    seq(|s|, i requires 0 <= i < |s| => LowerChar(s[i]))
  }

  /** `toUpperCase`, restricted to ASCII letters. */
  function Upper(s: string): (r: string)
    ensures |r| == |s|
    ensures forall i :: 0 <= i < |s| ==> r[i] == UpperChar(s[i])
  {
    seq(|s|, i requires 0 <= i < |s| => UpperChar(s[i]))
  }

  /** `Upper` leaves no lower-case ASCII letter behind. */
  lemma UpperHasNoLowerCase(s: string)
    ensures forall i :: 0 <= i < |Upper(s)| ==> !('a' <= Upper(s)[i] <= 'z')
  {
    forall i | 0 <= i < |s|
      ensures !('a' <= Upper(s)[i] <= 'z')
    {
      var c := s[i];
      if 'a' <= c <= 'z' {
        assert (c as int - 32) < 'a' as int;
      }
    }
  }

  /** Lower-casing forgets case: an upper-cased or already lower-cased string lowers to the same text. */
  lemma LowerForgetsCase(s: string)
    ensures Lower(Upper(s)) == Lower(s)
    ensures Lower(Lower(s)) == Lower(s)
  {
    forall i | 0 <= i < |s|
      ensures Lower(Upper(s))[i] == Lower(s)[i] && Lower(Lower(s))[i] == Lower(s)[i]
    {
      var c := s[i];
      if 'a' <= c <= 'z' {
        assert UpperChar(c) as int == c as int - 32;
      }
    }
  }

  // ---------------------------------------------------------------------
  // includes

  ghost predicate OccursAt(hay: string, needle: string, i: int) {
    0 <= i && i + |needle| <= |hay| && hay[i..i + |needle|] == needle
  }

  /** `hay.includes(needle)`, computed by trying every start position in turn. */
  function Includes(hay: string, needle: string): bool
    decreases |hay|
  {
    |needle| <= |hay| && (hay[..|needle|] == needle || (hay != [] && Includes(hay[1..], needle)))
  }

  /** `Includes` holds exactly when the needle occurs at some position of the haystack. */
  lemma {:induction false} IncludesIffOccurs(hay: string, needle: string)
    ensures Includes(hay, needle) <==> exists i :: OccursAt(hay, needle, i)
    decreases |hay|
  {
    if |needle| <= |hay| && hay[..|needle|] == needle {
      assert OccursAt(hay, needle, 0);
    } else if |needle| <= |hay| && hay != [] {
      IncludesIffOccurs(hay[1..], needle);
      // an occurrence past the first position is an occurrence in the tail
      forall i | OccursAt(hay, needle, i) && i != 0
        ensures OccursAt(hay[1..], needle, i - 1)
      {
        assert hay[1..][i - 1..i - 1 + |needle|] == hay[i..i + |needle|];
      }
      assert !OccursAt(hay, needle, 0);
      if Includes(hay[1..], needle) {
        var j :| OccursAt(hay[1..], needle, j);
        assert hay[1..][j..j + |needle|] == hay[j + 1..j + 1 + |needle|];
        assert OccursAt(hay, needle, j + 1);
      }
    }
  }

  /** The empty string is included in every string. */
  lemma EmptyIsIncluded(hay: string)
    ensures Includes(hay, "")
  {
  }

  /** Case-insensitive substring test as the admin pages write it: `a.toLowerCase().includes(b.toLowerCase())`. */
  function Mentions(field: string, term: string): bool {
    Includes(Lower(field), Lower(term))
  }

  /** The search term's case does not matter, and the empty term is mentioned by every field. */
  lemma MentionsIgnoresCase(field: string, term: string)
    ensures Mentions(field, Upper(term)) == Mentions(field, term)
    ensures Mentions(field, Lower(term)) == Mentions(field, term)
    ensures Mentions(field, "")
  {
    LowerForgetsCase(term);
    assert Lower("") == "";
    EmptyIsIncluded(Lower(field));
  }

  // ---------------------------------------------------------------------
  // path segments

  predicate SlashFree(s: string) {
    forall i :: 0 <= i < |s| ==> s[i] != '/'
  }

  /** Length of the leading run of non-slash characters. */
  function SegmentEnd(s: string): (n: nat)
    ensures n <= |s|
    ensures forall i :: 0 <= i < n ==> s[i] != '/'
    ensures n == |s| || s[n] == '/'
  {
    if s == [] || s[0] == '/' then 0 else 1 + SegmentEnd(s[1..])
  }

  /** `s.split("/").filter(Boolean)`: the maximal non-empty slash-free runs, in order. */
  function Segments(s: string): (r: seq<string>)
    ensures forall i :: 0 <= i < |r| ==> r[i] != "" && SlashFree(r[i])
    decreases |s|
  {
    if s == [] then []
    else if s[0] == '/' then Segments(s[1..])
    else
      var n := SegmentEnd(s);
      [s[..n]] + Segments(s[n..])
  }

  /** The canonical path with the given segments: each one preceded by a single slash. */
  function JoinPath(segs: seq<string>): string {
    if segs == [] then "" else "/" + segs[0] + JoinPath(segs[1..])
  }

  /** A path of four segments, spelled out. */
  lemma JoinFour(a: string, b: string, c: string, d: string)
    ensures JoinPath([a, b, c, d]) == "/" + a + ("/" + b + ("/" + c + ("/" + d)))
  {
    assert JoinPath([d]) == "/" + d by {
      assert [d][1..] == [];
    }
    assert JoinPath([c, d]) == "/" + c + ("/" + d) by {
      assert [c, d][1..] == [d];
    }
    assert JoinPath([b, c, d]) == "/" + b + ("/" + c + ("/" + d)) by {
      assert [b, c, d][1..] == [c, d];
    }
    assert [a, b, c, d][1..] == [b, c, d];
  }

  predicate WellFormedSegments(segs: seq<string>) {
    forall i :: 0 <= i < |segs| ==> segs[i] != "" && SlashFree(segs[i])
  }

  predicate AllSlashes(s: string) {
    forall i :: 0 <= i < |s| ==> s[i] == '/'
  }

  /**
   * No two slashes in a row, except in a run of slashes that reaches the
   * end of the text.
   */
  predicate SingleSlashes(s: string)
    decreases |s|
  {
    if s == [] then true
    else if s[0] == '/' && |s| > 1 && s[1] == '/' then AllSlashes(s)
    else SingleSlashes(s[1..])
  }

  /** Slash-free text in front does not change the verdict. */
  lemma {:induction false} SingleSlashesAfterSegment(h: string, t: string)
    requires SlashFree(h)
    ensures SingleSlashes(h + t) == SingleSlashes(t)
    decreases |h|
  {
    if h != [] {
      assert (h + t)[0] == h[0] != '/';
      assert (h + t)[1..] == h[1..] + t;
      assert SingleSlashes(h + t) == SingleSlashes(h[1..] + t);
      SingleSlashesAfterSegment(h[1..], t);
    } else {
      assert h + t == t;
    }
  }

  /** A canonical path has single slashes and, unless empty, starts with one. */
  lemma {:induction false} JoinPathSingleSlashes(segs: seq<string>)
    requires WellFormedSegments(segs)
    ensures var j := JoinPath(segs); SingleSlashes(j) && (j == [] || j[0] == '/')
    decreases |segs|
  {
    if segs != [] {
      var head, rest := segs[0], JoinPath(segs[1..]);
      JoinPathSingleSlashes(segs[1..]);
      assert JoinPath(segs) == "/" + (head + rest);
      assert ("/" + (head + rest))[1..] == head + rest;
      SingleSlashesAfterSegment(head, rest);
    }
  }

  /** One more trailing slash does not change the verdict. */
  lemma {:induction false} SingleSlashesTrailing(s: string)
    ensures SingleSlashes(s + "/") == SingleSlashes(s)
    decreases |s|
  {
    var t := s + "/";
    if s == [] {
    } else if s[0] == '/' && |s| > 1 && s[1] == '/' {
      assert t[0] == '/' && t[1] == '/';
      forall i | 0 <= i < |s|
        ensures t[i] == s[i]
      {
      }
      assert t[|s|] == '/';
    } else if s[0] == '/' && |s| == 1 {
      assert t == "//";
    } else {
      assert t[1..] == s[1..] + "/";
      SingleSlashesTrailing(s[1..]);
    }
  }

  /** Two slashes in a row followed by anything that does not end in a slash fail the test. */
  lemma {:induction false} DoubledSlashFails(a: string, b: string)
    requires b != [] && b[|b| - 1] != '/'
    ensures !SingleSlashes(a + "//" + b)
    decreases |a|
  {
    var s := a + "//" + b;
    assert s[|s| - 1] == b[|b| - 1];
    if a != [] && !(s[0] == '/' && s[1] == '/') {
      assert s[1..] == a[1..] + "//" + b;
      DoubledSlashFails(a[1..], b);
    }
  }

  /** `SegmentEnd` is the position of the first slash, or the length when there is none. */
  lemma {:induction false} SegmentEndIsFirstSlash(s: string, k: nat)
    requires k <= |s|
    requires forall i :: 0 <= i < k ==> s[i] != '/'
    requires k == |s| || s[k] == '/'
    ensures SegmentEnd(s) == k
  {
    if k > 0 {
      SegmentEndIsFirstSlash(s[1..], k - 1);
    }
  }

  /** Splitting a canonical path gives back its segments. */
  lemma {:induction false} SegmentsOfJoinPath(segs: seq<string>)
    requires WellFormedSegments(segs)
    ensures Segments(JoinPath(segs)) == segs
  {
    if segs != [] {
      var head, rest := segs[0], JoinPath(segs[1..]);
      var x := head + rest;
      assert JoinPath(segs) == "/" + x;
      assert ("/" + x)[1..] == x;
      assert rest == "" || rest[0] == '/';
      SegmentEndIsFirstSlash(x, |head|);
      assert x[..|head|] == head;
      assert x[|head|..] == rest;
      SegmentsOfJoinPath(segs[1..]);
    }
  }

  /** A trailing slash does not change the segments. */
  lemma {:induction false} SegmentsIgnoreTrailingSlash(s: string)
    ensures Segments(s + "/") == Segments(s)
    decreases |s|
  {
    if s == [] {
      assert Segments("/") == Segments("");
    } else if s[0] == '/' {
      assert (s + "/")[1..] == s[1..] + "/";
      SegmentsIgnoreTrailingSlash(s[1..]);
    } else {
      var n := SegmentEnd(s);
      var t := s + "/";
      SegmentEndIsFirstSlash(t, n);
      assert t[..n] == s[..n];
      assert t[n..] == s[n..] + "/";
      SegmentsIgnoreTrailingSlash(s[n..]);
    }
  }

  /** Doubling a leading slash does not change the segments. */
  lemma SegmentsIgnoreLeadingSlash(s: string)
    ensures Segments("/" + s) == Segments(s)
  {
    assert ("/" + s)[1..] == s;
  }

  // ---------------------------------------------------------------------
  // numbers as text

  predicate IsDigit(c: char) {
    '0' <= c <= '9'
  }

  predicate AllDigits(s: string) {
    forall i :: 0 <= i < |s| ==> IsDigit(s[i])
  }

  function DigitChar(d: nat): (c: char)
    requires d < 10
    ensures IsDigit(c)
  {
    "0123456789"[d]
  }

  /** `String(n)` for a natural number: decimal digits without leading zeros. */
  function Decimal(n: nat): (s: string)
    ensures |s| >= 1 && AllDigits(s)
    ensures n > 0 ==> s[0] != '0'
  {
    if n < 10 then [DigitChar(n)] else Decimal(n / 10) + [DigitChar(n % 10)]
  }

  /** The number a string of decimal digits denotes, leading zeros included. */
  function DigitsValue(s: string): nat
    requires AllDigits(s)
  {
    if s == [] then 0 else DigitsValue(s[..|s| - 1]) * 10 + (s[|s| - 1] as int - '0' as int)
  }

  /** Reading back `String(n)` gives `n`. */
  lemma {:induction false} DecimalValue(n: nat)
    ensures DigitsValue(Decimal(n)) == n
  {
    if n >= 10 {
      var s := Decimal(n);
      assert s[..|s| - 1] == Decimal(n / 10);
      DecimalValue(n / 10);
    }
  }

  /** `String(n)` has at most three characters below 1000. */
  lemma DecimalLength(n: nat)
    requires n < 1000
    ensures |Decimal(n)| <= 3
  {
    if n >= 10 {
      var m := n / 10;
      assert m < 100;
      assert |Decimal(n)| == |Decimal(m)| + 1;
      if m >= 10 {
        assert m / 10 < 10;
        assert |Decimal(m)| == |Decimal(m / 10)| + 1;
      }
    }
  }

  function Repeat(c: char, k: nat): (r: string)
    ensures |r| == k
    ensures forall i :: 0 <= i < k ==> r[i] == c
  {
    if k == 0 then "" else [c] + Repeat(c, k - 1)
  }

  /** `s.padStart(width, c)`: pads on the left to `width`, never truncates. */
  function PadStart(s: string, width: nat, c: char): (r: string)
    ensures |r| == if |s| >= width then |s| else width
    ensures r[|r| - |s|..] == s
    ensures forall i :: 0 <= i < |r| - |s| ==> r[i] == c
  {
    if |s| >= width then s else Repeat(c, width - |s|) + s
  }

  /** Leading zeros do not change the value of a digit string. */
  lemma {:induction false} LeadingZerosValue(k: nat, s: string)
    requires AllDigits(s)
    ensures AllDigits(Repeat('0', k) + s)
    ensures DigitsValue(Repeat('0', k) + s) == DigitsValue(s)
    decreases |s| + k
  {
    var z := Repeat('0', k);
    if s == [] {
      assert z + s == z;
      if k > 0 {
        assert z[..k - 1] == Repeat('0', k - 1) + "";
        LeadingZerosValue(k - 1, "");
      }
    } else {
      var init := s[..|s| - 1];
      assert (z + s)[..|z + s| - 1] == z + init;
      LeadingZerosValue(k, init);
    }
  }

  /** Zero-padding a decimal numeral keeps its value. */
  lemma PaddedDecimalValue(n: nat, width: nat)
    ensures AllDigits(PadStart(Decimal(n), width, '0'))
    ensures DigitsValue(PadStart(Decimal(n), width, '0')) == n
  {
    var d := Decimal(n);
    DecimalValue(n);
    if |d| < width {
      LeadingZerosValue(width - |d|, d);
    }
  }
}

=== FILE: timesheet_approvals.dfy ===
/**
 * The project manager's timesheet approvals page: the status filter, the
 * per-row approve and reject actions with their in-flight state, and what a
 * decision does to the loaded list.
 */
module TimesheetApprovals {
  import opened Wrappers
  import opened Json
  import opened Seqs
  import opened PageLists
  import opened MockData
  import opened Service

  /** The filter the page opens with. */
  const DefaultFilter := "PENDING"

  const LoadFailure := "Unable to load timesheet approvals."
  const ActionFailure := "Unable to update timesheet status. Try again."

  datatype Action = Approve | Reject

  /**
   * The action in flight per timesheet id. An id that was never acted on is
   * absent; one whose action finished maps to `None` (the source writes null).
   */
  type InFlight = map<string, Option<Action>>

  /** The loaded list, the page message, and the in-flight actions. */
  datatype Page = Page(timesheets: seq<Record>, error: string, inFlight: InFlight)

  /** The page once its list has loaded: a missing list is empty, a failure leaves the list empty with a message. */
  function Load<E>(result: Result<Option<seq<Record>>, E>): (p: Page)
    ensures p.inFlight == map[]
    ensures result.Err? <==> p.error != ""
    ensures result.Err? ==> p.timesheets == [] && p.error == LoadFailure
    ensures result.Ok? ==> p.timesheets == result.value.GetOr([])
  {
    match result
    case Ok(data) => Page(data.GetOr([]), "", map[])
    case Err(_) => Page([], LoadFailure, map[])
  }

  /** `filteredTimesheets`: `ALL` keeps the list as it is; any other choice keeps the rows with exactly that status. */
  function FilterTimesheets(items: seq<Record>, filter: string): (r: seq<Record>)
    ensures filter == All ==> r == items
    ensures forall i :: 0 <= i < |r| ==> r[i] in items
    ensures filter != All ==> forall i :: 0 <= i < |r| ==> HasStatus(r[i], filter)
    ensures filter != All ==> forall i :: 0 <= i < |items| && HasStatus(items[i], filter) ==> items[i] in r
  {
    if filter == All then items else Filter(items, t => HasStatus(t, filter))
  }

  /** Whether an action is running for the id: an entry that is neither absent nor null. */
  predicate Busy(inFlight: InFlight, id: string) {
    id in inFlight && inFlight[id].Some?
  }

  /** The id the row is keyed by; the model takes timesheet ids to be strings. */
  predicate RowBusy(inFlight: InFlight, item: Record) {
    Get(item, "id").Str? && Busy(inFlight, Get(item, "id").s)
  }

  /** Both buttons of a row are enabled only for a pending timesheet with no action in flight. */
  predicate Enabled(inFlight: InFlight, item: Record) {
    !RowBusy(inFlight, item) && HasStatus(item, "PENDING")
  }

  /** A button's caption: the running form while its own action is in flight. */
  function ButtonText(inFlight: InFlight, id: string, action: Action): (t: string)
    ensures (id in inFlight && inFlight[id] == Some(action)) <==> t in {"Approving...", "Rejecting..."}
    ensures action == Approve ==> t in {"Approve", "Approving..."}
    ensures action == Reject ==> t in {"Reject", "Rejecting..."}
  {
    var running := id in inFlight && inFlight[id] == Some(action);
    match action
    case Approve => if running then "Approving..." else "Approve"
    case Reject => if running then "Rejecting..." else "Reject"
  }

  /** The data-layer call a click makes. */
  function ActionCall(id: string, action: Action): (c: Call)
    ensures c.IsWrite()
    ensures c.ApproveTimesheet? <==> action == Approve
    ensures c.ApproveTimesheet? ==> c.id == id
    ensures c.RejectTimesheet? ==> c.id == id
  {
    match action
    case Approve => ApproveTimesheet(id)
    case Reject => RejectTimesheet(id)
  }

  /** The click: the id's entry records the action before the call goes out. */
  function Begin(p: Page, id: string, action: Action): (q: Page)
    ensures Busy(q.inFlight, id)
    ensures q.timesheets == p.timesheets && q.error == p.error
    ensures forall k :: k != id ==> (k in q.inFlight <==> k in p.inFlight)
    ensures forall k :: k != id && k in p.inFlight ==> q.inFlight[k] == p.inFlight[k]
  {
    p.(inFlight := p.inFlight[id := Some(action)])
  }

  /**
   * The answer: a returned record replaces every row with the id, a failure
   * sets the page message; either way the id's entry is set back to null.
   */
  function Finish<E>(p: Page, id: string, result: Result<Record, E>): (q: Page)
    ensures !Busy(q.inFlight, id) && id in q.inFlight
    ensures forall k :: k != id ==> (k in q.inFlight <==> k in p.inFlight)
    ensures forall k :: k != id && k in p.inFlight ==> q.inFlight[k] == p.inFlight[k]
    ensures result.Err? ==> q.timesheets == p.timesheets && q.error == ActionFailure
    ensures result.Ok? ==> q.error == p.error && |q.timesheets| == |p.timesheets|
    ensures result.Ok? ==> forall i :: 0 <= i < |p.timesheets| ==>
      q.timesheets[i] == if HasId(p.timesheets[i], id) then result.value else p.timesheets[i]
  {
    var cleared := p.inFlight[id := None];
    match result
    case Ok(updated) => Page(ReplaceWhere(p.timesheets, "id", Str(id), updated), p.error, cleared)
    case Err(_) => Page(p.timesheets, ActionFailure, cleared)
  }

  // ---------------------------------------------------------------------
  // properties

  /** The page opens on the pending rows only. */
  lemma LoadedPageShowsPending<E>(result: Result<Option<seq<Record>>, E>, i: nat)
    requires i < |FilterTimesheets(Load(result).timesheets, DefaultFilter)|
    ensures HasStatus(FilterTimesheets(Load(result).timesheets, DefaultFilter)[i], "PENDING")
  {
  }

  /** Under a particular status every row shown has it, and the three statuses split a list that uses only them. */
  lemma StatusViewsPartition(items: seq<Record>)
    requires forall i :: 0 <= i < |items| ==>
      HasStatus(items[i], "PENDING") || HasStatus(items[i], "APPROVED") || HasStatus(items[i], "REJECTED")
    ensures |FilterTimesheets(items, "PENDING")| + |FilterTimesheets(items, "APPROVED")| + |FilterTimesheets(items, "REJECTED")|
         == |FilterTimesheets(items, All)|
  {
    FilterPartitionCounts(items, t => HasStatus(t, "PENDING"), t => HasStatus(t, "APPROVED"), t => HasStatus(t, "REJECTED"));
  }

  /** While a call is out, the row's buttons are disabled and the clicked one shows its running caption. */
  lemma DisabledWhileInFlight(p: Page, id: string, action: Action, item: Record)
    requires HasId(item, id)
    ensures !Enabled(Begin(p, id, action).inFlight, item)
    ensures ButtonText(Begin(p, id, action).inFlight, id, action) == (if action == Approve then "Approving..." else "Rejecting...")
  {
  }

  /** A finished action frees its row without touching other rows' in-flight state, whatever the answer. */
  lemma FinishFreesRow<E>(p: Page, id: string, action: Action, result: Result<Record, E>, item: Record)
    requires HasId(item, id) && HasStatus(item, "PENDING")
    ensures Enabled(Finish(Begin(p, id, action), id, result).inFlight, item)
    ensures forall k :: k != id ==> Busy(Finish(Begin(p, id, action), id, result).inFlight, k) == Busy(p.inFlight, k)
  {
  }

  /** A decided timesheet stays disabled, whatever the in-flight state. */
  lemma DecidedStaysDisabled(inFlight: InFlight, item: Record)
    requires HasStatus(item, "APPROVED") || HasStatus(item, "REJECTED")
    ensures !Enabled(inFlight, item)
  {
  }

  /**
   * Approving a known timesheet against the mock store: every row with the
   * id comes back APPROVED, stays disabled, and leaves the pending view.
   */
  lemma MockApprovalLeavesPendingView(p: Page, s: Store, id: string, now: string, stampBefore: nat -> string)
    requires exists j :: 0 <= j < |s.timesheets| && HasId(s.timesheets[j], id)
    ensures var r := Run(Mock, s, ActionCall(id, Approve), now, stampBefore);
      r.out.Ok? && r.out.value.Obj? &&
      var q := Finish<Error>(Begin(p, id, Approve), id, Ok(r.out.value.fields));
      && q.error == p.error
      && (forall i :: 0 <= i < |q.timesheets| && HasId(p.timesheets[i], id) ==>
            HasStatus(q.timesheets[i], "APPROVED") && !Enabled(q.inFlight, q.timesheets[i]))
      && (forall i :: 0 <= i < |p.timesheets| && HasId(p.timesheets[i], id) ==>
            q.timesheets[i] !in FilterTimesheets(q.timesheets, "PENDING"))
  {
    MockDecisionsStampStatus(s, id, now, stampBefore);
  }

  /** A failed decision changes no row and reports the failure. */
  lemma FailedDecisionKeepsRows<E>(p: Page, id: string, action: Action, e: E)
    ensures Finish(Begin(p, id, action), id, Err(e)).timesheets == p.timesheets
    ensures Finish(Begin(p, id, action), id, Err(e)).error == ActionFailure
  {
  }
}

=== FILE: topbar.dfy ===
/**
 * The top bar: the page heading derived from the current path, the signed-in
 * user's display name, initials and role badge, and sign-out.
 */
module Topbar {
  import opened Wrappers
  import opened Text
  import opened Users
  import opened Gates
  import opened AppRoutes
  import AuthStore

  datatype Heading = Heading(title: string, subtitle: string)

  const Explore := Heading("Workspace", "Explore The GAP HR portal.")
  const Workspace := Heading("Workspace", "Monitor activity and manage updates for The GAP.")
  const EmployeeManagement := Heading("Employee Management", "Track crews, assignments, and onboarding.")
  const ProjectManagement := Heading("Project Management", "Plan labor, budgets, and geofences.")
  const AdminOverview := Heading("Admin Dashboard", "Monitor workforce health across all sites.")
  const TimesheetReview := Heading("Timesheet Approvals", "Review hours submitted by your crews.")
  const ProjectOverview := Heading("Project Dashboard", "Compare budgets, hours, and site performance.")

  /** The heading for the second and third path segments; the third may be missing. */
  function SectionHeading(section: string, resource: Option<string>): Heading {
    if section == "admin" then
      if resource == Some("employees") then EmployeeManagement
      else if resource == Some("projects") then ProjectManagement
      else AdminOverview
    else if section == "pm" && resource == Some("approvals") then TimesheetReview
    else if section == "pm" && resource == Some("dashboard") then ProjectOverview
    else Workspace
  }

  /** `resolveHeading`: fewer than two segments is the workspace landing; otherwise segments two and three decide. */
  function ResolveHeading(pathname: string): (h: Heading)
    ensures h == Explore <==> |Segments(pathname)| < 2
  {
    var segs := Segments(pathname);
    if |segs| < 2 then Explore
    else SectionHeading(segs[1], if |segs| > 2 then Some(segs[2]) else None)
  }

  const RoleLabels: map<string, string> := map[
    HrAdmin := "HR Admin",
    Pm := "Project Manager",
    Foreman := "Foreman",
    Worker := "Worker"
  ]

  /** The role's label, the raw role when it has none, and empty without a role. */
  function RoleLabel(user: Option<Identity>): (shown: string)
    ensures shown == "" <==> user.None? || user.value.role == ""
  {
    if user.None? || user.value.role == "" then ""
    else if user.value.role in RoleLabels then RoleLabels[user.value.role]
    else user.value.role
  }

  /** The badge under the name: the role label, or "Signed in" when there is none. */
  function Badge(user: Option<Identity>): (b: string)
    ensures b != ""
    ensures b == "Signed in" <==> user.None? || user.value.role == "" || user.value.role == "Signed in"
  {
    var shown := RoleLabel(user);
    if shown != "" then shown else "Signed in"
  }

  /** The name shown: the user's name, else the email, else "User" (empty strings do not count). */
  function DisplayName(user: Option<Identity>): (d: string)
    ensures d != ""
    ensures user.Some? && user.value.name != "" ==> d == user.value.name
    ensures user.Some? && user.value.name == "" && user.value.email != "" ==> d == user.value.email
    ensures user.None? || (user.value.name == "" && user.value.email == "") ==> d == "User"
  {
    if user.Some? && user.value.name != "" then user.value.name
    else if user.Some? && user.value.email != "" then user.value.email
    else "User"
  }

  /** How many UTF-16 code units JavaScript spends on a character: two above U+FFFF, one otherwise. */
  function CodeUnits(c: char): (n: nat)
    ensures 1 <= n <= 2
  {
    if c as int > 0xFFFF then 2 else 1
  }

  /** The UTF-16 length of a text, which is what JavaScript's `length` and `slice` count. */
  function Units(s: string): (n: nat)
    ensures |s| <= n <= 2 * |s|
  {
    if s == [] then 0 else CodeUnits(s[0]) + Units(s[1..])
  }

  /** UTF-16 length adds up over concatenation, as JavaScript's `length` does. */
  lemma {:induction false} UnitsAppend(a: string, b: string)
    ensures Units(a + b) == Units(a) + Units(b)
  {
    if a == [] {
      assert a + b == b;
    } else {
      assert (a + b)[0] == a[0] && (a + b)[1..] == a[1..] + b;
      UnitsAppend(a[1..], b);
    }
  }

  /**
   * The avatar's initials: the display name's first two UTF-16 code units,
   * upper-cased. A character above U+FFFF fills both units on its own.
   */
  function Initials(user: Option<Identity>): (r: string)
    ensures 1 <= |r| <= 2 && |r| <= |DisplayName(user)| && Units(r) <= 2
    ensures |r| < |DisplayName(user)| ==> Units(r) + CodeUnits(DisplayName(user)[|r|]) > 2
    ensures forall i :: 0 <= i < |r| ==> r[i] == UpperChar(DisplayName(user)[i]) && !('a' <= r[i] <= 'z')
  {
    var d := DisplayName(user);
    var n := if |d| >= 2 && CodeUnits(d[0]) == 1 && CodeUnits(d[1]) == 1 then 2 else 1;
    var r := Upper(d[..n]);
    UpperHasNoLowerCase(d[..n]);
    assert Units(r) == CodeUnits(r[0]) + Units(r[1..]);
    assert n == 2 ==> Units(r[1..]) == CodeUnits(r[1]) + Units(r[2..]);
    r
  }

  /** A name opening with a character above U+FFFF shows that character alone; two plain letters show both, upper-cased. */
  lemma InitialsCountCodeUnits()
    ensures Initials(Some(Identity("u", "\U{1F600}a", "", Pm))) == "\U{1F600}"
    ensures Initials(Some(Identity("u", "ada", "", Pm))) == "AD"
  {
    var wide := Initials(Some(Identity("u", "\U{1F600}a", "", Pm)));
    assert DisplayName(Some(Identity("u", "\U{1F600}a", "", Pm)))[0] == '\U{1F600}';
    assert |wide| == 1;
    var plain := Initials(Some(Identity("u", "ada", "", Pm)));
    assert DisplayName(Some(Identity("u", "ada", "", Pm))) == "ada";
    assert |plain| == 2;
  }

  /** Sign-out: the session keys are cleared and the app goes to the login page. */
  function SignOut(st: AuthStore.Storage): (r: (AuthStore.Storage, string))
    ensures r.1 == LoginPath
  {
    (AuthStore.ClearAuth(st), LoginPath)
  }

  // ---------------------------------------------------------------------
  // properties

  /** The heading agrees with the page the route table shows at the same path. */
  lemma HeadingNamesThePage(path: string)
    ensures Match(path) == Employees ==> ResolveHeading(path) == EmployeeManagement
    ensures Match(path) == Projects ==> ResolveHeading(path) == ProjectManagement
    ensures Match(path) == AdminDashboard || Match(path) == AdminIndex ==> ResolveHeading(path) == AdminOverview
    ensures Match(path) == Approvals ==> ResolveHeading(path) == TimesheetReview
    ensures Match(path).PmDashboard? ==> ResolveHeading(path) == ProjectOverview
    ensures Match(path) == AppIndex || Match(path) == Root || Match(path) == Login ==> ResolveHeading(path) == Explore
    ensures Match(path) == PmIndex ==> ResolveHeading(path) == Workspace
  {
  }

  /** Only segments two and three matter: the first segment and anything after the third are ignored. */
  lemma HeadingReadsSegmentsTwoAndThree(p: string, q: string)
    requires |Segments(p)| >= 2 && |Segments(q)| >= 2
    requires Segments(p)[1] == Segments(q)[1]
    requires (|Segments(p)| == 2 && |Segments(q)| == 2) || (|Segments(p)| > 2 && |Segments(q)| > 2 && Segments(p)[2] == Segments(q)[2])
    ensures ResolveHeading(p) == ResolveHeading(q)
  {
  }

  /** Extra slashes do not change the heading. */
  lemma HeadingIgnoresSlashes(path: string)
    ensures ResolveHeading(path + "/") == ResolveHeading(path)
    ensures ResolveHeading("/" + path) == ResolveHeading(path)
  {
    SegmentsIgnoreTrailingSlash(path);
    SegmentsIgnoreLeadingSlash(path);
  }

  /** The four known roles show their labels; any other non-empty role shows as written. */
  lemma BadgeNamesRole(user: Option<Identity>)
    requires user.Some? && user.value.role != ""
    ensures user.value.role == HrAdmin ==> Badge(user) == "HR Admin"
    ensures user.value.role == Pm ==> Badge(user) == "Project Manager"
    ensures user.value.role == Foreman ==> Badge(user) == "Foreman"
    ensures user.value.role == Worker ==> Badge(user) == "Worker"
    ensures user.value.role !in {HrAdmin, Pm, Foreman, Worker} ==> Badge(user) == user.value.role
  {
  }

  /** After signing out no page under `/app` opens, whoever the caller still believes is signed in. */
  lemma SignOutEndsSession(st: AuthStore.Storage, path: string, user: Option<Identity>)
    requires Match(path).UnderApp()
    ensures var after := SignOut(st).0;
      AuthStore.GetAccessToken(after) == None
      && AuthStore.GetUser(after) == Ok(None)
      && Render(path, AuthStore.GetAccessToken(after), user) == Go(LoginPath, Some(path))
  {
    AuthStore.ClearThenRead(st);
  }
}

=== FILE: uri.dfy ===
/**
 * `encodeURIComponent` (section 19.2.6.5 of ECMA-262): characters outside
 * the unreserved set `A-Z a-z 0-9 - _ . ! ~ * ' ( )` are written as the
 * percent-escaped bytes of their UTF-8 encoding, with upper-case hex digits.
 */
module Uri {

  predicate Unreserved(c: char) {
    || 'A' <= c <= 'Z' || 'a' <= c <= 'z' || '0' <= c <= '9'
    || c == '-' || c == '_' || c == '.' || c == '!' || c == '~'
    || c == '*' || c == '\'' || c == '(' || c == ')'
  }

  function UpperHexDigit(d: nat): (c: char)
    requires d < 16
    ensures Unreserved(c)
  {
    if d < 10 then ('0' as int + d) as char else ('A' as int + d - 10) as char
  }

  /** The UTF-8 bytes of one Unicode scalar value. */
  function Utf8(c: char): (bytes: seq<nat>)
    ensures 1 <= |bytes| <= 4
    ensures forall i :: 0 <= i < |bytes| ==> bytes[i] < 256
    ensures c as int < 0x80 ==> bytes == [c as int]
  {
    var cp := c as int;
    if cp < 0x80 then [cp]
    else if cp < 0x800 then [0xC0 + cp / 64, 0x80 + cp % 64]
    else if cp < 0x10000 then [0xE0 + cp / 4096, 0x80 + (cp / 64) % 64, 0x80 + cp % 64]
    else [0xF0 + cp / 262144, 0x80 + (cp / 4096) % 64, 0x80 + (cp / 64) % 64, 0x80 + cp % 64]
  }

  function PercentBytes(bytes: seq<nat>): string
    requires forall i :: 0 <= i < |bytes| ==> bytes[i] < 256
  {
    if bytes == [] then ""
    else "%" + [UpperHexDigit(bytes[0] / 16), UpperHexDigit(bytes[0] % 16)] + PercentBytes(bytes[1..])
  }

  function EncodeChar(c: char): string {
    if Unreserved(c) then [c] else PercentBytes(Utf8(c))
  }

  /** `encodeURIComponent(s)`. */
  function EncodeUriComponent(s: string): (r: string)
    ensures r == [] <==> s == []
  {
    if s == [] then "" else EncodeChar(s[0]) + EncodeUriComponent(s[1..])
  }

  /** Characters that can appear in an encoded component. */
  predicate ComponentChar(c: char) {
    Unreserved(c) || c == '%'
  }

  predicate ComponentText(s: string) {
    forall i :: 0 <= i < |s| ==> ComponentChar(s[i])
  }

  lemma {:induction false} PercentBytesAreComponentText(bytes: seq<nat>)
    requires forall i :: 0 <= i < |bytes| ==> bytes[i] < 256
    ensures ComponentText(PercentBytes(bytes))
    ensures |PercentBytes(bytes)| == 3 * |bytes|
  {
    if bytes != [] {
      PercentBytesAreComponentText(bytes[1..]);
    }
  }

  /**
   * The encoded text holds only unreserved characters and `%`, so it can never
   * end the query value it is put in (`&`, `#`), start a new one (`=`, `?`)
   * or change the path (`/`).
   */
  lemma {:induction false} EncodedIsComponentText(s: string)
    ensures ComponentText(EncodeUriComponent(s))
    ensures |EncodeUriComponent(s)| >= |s|
  {
    if s != [] {
      if !Unreserved(s[0]) {
        PercentBytesAreComponentText(Utf8(s[0]));
      }
      EncodedIsComponentText(s[1..]);
    }
  }

  /** Text made of unreserved characters passes through unchanged. */
  lemma {:induction false} UnreservedUnchanged(s: string)
    requires forall i :: 0 <= i < |s| ==> Unreserved(s[i])
    ensures EncodeUriComponent(s) == s
  {
    if s != [] {
      UnreservedUnchanged(s[1..]);
    }
  }

  /** A reserved ASCII character becomes `%` and its two upper-case hex digits. */
  lemma ReservedAsciiEscape(c: char)
    requires c as int < 0x80 && !Unreserved(c)
    ensures EncodeUriComponent([c]) == "%" + [UpperHexDigit(c as int / 16), UpperHexDigit(c as int % 16)]
  {
    assert [c][1..] == [];
    assert Utf8(c) == [c as int];
    assert Utf8(c)[1..] == [];
    assert PercentBytes(Utf8(c)) == "%" + [UpperHexDigit(c as int / 16), UpperHexDigit(c as int % 16)] + "";
  }
}

=== FILE: users.dfy ===
/**
 * The signed-in user (`{ id, name, email, role }`) and the role names the
 * portal branches on, with the JSON text the session store keeps for it.
 */
module Users {
  import opened Wrappers
  import opened JsonText

  const HrAdmin := "HR_ADMIN"
  const Pm := "PM"
  const Foreman := "FOREMAN"
  const Worker := "WORKER"

  datatype Identity = Identity(id: string, name: string, email: string, role: string)

  /** `JSON.stringify(user)`: the four members in declaration order, no whitespace. */
  function EncodeIdentity(u: Identity): (r: string)
    ensures |r| >= 2 && r[0] == '{' && r[|r| - 1] == '}'
  {
    "{" + MembersFromId(u)
  }

  function MembersFromId(u: Identity): string {
    Member("id", u.id) + "," + MembersFromName(u)
  }

  function MembersFromName(u: Identity): string {
    Member("name", u.name) + "," + MembersFromEmail(u)
  }

  function MembersFromEmail(u: Identity): string {
    Member("email", u.email) + "," + MembersFromRole(u)
  }

  function MembersFromRole(u: Identity): string {
    Member("role", u.role) + "}"
  }

  /** The user carried by a parsed object, when it has all four members. */
  function IdentityOf(m: map<string, string>): Option<Identity> {
    if "id" in m && "name" in m && "email" in m && "role" in m
    then Some(Identity(m["id"], m["name"], m["email"], m["role"]))
    else None
  }

  /** `JSON.parse(text)` read as a user; `None` when the text is not such an object. */
  function DecodeIdentity(text: string): Option<Identity> {
    match ParseFlatObject(text)
    case None => None
    case Some(m) => IdentityOf(m)
  }

  lemma IdentityOfMembers(u: Identity)
    ensures IdentityOf(map["id" := u.id]["name" := u.name]["email" := u.email]["role" := u.role]) == Some(u)
  {
  }

  lemma ReadFromRole(u: Identity, acc: map<string, string>)
    ensures ParseMembers(MembersFromRole(u), acc) == Some(acc["role" := u.role])
  {
    ReadLastMember("role", u.role, acc);
  }

  lemma ReadFromEmail(u: Identity, acc: map<string, string>)
    ensures ParseMembers(MembersFromEmail(u), acc) == Some(acc["email" := u.email]["role" := u.role])
  {
    MemberStartsWithQuote("role", u.role, "}");
    ReadMemberThenMore("email", u.email, MembersFromRole(u), acc);
    ReadFromRole(u, acc["email" := u.email]);
  }

  lemma ReadFromName(u: Identity, acc: map<string, string>)
    ensures ParseMembers(MembersFromName(u), acc) == Some(acc["name" := u.name]["email" := u.email]["role" := u.role])
  {
    MemberStartsWithQuote("email", u.email, "," + MembersFromRole(u));
    ReadMemberThenMore("name", u.name, MembersFromEmail(u), acc);
    ReadFromEmail(u, acc["name" := u.name]);
  }

  lemma ReadFromId(u: Identity)
    ensures ParseMembers(MembersFromId(u), map[]) == Some(map["id" := u.id]["name" := u.name]["email" := u.email]["role" := u.role])
  {
    MemberStartsWithQuote("name", u.name, "," + MembersFromEmail(u));
    ReadMemberThenMore("id", u.id, MembersFromName(u), map[]);
    ReadFromName(u, map["id" := u.id]);
  }

  /** Stored user text read back: the JSON round trip is exact. */
  lemma DecodeEncode(u: Identity)
    ensures DecodeIdentity(EncodeIdentity(u)) == Some(u)
  {
    MemberStartsWithQuote("id", u.id, "," + MembersFromName(u));
    ReadObjectStart(MembersFromId(u));
    ReadFromId(u);
    IdentityOfMembers(u);
  }
}

=== FILE: wrappers.dfy ===
/**
 * Failure-carrying values shared by every module of the portal model.
 * `Option` stands for JavaScript's `null`/`undefined` alternatives and
 * `Result` for a call that either returns or throws.
 */
module Wrappers {

  datatype Option<+T> = None | Some(value: T) {
    function GetOr(default: T): T {
      match this
      case Some(v) => v
      case None => default
    }
  }

  datatype Result<+T, +E> = Ok(value: T) | Err(error: E)
}
